=== FILE: README.md ===
# DoodlePad core in Dafny

DoodlePad is a Java library for teaching with graphics. A `Pad` is a
window holding an ordered list of `Layer`s, and each layer holds an ordered
list of `Shape`s. Shapes have a location, a size, selection and drag flags,
and an affine transform. A pointer event goes to the shape under the
pointer; when there is none, it goes to the Pad and its listeners.

The library finds the shape under the pointer with a hit image. Every paint
pass also draws each visible, event-enabled shape off screen in a colour of
its own. It keeps a table from colour to shape, and looks up the pixel
under the pointer.

This project models, as immutable data and pure functions:

- the scene of layers and shapes, with the layer operations and the Pad's
  transforms;
- the paint pass and hit resolution;
- the press, release, move and drag protocol, with its entered and exited
  crossings;
- the tick timers (`Timer` and the Pad's own timer) and the frame `Throttle`;
- the geometry bookkeeping of `Polygon`, `Path`, `Line` and `Sprite`;
- `Util.constrain`;
- the Linear, Back and Bounce easings;
- the drag logic of the interactive Bezier widget of the web pages
  (`web/widgets/curveTo.js`).

Modelling choices:

- **Objects and handlers.** Shapes and layers are named by ids in an arena.
  A pointer handler returns the new state and the trace of callbacks it
  made. The shape callbacks are `onMousePressed` and the like, plus
  `onSelectionChanged`; the Pad calls are its own `onMouseX` and its
  listeners.
- **Exceptions.** A Java exception is an `Err` result, or a `Fault` entry
  that ends the trace.
- **Numbers.** Doubles are reals. Where the source casts or rounds, the
  model does it explicitly:
  - `(int)` saturates;
  - `java.awt.Point` rounds half up;
  - `long` arithmetic wraps at 2^64.
- **Transforms.** `AffineTransform` is a 2x3 matrix. `inverseTransform` is
  `None` when the determinant is zero.
- **Coverage.** Which pixels a shape covers is a parameter of the paint
  pass.

Behaviour the proofs bring out:

- A press on a shape delivers the shape's pressed callback once per layer
  of the Pad, not once. The delivery sits inside the layer loop.
- A press calls `startDrag` on every listed shape, selected or not.
  - A listed shape whose layer back-reference is `null` throws a
    `NullPointerException`.
  - The handler ends there (a `Fault`).
  - Such a shape arises when `removeShape` is called on a layer that does
    not list it: the back-reference is cleared anyway, while another layer
    still lists the shape.
  - With every listed shape attached, nothing throws. This is proved.
- On a move or a drag, the Pad's entered callback is made when the pointer
  leaves a shape for the background. The exited callback is made when it
  comes onto a shape from the background. Both get the raw window point:
  the inverse-transformed point is computed and then not used. The Pad's
  dragged callback also gets the raw point.
- `Pad.setTickRate(0)` is accepted, while `Timer.setTickRate(0)` throws.
  The period `(int)(1000.0 / 0)` saturates to `Integer.MAX_VALUE`.
- `startTimer` raises a rate below 1 to 1, but it does not recompute the
  Swing timer's period.
- With crossed bounds the two `constrain` versions disagree:
  - the `int` version returns `max`;
  - the `double` version returns `min`.
- Polygon `setSize` on a polygon of zero width leaves its width at zero:
  the scale ratio of a zero extent is 1. The recorded width is then the
  requested one, which no longer matches the points.
- In the Bezier widget, a `mousedown` that misses every handle clears the
  offset but keeps the grab. A `mousemove` then throws. This happens when
  the `mouseup` was lost, for example when the button was released outside
  the canvas.

## Model

| member | source | states |
|---|---|---|
| `Util.ConstrainInt` | src/doodlepad/Util.java:32-36 | For `min <= max`: the result lies in `[min, max]`, and it equals the value exactly when the value is in range; below `min` gives `min`, above `max` gives `max`. With crossed bounds the result is `max`. |
| `Util.ConstrainReal` | src/doodlepad/Util.java:38-40 | The same clamp on doubles, except that with crossed bounds the result is `min`. |
| `Util.ConstrainIntIdempotent` | src/doodlepad/Util.java:32-36 | Clamping an `int` twice is clamping it once. |
| `Util.ConstrainRealIdempotent` | src/doodlepad/Util.java:38-40 | Clamping a double twice is clamping it once. |
| `Util.ConstrainMonotone` | src/doodlepad/Util.java:32-40 | Both clamps preserve the order of their inputs. |
| `Util.ConstrainAgree` | src/doodlepad/Util.java:32-40 | For consistent bounds the double clamp of an integer equals the integer clamp. |
| `Easing.Linear` | src/doodlepad/easing/Linear.java:39-77 | All four linear easings start at `b` at time 0 and reach `b + c` at time `d`. |
| `Easing.LinearStep` | src/doodlepad/easing/Linear.java:39-41 | Equal time steps `h` give equal value steps `c * h / d`: the motion has constant speed. |
| `Easing.LinearMonotone` | src/doodlepad/easing/Linear.java:39-41 | With a positive duration and a non-negative change, the value never decreases. |
| `Easing.BackEaseIn` | src/doodlepad/easing/Back.java:39-42 | Starts at `b` and ends at `b + c`. |
| `Easing.BackEaseInDips` | src/doodlepad/easing/Back.java:39-42 | For a positive change it first pulls back: half way through, the value is below `b`. |
| `Easing.BackEaseOut` | src/doodlepad/easing/Back.java:53-56 | Starts at `b` and ends at `b + c`. |
| `Easing.BackEaseOutOvershoots` | src/doodlepad/easing/Back.java:53-56 | For a positive change it overshoots: half way through, the value is above `b + c`. |
| `Easing.BackEaseInOut` | src/doodlepad/easing/Back.java:66-70 | Starts at `b`. |
| `Easing.BackEaseInOutEnds` | src/doodlepad/easing/Back.java:66-70 | Reaches `b + c / 2` half way through and `b + c` at the end, although the overshoot constant is rescaled. |
| `Easing.BounceUnit` | src/doodlepad/easing/Bounce.java:51-61 | The normalised bounce curve maps `[0, 1]` into `[0, 1]`, with 0 going to 0 and 1 going to 1. |
| `Easing.BounceBreakpoints` | src/doodlepad/easing/Bounce.java:51-61 | At each of the three breakpoints both neighbouring arcs reach full height, so the curve is continuous there. |
| `Easing.BounceTouchDown` | src/doodlepad/easing/Bounce.java:51-61 | At each breakpoint time the eased value touches down at `b + c`. |
| `Easing.BounceEaseOut` | src/doodlepad/easing/Bounce.java:51-61 | Starts at `b` and ends at `b + c`. |
| `Easing.BounceEaseOutBounded` | src/doodlepad/easing/Bounce.java:51-61 | For a rising curve, the value stays between `b` and `b + c` throughout the duration. |
| `Easing.BounceEaseIn` | src/doodlepad/easing/Bounce.java:39-41 | Starts at `b` and ends at `b + c`: the out curve played backwards. |
| `Easing.BounceEaseInOut` | src/doodlepad/easing/Bounce.java:72-75 | Starts at `b`, is exactly half way at half time, and ends at `b + c`. |
| `Throttle.DefaultThrottle` | src/doodlepad/Throttle.java:40-42 | The default frame lasts 16 666 666 ns (60 frames per second) and starts now. |
| `Throttle.NewThrottle` | src/doodlepad/Throttle.java:48-52 | A rate of 0 throws `ArithmeticException`. For a positive rate the frame length is the whole number of nanoseconds that `fps` frames fit into one second. |
| `Throttle.Start` | src/doodlepad/Throttle.java:57-59 | The current frame restarts now and keeps its length. |
| `Throttle.Delay` | src/doodlepad/Throttle.java:65-76 | The next frame starts one frame length after the last, in wrapping `long` arithmetic. The sleep requested is the time still owed to the frame, split into milliseconds and nanoseconds, and none when the frame is already over. |
| `Throttle.ScheduleIsFixed` | src/doodlepad/Throttle.java:65-76 | Frame starts never drift: after `n` frames the start has moved by exactly `n` frame lengths, whenever each `delay` was called. |
| `Timers.PeriodFor` | src/doodlepad/Timer.java:81-93 | The period is `1000 / tps` milliseconds rounded down, and saturates for tiny rates. |
| `Timers.TimerSetTickRate` | src/doodlepad/Timer.java:81-93 | A rate that is not positive throws `IllegalArgumentException`. Otherwise the rate is stored, the period is at most `1000 / tps`, and the timer is stopped. |
| `Timers.PadSetTickRate` | src/doodlepad/Pad.java:1509-1521 | Only a negative rate throws. A rate of 0 is stored with the period saturated to `Integer.MAX_VALUE`, and a positive rate behaves as in `Timer`. |
| `Timers.DefaultClock` | src/doodlepad/Timer.java:65-75 | A default timer ticks 60 times a second with a period of 16 ms and is not running. |
| `Timers.NewTimer` | src/doodlepad/Timer.java:65-75 | Construction fails exactly for a non-positive rate. A new timer is stopped and has no tick handler or listeners. |
| `Timers.Start` | src/doodlepad/Timer.java:106-117 | Starting runs the timer and raises a rate below 1 to 1, but keeps the old period. |
| `Timers.Stop` | src/doodlepad/Timer.java:122-124 | Stopping halts the timer and changes nothing else. |
| `Timers.StopIdempotent` | src/doodlepad/Timer.java:122-124 | Stopping twice is stopping once. |
| `Timers.Toggle` | src/doodlepad/Timer.java:129-135 | Toggling flips whether the timer runs and keeps the period. |
| `Timers.ToggleTwice` | src/doodlepad/Timer.java:129-135 | Toggling twice restores the running state. For a rate of at least 1 it restores the whole clock. |
| `Timers.Tick` | src/doodlepad/Timer.java:291-301 | A stopped timer calls nothing. A running one calls the tick handler, if there is one, and then every listener in registration order with the event time. |
| `Timers.AddTickListener` | src/doodlepad/Timer.java:241-243 | The listener is appended, duplicates included, and nothing else changes. |
| `Timers.RemoveTickListener` | src/doodlepad/Timer.java:249-251 | The first registration of the listener is removed and the other registrations keep their order. The listener's count drops by one, and an unregistered listener changes nothing. |
| `Timers.NotifiedOncePerRegistration` | src/doodlepad/Pad.java:865-882 | On each tick of a running timer, a listener is called once per registration. |
| `Timers.DoubleRegistration` | src/doodlepad/Timer.java:241-251 | A listener added twice and removed once is still called on every tick. |
| `Line.Endpoints` | src/doodlepad/Line.java:116-129 | The first endpoint drawn is the line's location, and the second is the location plus the signed size. |
| `Line.NewLine` | src/doodlepad/Line.java:70-72 | The constructed line has exactly the given endpoints; its width or height is negative when the second point is left of or above the first. |
| `Line.SetPoints` | src/doodlepad/Line.java:95-100 | After `setPoints` the line has exactly the given endpoints, and no repaint is requested. |
| `Line.Move` | src/doodlepad/Shape.java:782-784 | Moving a line shifts both endpoints by the same amount, keeps its size and repaints. |
| `Line.EncodingRoundTrip` | src/doodlepad/Line.java:70-72 | Rebuilding a line from its two endpoints gives the same line: the location-and-size encoding loses nothing. |
| `Sprite.NewSprite` | src/doodlepad/Sprite.java:85-103 | A new sprite shows frame 0 of its sheet at the given place. |
| `Sprite.Advance` | src/doodlepad/Sprite.java:184-187 | A sheet of 0 frames throws `ArithmeticException`. Otherwise only the frame number changes, and from a valid frame it stays within the frame count. |
| `Sprite.AdvanceStep` | src/doodlepad/Sprite.java:184-187 | Advancing goes to the next frame, and from the last frame back to frame 0. |
| `Sprite.AdvanceCounts` | src/doodlepad/Sprite.java:184-187 | After `k` advances the frame is the start frame plus `k`, modulo the frame count. |
| `Sprite.AdvancePeriod` | src/doodlepad/Sprite.java:184-187 | After as many advances as there are frames, the sprite shows the frame it started on. |
| `Sprite.RoundToIntViaLong` | src/doodlepad/Sprite.java:194-222 | `(int) Math.round(v)` is within one half of `v` when in range, and always a 32-bit value. |
| `Sprite.SourceColumns` | src/doodlepad/Sprite.java:194-222 | Without `int` overflow, the sheet columns copied for frame `n` start at `n` times the rounded frame width and span one frame width. |
| `Sprite.SlicesTile` | src/doodlepad/Sprite.java:194-222 | Consecutive frames copy adjacent, non-overlapping slices of the sheet. |
| `Sprite.DrawnRect` | src/doodlepad/Sprite.java:194-222 | A filled sprite is drawn at its location with exactly its target size. Otherwise the image goes to the corners rounded by `Math.round`, each within half a unit of the location. |
| `Sprite.DrawnRectRounds` | src/doodlepad/Sprite.java:194-207 | Without `int` overflow, the image lies within half a unit of the target rectangle at its near edges and within one unit at its far edges. |
| `Sprite.HitRectAsWritten` | src/doodlepad/Sprite.java:230-234 | The hit region is filled at the location with the frame width and the sheet height. It coincides with the drawn picture only when the target size equals the frame size. |
| `Sprite.HitRegionMissesDrawnSprite` | src/doodlepad/Sprite.java:230-234 | A sprite drawn at twice its frame size has a visible point outside its hit region. |
| `Sprite.HitRect` | src/doodlepad/Sprite.java:230-234 | The corrected hit region equals the region as written exactly when the target size is the frame size. It contains that region whenever the target is at least the frame size, and it is the drawn rectangle of a filled sprite. |
| `Sprite.HitRectFollowsPicture` | src/doodlepad/Sprite.java:194-234 | When the image is drawn, each edge of the corrected hit region lies within one unit of the picture's edge. The region as written is off by the difference between the target size and the frame size. |
| `CurveTo.InitialWidget` | web/widgets/curveTo.js:16-23 | The page starts with six valid handles, none grabbed. |
| `CurveTo.Hit` | web/widgets/curveTo.js:45-51 | A handle is hit exactly when the point is strictly inside it, and the offset returned takes the centre to the point. |
| `CurveTo.MoveTo` | web/widgets/curveTo.js:54-57 | Moving a handle puts its centre at the point and keeps its size. |
| `CurveTo.FirstHit` | web/widgets/curveTo.js:107-118 | The handle found is the first in array order that contains the point, and none if none does. |
| `CurveTo.MouseDown` | web/widgets/curveTo.js:107-118 | A press on a handle grabs the first one hit with its offset. A press elsewhere keeps the old grab but clears the offset. |
| `CurveTo.MouseUp` | web/widgets/curveTo.js:120-122 | Releasing drops the grab and changes nothing else. |
| `CurveTo.MouseMove` | web/widgets/curveTo.js:124-131 | With nothing grabbed nothing changes. A grab without an offset throws. Otherwise only the grabbed handle moves. |
| `CurveTo.GrabIsKept` | web/widgets/curveTo.js:107-131 | After a press grabs a handle, any move succeeds and leaves the pointer at the same offset inside the grabbed handle. |
| `CurveTo.PressAndStayIsStill` | web/widgets/curveTo.js:107-131 | A move back to the press point moves nothing. |
| `CurveTo.StaleGrabThrows` | web/widgets/curveTo.js:107-131 | A grab, then a press that misses every handle, then a move throws: the offset is null. |
| `Path.NewPath` | src/doodlepad/Path.java:197-201 | A new path has no operations and a consistent box. |
| `Path.Rebuild` | src/doodlepad/Path.java:323-329 | Rebuilding throws `IllegalPathStateException` exactly when the first operation is not a move. Otherwise the path is empty exactly when there are no operations. |
| `Path.WithBounds` | src/doodlepad/Path.java:273-318 | The box becomes the bounds of the built path as `Path2D.getBounds2D` computes them up to JDK 18: the hull of every stored coordinate, control points included. |
| `Path.AddOp` | src/doodlepad/Path.java:217-260 | `moveTo`, `lineTo`, `quadTo` and `curveTo` append one operation. They throw exactly when the list does not start with a move, and otherwise leave the box consistent. |
| `Path.ClosePath` | src/doodlepad/Path.java:265-268 | `closePath` appends a close and leaves the box alone. |
| `Path.ClosePathKeepsValid` | src/doodlepad/Path.java:265-268 | Skipping the box update on a close is harmless: a consistent path stays consistent. |
| `Path.SetLocation` | src/doodlepad/Path.java:337-351 | Every stored point moves by the change of location. The path is rebuilt and the size is recomputed from it; an invalid list throws. |
| `Path.SetLocationKeepsValid` | src/doodlepad/Path.java:337-351 | Moving a consistent, non-empty path puts its box at the requested place with the same size. |
| `Path.SetSize` | src/doodlepad/Path.java:359-376 | Every stored point is scaled about the location by the size ratios. The path is rebuilt and the location is recomputed from it. |
| `Path.SetSizeKeepsValid` | src/doodlepad/Path.java:359-376 | Resizing a consistent path of positive extent to a non-negative size gives exactly the requested box. |
| `Polygon.CopyOf` | src/doodlepad/Polygon.java:102-114 | The copied array has the requested length: the original values first, then zeros. |
| `Polygon.FromArrays` | src/doodlepad/Polygon.java:102-114 | One point per x value, paired with the y value at the same index (0 when the y array is shorter). The polygon is consistent, and with no points its box is at the origin. |
| `Polygon.FromPoints` | src/doodlepad/Polygon.java:138-159 | The polygon keeps the given points, in order, and is consistent. |
| `Polygon.RebuildPath` | src/doodlepad/Polygon.java:173-184 | The path is a move to the first point, a line to each further point, and a close. There is no path at all for no points. |
| `Polygon.RebuildPathCoords` | src/doodlepad/Polygon.java:173-184 | The coordinates stored in the rebuilt path are exactly the points. |
| `Polygon.BoundingBox` | src/doodlepad/Polygon.java:189-225 | The one-pass min/max loop computes the hull of the points. |
| `Polygon.SetLocation` | src/doodlepad/Polygon.java:233-246 | Every point moves by the change of location, and the size is recomputed from the moved points. |
| `Polygon.SetLocationKeepsValid` | src/doodlepad/Polygon.java:233-246 | Moving a consistent polygon keeps it consistent, with its box at the requested place and the same size. |
| `Polygon.SetSize` | src/doodlepad/Polygon.java:254-272 | Every point is scaled about the location by the size ratios (1 for a zero extent). The recorded size becomes the requested one. |
| `Polygon.SetSizeKeepsValid` | src/doodlepad/Polygon.java:254-272 | Resizing a consistent polygon of positive extent gives exactly the requested box. |
| `Polygon.SetSizeOfFlatPolygon` | src/doodlepad/Polygon.java:254-272 | A polygon of zero width keeps zero width when resized to any other width, so its recorded box no longer matches its points. |
| `Polygon.GetX` | src/doodlepad/Polygon.java:279-281 | An index outside the points throws `ArrayIndexOutOfBoundsException`. Otherwise the x coordinate of that point is returned. |
| `Polygon.GetY` | src/doodlepad/Polygon.java:299-301 | An index outside the points throws. Otherwise the y coordinate of that point is returned. |
| `Polygon.SetX` | src/doodlepad/Polygon.java:288-292 | An index outside the points throws before anything changes. Otherwise only that point's x changes, and the polygon stays consistent. |
| `Polygon.SetY` | src/doodlepad/Polygon.java:308-312 | An index outside the points throws before anything changes. Otherwise only that point's y changes, and the polygon stays consistent. |
| `Polygon.SetGetX` | src/doodlepad/Polygon.java:279-292 | Reading back an x just written gives it, and the y is untouched. Writing back the x just read changes nothing. |
| `Polygon.SetGetY` | src/doodlepad/Polygon.java:299-312 | Reading back a y just written gives it, and the x is untouched. Writing back the y just read changes nothing. |
| `Shape.NewShape` | src/doodlepad/Shape.java:454-468 | A new shape is visible, receives events, is neither selected, selectable nor draggable, and has the identity transform. |
| `Shape.SetSelected` | src/doodlepad/Shape.java:891-899 | Only a selectable shape changes selection. The selection-changed callback fires exactly when the flag actually changes, with the new value, and nothing else changes. |
| `Shape.SetSelectable` | src/doodlepad/Shape.java:913-916 | Clearing the flag first deselects a selected shape, with a callback. Draggability is left alone. |
| `Shape.SetDraggable` | src/doodlepad/Shape.java:931-934 | Making a shape draggable makes it selectable. Clearing the flag leaves selectability alone. No callback is made. |
| `Shape.SettersKeepConsistency` | src/doodlepad/Shape.java:891-934 | All three setters keep "selected implies selectable". |
| `Shape.DraggableWithoutSelectable` | src/doodlepad/Shape.java:913-934 | A shape can be draggable but not selectable, so dragging requires selection separately. |
| `Shape.SetLocation` | src/doodlepad/Shape.java:656-660 | Only the location changes, to the given point. |
| `Shape.Move` | src/doodlepad/Shape.java:782-784 | The location changes by exactly the offset, and nothing else changes. |
| `Shape.MoveTwice` | src/doodlepad/Shape.java:782-784 | Two moves add up to one. |
| `Shape.SetCenter` | src/doodlepad/Shape.java:733-735 | The size is kept and the centre ends at the given point. |
| `Shape.CenterRoundTrip` | src/doodlepad/Shape.java:733-743 | Setting the centre to the current centre changes nothing. |
| `Shape.SetSize` | src/doodlepad/Shape.java:791-796 | Only the size changes, to the given one. |
| `Shape.DrawInColour` | src/doodlepad/Shape.java:1364-1372 | The hit drawing uses the key colour for fill and stroke, and the shape's own colours are restored afterwards. |
| `Shape.ToShapeCoords` | src/doodlepad/Shape.java:185-199 | When the layer's transform cannot be inverted, the point is left as it is. |
| `Shape.ToShapeCoordsInverts` | src/doodlepad/Shape.java:185-199 | With invertible transforms the converted point is the one the shape's and then the layer's transform take to the window point. |
| `Shape.ToWindowCoords` | src/doodlepad/Shape.java:1329-1342 | The shape's transform is applied, then the layer's when the shape has one. |
| `Shape.WindowRoundTrip` | src/doodlepad/Shape.java:1329-1342 | The event-path conversion inverts `toWindowCoords` when both transforms are invertible. |
| `Shape.StartDrag` | src/doodlepad/Shape.java:947-959 | A shape without a layer throws `NullPointerException`. Otherwise it records the offset from the pointer, in shape coordinates, and nothing else. |
| `Shape.DoDrag` | src/doodlepad/Shape.java:973-988 | Only a selected and draggable shape moves, to the pointer plus the recorded offset. It throws only when it has no layer, and it changes nothing but the location. |
| `Shape.DoDragIdempotent` | src/doodlepad/Shape.java:973-988 | Dragging to the same point twice is dragging once: the position depends on the pointer alone. |
| `Shape.DragFollowsPointer` | src/doodlepad/Shape.java:947-988 | A drag back to the press point leaves the shape where it was. |
| `Scene.NewPad` | src/doodlepad/Pad.java:1250-1294 | A new Pad has one empty layer with the identity transform, and no shapes. |
| `Scene.AddLayer` | src/doodlepad/Pad.java:1172-1175 | A fresh empty layer goes last, its index is returned, and the other layers and the shapes are unchanged. |
| `Scene.RemoveLayer` | src/doodlepad/Pad.java:1182-1189 | Index 0 and out-of-range indices are ignored. Otherwise exactly that layer leaves the list. The default layer always stays first. |
| `Scene.NewShapeIn` | src/doodlepad/Shape.java:454-468 | A new shape object is created and appended to its layer when it is given one. Every other object is unchanged. |
| `Scene.AddShape` | src/doodlepad/Layer.java:106-111 | The shape is appended to the layer, even when already listed. Its back-reference is set, and nothing else changes. |
| `Scene.RemoveShape` | src/doodlepad/Layer.java:117-122 | The first occurrence leaves the list. The back-reference is cleared even when the shape was not listed. |
| `Scene.Clear` | src/doodlepad/Layer.java:127-130 | The list is emptied, but the removed shapes keep their back-references. |
| `Scene.ToFront` | src/doodlepad/Layer.java:145-148 | The first occurrence is moved to the end of the list; nothing else changes. |
| `Scene.ToFrontOrder` | src/doodlepad/Layer.java:145-148 | After `toFront` the shape is drawn last and the other shapes keep their relative order. The list holds the same shapes as before, plus this one if it was not listed. |
| `Scene.ToBack` | src/doodlepad/Layer.java:154-158 | The first occurrence is moved to the start of the list; nothing else changes. |
| `Scene.ToBackOrder` | src/doodlepad/Layer.java:154-158 | After `toBack` the shape is drawn first and the other shapes keep their relative order. The list holds the same shapes as before, plus this one if it was not listed. |
| `Scene.GetSelectedShapes` | src/doodlepad/Layer.java:83-91 | The loop returns exactly the selected shapes of the layer, in list order. |
| `Scene.DeselectList` | src/doodlepad/Layer.java:135-139 | Each listed selectable shape ends unselected; every other shape is unchanged. Only deselection callbacks are made. |
| `Scene.DeselectListCalls` | src/doodlepad/Layer.java:135-139 | A shape is told of its deselection once, however often it is listed, exactly when it was listed, selected and selectable. Otherwise it is told nothing. |
| `Scene.LayerDeselectAll` | src/doodlepad/Layer.java:135-139 | When only selectable shapes are selected, none of the layer's shapes is selected afterwards. |
| `Scene.DeselectAll` | src/doodlepad/Pad.java:1496-1503 | When only selectable shapes are selected, no shape listed in any layer is selected afterwards. Only selection flags change, and consistency is kept. |
| `Scene.OpActsFirst` | src/doodlepad/Layer.java:164-205 | `translate`, `scale` and `rotate` act on a point before the existing transform, and `reset` restores the identity. |
| `Scene.TransformLayer` | src/doodlepad/Layer.java:164-205 | Only the named layer's transform changes, with transforms held by value. |
| `Scene.SetTransform` | src/doodlepad/Layer.java:211-213 | Only the named layer's transform changes, to a copy of the given one. |
| `Scene.PadAboutPointAsWritten` | src/doodlepad/Pad.java:1753-1815 | The Pad's `rotate` and `scale` about a centre compose, on the default layer, a translation by minus the centre, the operation, and a translation by the centre. |
| `Scene.ScaleAboutPointAsWritten` | src/doodlepad/Pad.java:1784-1790 | As written, scaling about a centre fixes the point `(-cx, -cy)`. On a new Pad it moves the centre itself whenever the factor is not 1 and the centre is not the origin. |
| `Scene.ScaleXYAboutPointAsWritten` | src/doodlepad/Pad.java:1809-1815 | As written, the two-factor scale about a centre sends the centre to `((2 xFactor - 1) cx, (2 yFactor - 1) cy)` on a new Pad, so it moves whenever a factor other than 1 meets a non-zero coordinate of the centre. |
| `Scene.RotateAboutPointAsWritten` | src/doodlepad/Pad.java:1753-1759 | As written, a quarter turn about a centre other than the origin moves that centre. |
| `Scene.PadAboutPoint` | src/doodlepad/Pad.java:1753-1815 | The corrected composition, applied to the default layer only. |
| `Scene.PadAboutPointFixesCentre` | src/doodlepad/Pad.java:1784-1790 | With the corrected order, scaling or rotating keeps the centre in place, and scaling moves every point away from the centre by the factor. |
| `HitTest.Argb` | src/doodlepad/Pad.java:273-309 | Hit colours are opaque and encode the painter's index modulo 2^24. |
| `HitTest.ArgbSame` | src/doodlepad/Pad.java:273-309 | Two painters share a colour exactly when their indices agree modulo 2^24. |
| `HitTest.LayerPainters` | src/doodlepad/Pad.java:259-322 | Exactly the listed shapes that are visible and receive events are drawn, each with the layer's transform composed with its own. |
| `HitTest.ImageTop` | src/doodlepad/Pad.java:259-322 | A pixel is drawn exactly when some painter covers it, and it holds the colour of the last painter that does. |
| `HitTest.KeysNamePainters` | src/doodlepad/Pad.java:259-322 | With at most 2^24 painters every colour in the table names the painter drawn in it, and the table holds no other colours. |
| `HitTest.Resolve` | src/doodlepad/Pad.java:2281-2300 | A pixel outside the image gives no shape. Otherwise the shape returned is one the colour table names. |
| `HitTest.ResolveIsTopPainter` | src/doodlepad/Pad.java:245-336 | Right after a paint with at most 2^24 - 1 painters, a pixel in the image resolves to the last painter covering it, and to nothing when none does. |
| `HitTest.ResolvedShapeIsOnTop` | src/doodlepad/Pad.java:245-336 | With at most 2^24 - 1 painters, a pixel resolves only to a visible, event-enabled shape that covers it with no later shape covering it. |
| `HitTest.WhiteCollision` | src/doodlepad/Pad.java:245-336 | With 2^24 or more painters, a pixel no shape covers still resolves to a shape: the painter drawn in opaque white, the background colour. |
| `HitTest.ResizedResolvesNothing` | src/doodlepad/Pad.java:396-402 | Between a resize and the next paint, and on a new Pad, no pixel resolves to a shape. |
| `Dispatch.DeliverCalls` | src/doodlepad/Shape.java:185-443 | A shape without a layer ignores the event. Otherwise it gets one callback of the event's kind at the point in its own coordinates, preceded by a selection callback when a press selects it. |
| `Dispatch.DeliverCounts` | src/doodlepad/Shape.java:185-443 | A delivery makes exactly one callback of its kind on an attached shape, none on any other, and none to the Pad. |
| `Dispatch.Deliver` | src/doodlepad/Shape.java:185-211 | Only a press changes state: it selects the pressed shape when the shape has a layer. Every other shape is unchanged. |
| `Dispatch.PadCrossing` | src/doodlepad/Pad.java:680-724 | The Pad's entered or exited callback is made only when the default layer's transform can be inverted, and with the raw point. |
| `Dispatch.EnterShape` | src/doodlepad/Pad.java:674-676 | The shape the pointer comes onto is told it was entered, once. |
| `Dispatch.ExitShape` | src/doodlepad/Pad.java:701-703 | The shape the pointer leaves is told it was exited, once. |
| `Dispatch.CrossingCounts` | src/doodlepad/Pad.java:674-724 | An attached shape is entered exactly when the pointer comes onto it from elsewhere, and exited exactly when the pointer leaves it. |
| `Dispatch.Move` | src/doodlepad/Pad.java:659-755 | A move changes only the last-shape record, which becomes the shape under the pointer. |
| `Dispatch.MoveCounts` | src/doodlepad/Pad.java:659-755 | One move enters and exits as above and makes exactly one moved callback. That callback goes to the shape under the pointer, or to the Pad over the background in default-layer coordinates when the transform can be inverted. |
| `Dispatch.Moves` | src/doodlepad/Pad.java:659-755 | A run of moves leaves the scene and the hit image unchanged. |
| `Dispatch.MovesBalance` | src/doodlepad/Pad.java:659-755 | Over any run of moves an attached shape's entered and exited counts differ by whether the pointer is over it at the end less whether it was at the start. |
| `Dispatch.StartDragList` | src/doodlepad/Pad.java:452-462 | `startDrag` on each listed shape changes only drag offsets, and throws exactly when some listed shape has no layer. When nothing throws, every listed shape holds the offset `Shape.StartDrag` records for the pointer, however often it is listed; an unlisted shape is untouched. |
| `Dispatch.PressLayer` | src/doodlepad/Pad.java:452-466 | One round of the press loop changes only selection and offsets, selects no shape but the pressed one, and throws exactly when a listed shape has no layer. Without a throw, the layer's shapes hold the offset of the pointer; no other offset changes. |
| `Dispatch.PressLayers` | src/doodlepad/Pad.java:450-466 | The whole press loop changes only selection and offsets, selects no shape but the pressed one, and a trace ending in an exception is reported as such. Without a throw, every shape listed in the layers visited holds the offset `startDrag` records for the pointer. |
| `Dispatch.PressLayersSafe` | src/doodlepad/Pad.java:450-466 | When every listed shape has a layer, the press loop throws nothing, whichever shape the press goes to. |
| `Dispatch.PressLayersDelivers` | src/doodlepad/Pad.java:450-466 | When every listed shape has a layer, the loop throws nothing and delivers the press once per layer; the pressed shape ends selected if it is selectable. |
| `Dispatch.PadPoint` | src/doodlepad/Pad.java:470-481 | With a non-invertible default transform the Pad gets the window point unchanged. |
| `Dispatch.PadPointRounds` | src/doodlepad/Pad.java:470-481 | Otherwise it gets the inverse-transformed point rounded to integer coordinates, as a `java.awt.Point` stores it. |
| `Dispatch.Press` | src/doodlepad/Pad.java:433-490 | A press keeps the hit image, the last-shape record and the layers, and changes only selection flags and drag offsets. It starts a drag exactly when it lands on a shape. On a shape, unless the trace ends in an exception, every listed shape holds the offset of the pointer. |
| `Dispatch.PressPrepares` | src/doodlepad/Pad.java:433-490 | On a Pad whose listed shapes all have a layer, a press on a shape throws nothing, records every listed shape's offset and starts a drag. Every listed mover stays attached. |
| `Dispatch.PressSelectsOnlyTarget` | src/doodlepad/Pad.java:433-490 | A press without shift on an unselected attached shape leaves that shape the only selected listed shape (if selectable). It starts a drag and delivers the press once per layer. |
| `Dispatch.PressBackground` | src/doodlepad/Pad.java:468-489 | A press over the background calls the Pad once, last, with the rounded default-layer point, and starts no drag. Without shift nothing listed stays selected; with shift the scene is untouched. |
| `Dispatch.Release` | src/doodlepad/Pad.java:497-541 | A release ends dragging and changes nothing else. |
| `Dispatch.ReleaseCounts` | src/doodlepad/Pad.java:497-541 | A release makes at most one callback. It goes to the shape under the pointer when that shape is attached, or to the Pad over the background when the transform can be inverted. |
| `Dispatch.DragOne` | src/doodlepad/Pad.java:777-780 | `doDrag` and the dragged callback on one shape: only its location changes, to where `doDrag` puts it. It throws exactly when it is a mover without a layer. |
| `Dispatch.DragShapes` | src/doodlepad/Pad.java:777-780 | Over a list, only listed shapes' locations change. |
| `Dispatch.DragLayer` | src/doodlepad/Pad.java:775-780 | Only the layer's selected shapes can move. |
| `Dispatch.DragLayers` | src/doodlepad/Pad.java:773-782 | Across all layers, only selected shapes can move, and only their locations change. |
| `Dispatch.DragLayersSafe` | src/doodlepad/Pad.java:773-782 | When every listed mover has a layer, the drag loop throws nothing. |
| `Dispatch.DragLoop` | src/doodlepad/Pad.java:773-782 | Without a drag under way, the loop does nothing. |
| `Dispatch.Drag` | src/doodlepad/Pad.java:762-859 | A drag keeps the hit image and the dragging flag, and changes only shape locations. Without a drag under way it is a move. |
| `Dispatch.DragKeepsMoversAttached` | src/doodlepad/Pad.java:762-859 | A drag changes neither which shapes are movers nor their back-references. |
| `Dispatch.DragPlaces` | src/doodlepad/Pad.java:773-782 | While dragging, each listed shape ends where `doDrag` puts it from its state before the event, and every other shape stays. |
| `Dispatch.PressThenDrag` | src/doodlepad/Shape.java:947-988 | A press on a shape and then a drag: every listed shape the press left selected and draggable moves by the pointer's displacement in its own coordinates; every other shape stays where it was. |
| `Dispatch.PressThenDragInPlace` | src/doodlepad/Shape.java:947-988 | A drag to the pixel of the press leaves every shape exactly as the press left it. |
| `Dispatch.DragCounts` | src/doodlepad/Pad.java:762-859 | One drag event records the shape under the pointer and calls the Pad exactly once over the background. An attached shape is entered and exited as in a move. It is told of the drag only if it is selected while a drag is under way. |

## Left out

- The hit image is taken as drawn with the identity base transform of the
  component; the Swing graphics state and antialiasing are not modelled.
- Which pixels a shape covers is a parameter of the paint pass (`cover`);
  Java2D rasterisation is not modelled.
- `mouseClicked` and double-click dispatch are not modelled: they follow
  the release path and add no state.
- The Pad's own `onMouseX` and each registered `PadMouseListener` are
  collapsed into one `ToPad` entry: they receive the same arguments in
  registration order.
- The weak reference to the last shape under the pointer is modelled as a
  strong one. Garbage collection clearing it is nondeterministic.
- `doDrag` uses the base `setLocation`. Subclasses that override
  `setLocation` (polygons, paths) are modelled separately, not through the
  drag.
- `repaint` is asynchronous and is not modelled, except for the repaint
  flag of `Line`.
- NaN and infinities are not modelled; the easings require a non-zero
  duration.
- Trigonometry: `rotate(angle)` takes the cosine and sine as parameters.
- Image loading and drawing, fonts, colours other than hit keys, sockets,
  keyboard events and the start/stop handlers of `Timer` (never invoked by
  the library itself) are not modelled.
- Real time: `Throttle.delay` returns the sleep it would request rather
  than sleeping, and clocks are parameters.
- `Polygon` built from `int` arrays is modelled as the `double` version on
  the converted values (`FromIntArrays`), with no separate contract.
- `Path.WithBounds`: the box is the hull of every stored coordinate,
  control points included, which is what `Path2D.getBounds2D` returns up
  to JDK 18. From JDK 19 that method returns the tight bounds of the
  curves, which can be smaller for a path with curve segments; that
  behaviour is not modelled.
- `Sprite.DrawnRect`: when the far corner `ix + tw` overflows `int`,
  `drawImage` mirrors the picture; the model keeps the wrapped corner as a
  rectangle of negative size and does not model the mirroring.
- `Scene.SetTransform` and `Scene.TransformLayer` take the transform by
  value. In the library, `setTransform` of a layer, of the Pad or of a
  shape keeps the caller's `AffineTransform` object, and the layer's
  `translate`, `scale`, `rotate` and `reset` change that object in place.
  So a transform the caller still holds, or one shared by two layers,
  changes with them. This aliasing is not modelled: "only the named
  layer's transform changes" holds only when no transform object is
  shared.
- `Easing.BackEaseInOut`: its contract states only the start point; the
  midpoint and end point are proved in `Easing.BackEaseInOutEnds`.
- `Timers.NotifiedOncePerRegistration` is stated for the tick loop the
  Pad and `Timer` share; `Timer`'s start and stop listeners are left out.

## Findings

| source | as written | input that shows it | evidently intended | confidence | as-written member | corrected member |
|---|---|---|---|---|---|---|
| src/doodlepad/Pad.java:1784-1790 | `scale(factor, cx, cy)` translates by `(-cx, -cy)`, scales, then translates by `(cx, cy)`. Because each step acts on points before the previous ones, the fixed point is `(-cx, -cy)`. | A new Pad, `scale(2, 1, 0)`: the centre `(1, 0)` is moved to `(3, 0)`. | Scaling about `(cx, cy)` keeps that point in place. | high; not executed | `Scene.ScaleAboutPointAsWritten` | `Scene.PadAboutPointFixesCentre` |
| src/doodlepad/Pad.java:1809-1815 | `scale(xFactor, yFactor, cx, cy)` uses the same order. | A new Pad, `scale(2, 3, 1, 1)`: the centre `(1, 1)` is moved to `(3, 5)`. | Scaling about `(cx, cy)` keeps that point in place. | high; not executed | `Scene.ScaleXYAboutPointAsWritten` | `Scene.PadAboutPointFixesCentre` |
| src/doodlepad/Pad.java:1753-1759 | `rotate(angle, cx, cy)` uses the same order. | A new Pad, a quarter turn about `(1, 0)`: the centre is moved to `(-1, 2)`. | Rotating about `(cx, cy)` keeps that point in place. | high; not executed | `Scene.RotateAboutPointAsWritten` | `Scene.PadAboutPointFixesCentre` |
| src/doodlepad/Sprite.java:230-234 | The hit region is filled `frameWidth` by the sheet height, while the sprite is drawn `targetWidth` by `targetHeight`. | A sprite of frame width 10 and height 10 drawn at 20 by 20: a press at `(15, 15)` is on the picture but outside the hit region. | The hit region is the drawn rectangle. | medium; not executed | `Sprite.HitRegionMissesDrawnSprite` | `Sprite.HitRect` |

=== FILE: affine.dfy ===
/** `java.awt.geom.AffineTransform` as used by layers and shapes: a 2x3
    real matrix, its action on points, the in-place `translate`, `scale`
    and `rotate` (which post-multiply) and `inverseTransform`, which throws
    for a singular matrix. A rotation is given by its cosine and sine, as
    the trigonometry is not modelled. */
module Affine {
  import opened Common

  /** The matrix `[m00 m01 m02; m10 m11 m12]`. */
  datatype Affine = Affine(m00: real, m10: real, m01: real, m11: real, m02: real, m12: real)

  const Identity: Affine := Affine(1.0, 0.0, 0.0, 1.0, 0.0, 0.0)

  function Apply(a: Affine, p: Point): Point {
    Point(a.m00 * p.x + a.m01 * p.y + a.m02, a.m10 * p.x + a.m11 * p.y + a.m12)
  }

  lemma ApplyIdentity(p: Point)
    ensures Apply(Identity, p) == p
  {
  }

  /** `a` after `b`: the matrix product `a * b`. */
  function Compose(a: Affine, b: Affine): (r: Affine)
    ensures forall p :: Apply(r, p) == Apply(a, Apply(b, p))
  {
    Affine(a.m00 * b.m00 + a.m01 * b.m10, a.m10 * b.m00 + a.m11 * b.m10,
           a.m00 * b.m01 + a.m01 * b.m11, a.m10 * b.m01 + a.m11 * b.m11,
           a.m00 * b.m02 + a.m01 * b.m12 + a.m02, a.m10 * b.m02 + a.m11 * b.m12 + a.m12)
  }

  function Translation(tx: real, ty: real): Affine {
    Affine(1.0, 0.0, 0.0, 1.0, tx, ty)
  }

  function Scaling(sx: real, sy: real): Affine {
    Affine(sx, 0.0, 0.0, sy, 0.0, 0.0)
  }

  /** The rotation whose angle has cosine `c` and sine `s`. */
  function Rotation(c: real, s: real): Affine {
    Affine(c, s, -s, c, 0.0, 0.0)
  }

  /** `translate(tx, ty)`: the translation is applied to points first. */
  function Translate(a: Affine, tx: real, ty: real): (r: Affine)
    ensures r == Compose(a, Translation(tx, ty))
  {
    a.(m02 := tx * a.m00 + ty * a.m01 + a.m02, m12 := tx * a.m10 + ty * a.m11 + a.m12)
  }

  /** `scale(sx, sy)`: the scaling is applied to points first. */
  function Scale(a: Affine, sx: real, sy: real): (r: Affine)
    ensures r == Compose(a, Scaling(sx, sy))
  {
    a.(m00 := a.m00 * sx, m10 := a.m10 * sx, m01 := a.m01 * sy, m11 := a.m11 * sy)
  }

  /** `rotate(theta)` with `c = cos theta`, `s = sin theta`. */
  function Rotate(a: Affine, c: real, s: real): (r: Affine)
    ensures r == Compose(a, Rotation(c, s))
  {
    Compose(a, Rotation(c, s))
  }

  /** What the three operations do to a point: each acts on the point
      before the transform already in place. */
  lemma TranslateActsFirst(a: Affine, p: Point, tx: real, ty: real)
    ensures Apply(Translate(a, tx, ty), p) == Apply(a, Point(p.x + tx, p.y + ty))
  {
    assert Apply(Translation(tx, ty), p) == Point(p.x + tx, p.y + ty);
  }

  lemma ScaleActsFirst(a: Affine, p: Point, sx: real, sy: real)
    ensures Apply(Scale(a, sx, sy), p) == Apply(a, Point(sx * p.x, sy * p.y))
  {
    assert Apply(Scaling(sx, sy), p) == Point(sx * p.x, sy * p.y);
  }

  lemma RotateActsFirst(a: Affine, p: Point, c: real, s: real)
    ensures Apply(Rotate(a, c, s), p) == Apply(a, Point(c * p.x - s * p.y, s * p.x + c * p.y))
  {
    assert Apply(Rotation(c, s), p) == Point(c * p.x - s * p.y, s * p.x + c * p.y);
  }

  function Det(a: Affine): real {
    a.m00 * a.m11 - a.m01 * a.m10
  }

  /** `inverseTransform(p)`: `None` stands for the
      `NoninvertibleTransformException` thrown when the determinant is 0. */
  function InverseApply(a: Affine, p: Point): (r: Option<Point>)
    ensures r.None? <==> Det(a) == 0.0
  {
    var det := Det(a);
    if det == 0.0 then None
    else
      var x := p.x - a.m02;
      var y := p.y - a.m12;
      Some(Point((x * a.m11 - y * a.m01) / det, (y * a.m00 - x * a.m10) / det))
  }

  /** The inverse, when there is one, is a point the transform takes to
      `p`. */
  lemma InverseApplies(a: Affine, p: Point)
    requires Det(a) != 0.0
    ensures Apply(a, InverseApply(a, p).value) == p
  {
    InverseSolves(a, p, InverseApply(a, p).value);
  }

  lemma InverseSolves(a: Affine, p: Point, q: Point)
    requires Det(a) != 0.0
    requires q.x == ((p.x - a.m02) * a.m11 - (p.y - a.m12) * a.m01) / Det(a)
    requires q.y == ((p.y - a.m12) * a.m00 - (p.x - a.m02) * a.m10) / Det(a)
    ensures Apply(a, q) == p
  {
    var det := Det(a);
    var x, y := p.x - a.m02, p.y - a.m12;
    assert q.x * det == x * a.m11 - y * a.m01;
    assert q.y * det == y * a.m00 - x * a.m10;
    assert (a.m00 * q.x + a.m01 * q.y) * det == x * det;
    assert (a.m10 * q.x + a.m11 * q.y) * det == y * det;
  }

  /** Inverting undoes the transform: a point mapped forward and then back
      is the point itself. */
  lemma InverseRoundTrip(a: Affine, p: Point)
    requires Det(a) != 0.0
    ensures InverseApply(a, Apply(a, p)) == Some(p)
  {
    var q := InverseApply(a, Apply(a, p)).value;
    InverseApplies(a, Apply(a, p));
    ApplyInjective(a, p, q);
  }

  lemma ApplyInjective(a: Affine, p: Point, q: Point)
    requires Det(a) != 0.0 && Apply(a, p) == Apply(a, q)
    ensures p == q
  {
    var dx, dy := p.x - q.x, p.y - q.y;
    assert a.m00 * dx + a.m01 * dy == 0.0;
    assert a.m10 * dx + a.m11 * dy == 0.0;
    assert Det(a) * dx == a.m11 * (a.m00 * dx + a.m01 * dy) - a.m01 * (a.m10 * dx + a.m11 * dy);
    assert Det(a) * dy == a.m00 * (a.m10 * dx + a.m11 * dy) - a.m10 * (a.m00 * dx + a.m01 * dy);
  }

  /** The determinant of a product is the product of the determinants, so
      composing invertible transforms keeps them invertible. */
  lemma DetCompose(a: Affine, b: Affine)
    ensures Det(Compose(a, b)) == Det(a) * Det(b)
  {
  }
}

=== FILE: bounds.dfy ===
/** Minimum and maximum of a non-empty sequence of coordinates, and how
    they move when every coordinate is shifted or scaled about an origin.
    Both Polygon's bounding-box loop and Path2D's bounds rest on these. */
module Bounds {

  /** Index of a smallest element (the first one). */
  function ArgMin(s: seq<real>): (i: nat)
    requires |s| > 0
    ensures i < |s|
    ensures forall j :: 0 <= j < |s| ==> s[i] <= s[j]
  {
    if |s| == 1 then 0
    else
      var k := 1 + ArgMin(s[1..]);
      assert forall j :: 1 <= j < |s| ==> s[j] == s[1..][j - 1];
      if s[0] <= s[k] then 0 else k
  }

  /** Index of a largest element (the first one). */
  function ArgMax(s: seq<real>): (i: nat)
    requires |s| > 0
    ensures i < |s|
    ensures forall j :: 0 <= j < |s| ==> s[j] <= s[i]
  {
    if |s| == 1 then 0
    else
      var k := 1 + ArgMax(s[1..]);
      assert forall j :: 1 <= j < |s| ==> s[j] == s[1..][j - 1];
      if s[0] >= s[k] then 0 else k
  }

  function Min(s: seq<real>): real
    requires |s| > 0
  {
    s[ArgMin(s)]
  }

  function Max(s: seq<real>): real
    requires |s| > 0
  {
    s[ArgMax(s)]
  }

  /** The minimum is the only element that is also a lower bound. */
  lemma MinUnique(s: seq<real>, k: nat)
    requires k < |s|
    requires forall j :: 0 <= j < |s| ==> s[k] <= s[j]
    ensures Min(s) == s[k]
  {
  }

  lemma MaxUnique(s: seq<real>, k: nat)
    requires k < |s|
    requires forall j :: 0 <= j < |s| ==> s[j] <= s[k]
    ensures Max(s) == s[k]
  {
  }

  /** Every coordinate plus `d`. */
  function Shift(s: seq<real>, d: real): (r: seq<real>)
    ensures |r| == |s|
    ensures forall i :: 0 <= i < |s| ==> r[i] == s[i] + d
  {
    seq(|s|, i requires 0 <= i < |s| => s[i] + d)
  }

  /** Scaling one coordinate `v` by `k` about the origin `o`. */
  function ScaleCoord(o: real, k: real, v: real): real {
    o + k * (v - o)
  }

  /** Every coordinate scaled by `k` about the origin `o`. */
  function ScaleAbout(s: seq<real>, o: real, k: real): (r: seq<real>)
    ensures |r| == |s|
    ensures forall i :: 0 <= i < |s| ==> r[i] == ScaleCoord(o, k, s[i])
  {
    seq(|s|, i requires 0 <= i < |s| => ScaleCoord(o, k, s[i]))
  }

  lemma ShiftBounds(s: seq<real>, d: real)
    requires |s| > 0
    ensures Min(Shift(s, d)) == Min(s) + d
    ensures Max(Shift(s, d)) == Max(s) + d
  {
    var r := Shift(s, d);
    MinUnique(r, ArgMin(s));
    MaxUnique(r, ArgMax(s));
  }

  lemma ScaleOrder(o: real, k: real, a: real, b: real)
    requires k >= 0.0 && a <= b
    ensures ScaleCoord(o, k, a) <= ScaleCoord(o, k, b)
  {
    assert k * (b - o) - k * (a - o) == k * (b - a);
  }

  /** A non-negative factor keeps the order of coordinates, so the extreme
      coordinates are the images of the old extremes. */
  lemma ScaleBounds(s: seq<real>, o: real, k: real)
    requires |s| > 0 && k >= 0.0
    ensures Min(ScaleAbout(s, o, k)) == ScaleCoord(o, k, Min(s))
    ensures Max(ScaleAbout(s, o, k)) == ScaleCoord(o, k, Max(s))
  {
    var r := ScaleAbout(s, o, k);
    var lo, hi := ArgMin(s), ArgMax(s);
    forall j | 0 <= j < |s| ensures r[lo] <= r[j] <= r[hi] {
      ScaleOrder(o, k, s[lo], s[j]);
      ScaleOrder(o, k, s[j], s[hi]);
    }
    MinUnique(r, lo);
    MaxUnique(r, hi);
  }

  /** The factor a resize scales one axis by: the new size over the old,
      or 1 when the old size is 0. */
  function Ratio(newSize: real, oldSize: real): real {
    if oldSize != 0.0 then newSize / oldSize else 1.0
  }

  lemma RatioRestores(o: real, n: real, d: real)
    requires d > 0.0 && n >= 0.0
    ensures Ratio(n, d) >= 0.0
    ensures ScaleCoord(o, Ratio(n, d), o + d) - o == n
  {
    assert (n / d) * d == n;
  }
}

=== FILE: common.dfy ===
/** Values shared by every part of the DoodlePad model: optional values,
    points in the plane, window pixels, and the fixed-width integer
    conversions Java performs implicitly. */
module Common {

  /** The usual Some/None datatype, standing in for a nullable reference. */
  datatype Option<+T> = None | Some(value: T)

  /** The Java exceptions a modelled operation can end in. */
  datatype Failure =
    | DivideByZero        // ArithmeticException from an integer `/` or `%`
    | IllegalArgument     // IllegalArgumentException thrown by a setter
    | IndexOutOfBounds    // an array index outside the array
    | NullReference       // a member accessed through `null`
    | IllegalPathState    // a path segment added before the initial move

  /** The outcome of an operation that can throw. */
  datatype Result<+T> = Ok(value: T) | Err(failure: Failure)

  /** A point with real coordinates (a Java `double` pair). */
  datatype Point = Point(x: real, y: real)

  /** An axis-aligned rectangle, `Rectangle2D.Double(x, y, w, h)`. */
  datatype Rect = Rect(x: real, y: real, w: real, h: real)

  /** A window pixel, as delivered by a mouse event. */
  datatype Pixel = Pixel(x: int, y: int)

  function ToPoint(p: Pixel): Point {
    Point(p.x as real, p.y as real)
  }

  const IntMin: int := -0x8000_0000
  const IntMax: int := 0x7FFF_FFFF

  /** Java's narrowing cast `(int) d` of a finite double: truncate toward
      zero, then saturate at the bounds of `int`. */
  function DoubleToInt(r: real): (i: int)
    ensures IntMin <= i <= IntMax
    ensures IntMin as real <= r <= IntMax as real ==> -1.0 < r - i as real < 1.0
    ensures r >= 0.0 ==> i >= 0
    ensures r <= 0.0 ==> i <= 0
  {
    var t := if r >= 0.0 then r.Floor else -((-r).Floor);
    if t < IntMin then IntMin else if t > IntMax then IntMax else t
  }

  /** `java.awt.Point.setLocation(double, double)` stores
      `(int) Math.floor(v + 0.5)`: round half up, then the int cast. */
  function RoundToInt(v: real): (i: int)
    ensures IntMin <= i <= IntMax
    ensures IntMin as real <= v < IntMax as real ==> i as real - 0.5 <= v < i as real + 0.5
  {
    DoubleToInt((v + 0.5).Floor as real)
  }

  /** A point stored into a `java.awt.Point`. */
  function RoundPoint(p: Point): Point {
    Point(RoundToInt(p.x) as real, RoundToInt(p.y) as real)
  }

  /** Java's `/` on integers truncates toward zero. */
  function JavaDiv(a: int, b: int): (q: int)
    requires b != 0
    ensures a >= 0 && b > 0 ==> q == a / b
    ensures -b < a - q * b < b || b < a - q * b < -b
    ensures (a >= 0) == (b > 0) || q <= 0
    ensures a - q * b == 0 || (a - q * b > 0) == (a > 0)
  {
    var q := if (a >= 0) == (b > 0) then Abs(a) / Abs(b) else -(Abs(a) / Abs(b));
    TruncatedRemainder(a, b, q);
    q
  }

  /** The remainder left by the truncated quotient is the remainder of the
      magnitudes, carrying the dividend's sign. */
  lemma TruncatedRemainder(a: int, b: int, q: int)
    requires b != 0
    requires q == if (a >= 0) == (b > 0) then Abs(a) / Abs(b) else -(Abs(a) / Abs(b))
    ensures -(Abs(b) as int) < a - q * b < Abs(b)
    ensures a - q * b == 0 || (a - q * b > 0) == (a > 0)
  {
    var m: int, n: int := Abs(a), Abs(b);
    var k := m / n;
    var r := m - k * n;
    assert 0 <= r < n;
    assert k >= 0 by {
      if k < 0 {
        MulMonotone(-1, k, n);
      }
    }
    MulMonotone(k, 0, n);
    assert r <= m;
    if b > 0 {
      assert n == b;
      if a >= 0 {
        assert q == k;
        assert a - q * b == r;
      } else {
        assert q == -k;
        assert q * b == -(k * n);
        assert a - q * b == -r;
      }
    } else {
      assert b == -n;
      assert k * b == -(k * n);
      if a >= 0 {
        assert q == -k;
        assert q * b == k * n;
        assert a - q * b == r;
      } else {
        assert q == k;
        assert a - q * b == -r;
      }
    }
  }

  /** Java's `%` on integers: the remainder takes the sign of the dividend. */
  function JavaRem(a: int, b: int): (r: int)
    requires b != 0
    ensures a == JavaDiv(a, b) * b + r
    ensures a >= 0 ==> 0 <= r < Abs(b)
    ensures a < 0 ==> -(Abs(b) as int) < r <= 0
    ensures 0 <= a < Abs(b) ==> r == a
    ensures a >= 0 && b > 0 ==> r == a % b
  {
    SmallQuotient(a, Abs(b));
    a - JavaDiv(a, b) * b
  }

  lemma SmallQuotient(a: int, m: int)
    requires m > 0
    ensures 0 <= a < m ==> a / m == 0
  {
    if 0 <= a < m {
      ModUnique(a, 0, a, m);
    }
  }

  predicate InInt(v: int) {
    IntMin <= v <= IntMax
  }

  function Abs(a: int): nat {
    if a < 0 then -a else a
  }

  /** Two's-complement wrap-around of a 32-bit `int`. */
  function Wrap32(a: int): (r: int)
    ensures IntMin <= r <= IntMax
    ensures IntMin <= a <= IntMax ==> r == a
  {
    (a - IntMin) % 0x1_0000_0000 + IntMin
  }

  const LongMin: int := -0x8000_0000_0000_0000
  const LongMax: int := 0x7FFF_FFFF_FFFF_FFFF

  const LongModulus: int := 0x1_0000_0000_0000_0000

  /** Two's-complement wrap-around of a 64-bit `long`. */
  function Wrap64(a: int): (r: int)
    ensures LongMin <= r <= LongMax
    ensures LongMin <= a <= LongMax ==> r == a
    ensures (r - a) % LongModulus == 0
  {
    (a - LongMin) % LongModulus + LongMin
  }

  /** Euclidean division is determined by any quotient/remainder pair. */
  lemma ModUnique(a: int, q: int, r: int, m: int)
    requires m > 0 && 0 <= r < m && a == q * m + r
    ensures a / m == q && a % m == r
  {
    var q0 := a / m;
    assert a == q0 * m + a % m;
    if q0 > q {
      MulMonotone(q0, q + 1, m);
      assert false;
    } else if q0 < q {
      MulMonotone(q, q0 + 1, m);
      assert false;
    }
  }

  lemma MulMonotone(x: int, y: int, m: int)
    requires x >= y && m > 0
    ensures x * m >= y * m
  {
    assert x * m - y * m == (x - y) * m;
  }

  /** Wrapping an intermediate result does not change the wrapped sum:
      64-bit addition is addition modulo 2^64. */
  lemma {:induction false} Wrap64Add(a: int, f: int)
    ensures Wrap64(Wrap64(a) + f) == Wrap64(a + f)
  {
    var m := LongModulus;
    var x := a - LongMin;
    var q, r := x / m, x % m;
    assert x == q * m + r;
    var rf := (r + f) % m;
    assert r + f == ((r + f) / m) * m + rf;
    assert x + f == (q + (r + f) / m) * m + rf by {
      assert x + f == q * m + (r + f);
      assert (q + (r + f) / m) * m == q * m + ((r + f) / m) * m;
    }
    ModUnique(x + f, q + (r + f) / m, rf, m);
  }
}

=== FILE: curveto.dfy ===
/** The interactive Bezier demo of the web pages: six square handles on a
    canvas that can be dragged with the mouse. The model covers the handles'
    hit test and the mousedown/mouseup/mousemove drag logic; drawing is
    left out. A JavaScript `null` is `None`, and the `TypeError` raised by
    reading a property of `null` is `Err(NullReference)`. */
module CurveTo {
  import opened Common

  /** A handle: centre `(x, y)` and size `w` by `h`. */
  datatype Box = Box(x: real, y: real, w: real, h: real)

  /** The offset of the pointer from a handle's centre. */
  datatype Offset = Offset(dx: real, dy: real)

  /** The handles, the index of the one being dragged, and the offset
      recorded by the last mousedown. */
  datatype Widget = Widget(boxes: seq<Box>, dragging: Option<nat>, offset: Option<Offset>)

  predicate Valid(wd: Widget) {
    wd.dragging.Some? ==> wd.dragging.value < |wd.boxes|
  }

  /** Strictly inside the box: its edges do not count. */
  predicate Inside(b: Box, p: Point) {
    b.x - 0.5 * b.w < p.x < b.x + 0.5 * b.w && b.y - 0.5 * b.h < p.y < b.y + 0.5 * b.h
  }

  /** `Box.hit(x, y)`: the offset from the centre when the point is inside. */
  function Hit(b: Box, p: Point): (r: Option<Offset>)
    ensures r.Some? <==> Inside(b, p)
    ensures r.Some? ==> b.x + r.value.dx == p.x && b.y + r.value.dy == p.y
  {
    if b.x - 0.5 * b.w < p.x && p.x < b.x + 0.5 * b.w && b.y - 0.5 * b.h < p.y && p.y < b.y + 0.5 * b.h
    then Some(Offset(p.x - b.x, p.y - b.y))
    else None
  }

  /** `Box.moveTo(x, y)`: the centre moves, the size stays. */
  function MoveTo(b: Box, p: Point): (r: Box)
    ensures r.x == p.x && r.y == p.y && r.w == b.w && r.h == b.h
  {
    b.(x := p.x, y := p.y)
  }

  /** Index of the first handle, in array order, that the point hits. */
  function FirstHit(boxes: seq<Box>, p: Point): (r: Option<nat>)
    ensures r.Some? ==> r.value < |boxes| && Inside(boxes[r.value], p)
    ensures r.Some? ==> forall j :: 0 <= j < r.value ==> !Inside(boxes[j], p)
    ensures r.None? ==> forall j :: 0 <= j < |boxes| ==> !Inside(boxes[j], p)
  {
    if |boxes| == 0 then None
    else if Hit(boxes[0], p).Some? then Some(0)
    else match FirstHit(boxes[1..], p)
      case None => None
      case Some(i) => Some(i + 1)
  }

  /** mousedown: every handle tried overwrites `offset`, and the loop stops
      at the first hit, which becomes the dragged handle. With no hit the
      offset ends up null (the last handle's miss) but `dragging` is left as
      it was; with no handles at all neither changes. */
  function MouseDown(wd: Widget, p: Point): (r: Widget)
    ensures r.boxes == wd.boxes
    ensures Valid(wd) ==> Valid(r)
    ensures FirstHit(wd.boxes, p).Some? ==>
      r.dragging == FirstHit(wd.boxes, p) && r.offset == Hit(wd.boxes[r.dragging.value], p)
    ensures FirstHit(wd.boxes, p).None? ==> r.dragging == wd.dragging
    ensures FirstHit(wd.boxes, p).None? && |wd.boxes| > 0 ==> r.offset == None
    ensures |wd.boxes| == 0 ==> r == wd
  {
    match FirstHit(wd.boxes, p)
    case Some(i) => wd.(dragging := Some(i), offset := Hit(wd.boxes[i], p))
    case None => if |wd.boxes| == 0 then wd else wd.(offset := None)
  }

  /** mouseup: nothing is dragged any more. */
  function MouseUp(wd: Widget): (r: Widget)
    ensures r.dragging == None
    ensures r.boxes == wd.boxes && r.offset == wd.offset
  {
    wd.(dragging := None)
  }

  /** mousemove: with a handle grabbed, move its centre so that it keeps
      the grab offset from the pointer. A null offset throws before the
      move. */
  function MouseMove(wd: Widget, p: Point): (r: Result<Widget>)
    requires Valid(wd)
    ensures wd.dragging.None? ==> r == Ok(wd)
    ensures wd.dragging.Some? && wd.offset.None? ==> r == Err(NullReference)
    ensures r.Ok? ==> Valid(r.value) && |r.value.boxes| == |wd.boxes|
    ensures r.Ok? ==> r.value.dragging == wd.dragging && r.value.offset == wd.offset
    ensures r.Ok? ==> forall j :: 0 <= j < |wd.boxes| && Some(j) != wd.dragging ==> r.value.boxes[j] == wd.boxes[j]
  {
    match wd.dragging
    case None => Ok(wd)
    case Some(i) =>
      match wd.offset
      case None => Err(NullReference)
      case Some(off) =>
        var b := MoveTo(wd.boxes[i], Point(p.x - off.dx, p.y - off.dy));
        Ok(wd.(boxes := wd.boxes[i := b]))
  }

  /** Dragging keeps the grab: after a mousedown that grabs a handle, any
      mousemove leaves the pointer at the same offset inside that handle. */
  lemma GrabIsKept(wd: Widget, p: Point, q: Point)
    requires Valid(wd) && FirstHit(wd.boxes, p).Some?
    ensures var down := MouseDown(wd, p);
      var moved := MouseMove(down, q);
      && moved.Ok?
      && Hit(moved.value.boxes[down.dragging.value], q) == down.offset
  {
  }

  /** A mousemove back to the press point does not move anything. */
  lemma PressAndStayIsStill(wd: Widget, p: Point)
    requires Valid(wd) && FirstHit(wd.boxes, p).Some?
    ensures var down := MouseDown(wd, p); MouseMove(down, p) == Ok(down)
  {
    var down := MouseDown(wd, p);
    var i := down.dragging.value;
    assert down.boxes[i := MoveTo(down.boxes[i], Point(p.x - down.offset.value.dx, p.y - down.offset.value.dy))] == down.boxes;
  }

  /** The handles of the page: two end points, two control points, two
      more corners. */
  function InitialWidget(): (wd: Widget)
    ensures Valid(wd) && |wd.boxes| == 6 && wd.dragging.None? && wd.offset.None?
  {
    Widget([Box(150.0, 50.0, 17.0, 17.0), Box(150.0, 150.0, 17.0, 17.0),
            Box(100.0, 200.0, 17.0, 17.0), Box(100.0, 100.0, 17.0, 17.0),
            Box(50.0, 150.0, 17.0, 17.0), Box(50.0, 50.0, 17.0, 17.0)], None, None)
  }

  /** A stale grab: mousedown on a handle, then (with the button released
      off the canvas) a mousedown that misses clears the offset but not the
      dragged handle, so the next mousemove throws. */
  lemma StaleGrabThrows()
    ensures var wd := MouseDown(MouseDown(InitialWidget(), Point(150.0, 50.0)), Point(0.0, 0.0));
      wd.dragging == Some(0) && MouseMove(wd, Point(10.0, 10.0)) == Err(NullReference)
  {
  }
}

=== FILE: dispatch.dfy ===
/** The pointer protocol of a Pad: a press, release, move or drag is
    resolved against the hit image and ends in callbacks on shapes or on
    the Pad. Each handler is a function from the Pad's state and the event
    to the new state and the trace of callbacks it made. */
module Dispatch {
  import opened Common
  import opened Events
  import Affine
  import Shape
  import Scene
  import HitTest
  import Lists

  /** The Pad's state as the handlers see it: the scene, the hit image of
      the last paint, whether a drag is under way, and the shape the
      pointer was last over. */
  datatype PadState = PadState(scene: Scene.Scene, hits: HitTest.HitState, dragging: bool, last: Option<ShapeId>)

  datatype Outcome = Outcome(state: PadState, calls: seq<Call>)

  /** Every shape the hit table or the last-pointer record names exists. */
  predicate Coherent(st: PadState) {
    Scene.WellFormed(st.scene)
    && (forall v :: v in st.hits.keys.Values ==> v in st.scene.shapes)
    && (st.last.Some? ==> st.last.value in st.scene.shapes)
  }

  /** `b` is a well-formed scene with the layers and the shape objects of
      `a`: only fields of shapes differ. */
  predicate Reshaped(a: Scene.Scene, b: Scene.Scene) {
    Scene.WellFormed(b) && b.layers == a.layers && b.layerRecs == a.layerRecs && b.shapes.Keys == a.shapes.Keys
  }

  /** The transform of the layer a shape refers to, if it refers to one. */
  function LayerOf(sc: Scene.Scene, s: ShapeId): (t: Option<Affine.Affine>)
    requires Scene.WellFormed(sc) && s in sc.shapes
    ensures t.Some? <==> sc.shapes[s].layer.Some?
    ensures t.Some? ==> t.value == sc.layerRecs[sc.shapes[s].layer.value].transform
  {
    var r := sc.shapes[s];
    if r.layer.Some? then Some(sc.layerRecs[r.layer.value].transform) else None
  }

  /** The transform of the default layer, used for Pad coordinates. */
  function DefaultT(sc: Scene.Scene): Affine.Affine
    requires Scene.WellFormed(sc)
  {
    sc.layerRecs[sc.layers[0]].transform
  }

  function Indicator(b: bool): int {
    if b then 1 else 0
  }

  // --- the shape's listener -----------------------------------------------

  /** The callbacks of the shape's listener for shape `s` with record
      `rec`; `layerT` is the transform of the layer it refers to. A shape
      whose layer back-reference is `null` ignores the event; otherwise the
      point is converted to the shape's coordinates and the shape's
      callback runs, after, for a press, the selection callback if
      selecting the shape changed it. */
  function DeliverCalls(rec: Shape.ShapeRec, layerT: Option<Affine.Affine>, s: ShapeId, kind: Kind, p: Point, button: int): (r: seq<Call>)
    ensures layerT.None? <==> r == []
    ensures r != [] ==> r[|r| - 1] == ToShape(s, kind, Shape.ToShapeCoords(layerT.value, rec.transform, p), button)
    ensures |r| == 2 <==> kind == Pressed && layerT.Some? && rec.selectable && !rec.selected
    ensures |r| == 2 ==> r[0] == SelectionChanged(s, true)
    ensures |r| <= 2
  {
    if layerT.None? then []
    else
      var q := Shape.ToShapeCoords(layerT.value, rec.transform, p);
      (if kind == Pressed && Shape.SetSelected(rec, true).changed.Some? then [SelectionChanged(s, true)] else [])
      + [ToShape(s, kind, q, button)]
  }

  /** A delivery makes exactly one callback of its kind on the shape when
      it has a layer and none otherwise, and no other shape callback. */
  lemma DeliverCounts(rec: Shape.ShapeRec, layerT: Option<Affine.Affine>, s: ShapeId, kind: Kind, p: Point, button: int, x: ShapeId, k: Kind)
    ensures CountCalls(DeliverCalls(rec, layerT, s, kind, p, button), DeliveryOf(x, k))
      == Indicator(x == s && k == kind && layerT.Some?)
    ensures CountCalls(DeliverCalls(rec, layerT, s, kind, p, button), PadCallOf(k)) == 0
  {
    var calls := DeliverCalls(rec, layerT, s, kind, p, button);
    if calls != [] {
      var n := |calls| - 1;
      CountCallsAppend(calls[..n], [calls[n]], DeliveryOf(x, k));
      CountCallsAppend(calls[..n], [calls[n]], PadCallOf(k));
      assert calls == calls[..n] + [calls[n]];
      CountOne(calls[n], DeliveryOf(x, k));
      CountOne(calls[n], PadCallOf(k));
      if n == 1 {
        assert calls[..n] == [calls[0]];
        CountOne(calls[0], DeliveryOf(x, k));
        CountOne(calls[0], PadCallOf(k));
      }
    }
  }

  /** The same for a shape of the scene. */
  function ShapeCalls(sc: Scene.Scene, s: ShapeId, kind: Kind, p: Point, button: int): seq<Call>
    requires Scene.WellFormed(sc) && s in sc.shapes
  {
    DeliverCalls(sc.shapes[s], LayerOf(sc, s), s, kind, p, button)
  }

  /** The shape's listener: the callbacks above, and a press selects the
      shape (when it has a layer and is selectable); nothing else in the
      scene changes. */
  function Deliver(sc: Scene.Scene, s: ShapeId, kind: Kind, p: Point, button: int): (r: (Scene.Scene, seq<Call>))
    requires Scene.WellFormed(sc) && s in sc.shapes
    ensures Reshaped(sc, r.0)
    ensures r.1 == ShapeCalls(sc, s, kind, p, button)
    ensures kind != Pressed || sc.shapes[s].layer.None? ==> r.0 == sc
    ensures forall x :: x in sc.shapes && x != s ==> r.0.shapes[x] == sc.shapes[x]
    ensures r.0.shapes[s] == (if kind == Pressed && sc.shapes[s].layer.Some?
                              then Shape.SetSelected(sc.shapes[s], true).shape else sc.shapes[s])
  {
    var rec := sc.shapes[s];
    var calls := ShapeCalls(sc, s, kind, p, button);
    if kind == Pressed && rec.layer.Some? then (Scene.SetShape(sc, s, Shape.SetSelected(rec, true).shape), calls)
    else (sc, calls)
  }

  // --- entering and leaving -------------------------------------------------

  /** The Pad's own entered and exited callbacks are made only when the
      default layer's transform can be inverted, and are then given the
      window coordinates unconverted: the inverse is computed into a
      variable that is never read. */
  function PadCrossing(sc: Scene.Scene, kind: Kind, p: Point, button: int): (r: seq<Call>)
    requires Scene.WellFormed(sc)
    ensures r == if Affine.Det(DefaultT(sc)) != 0.0 then [ToPad(kind, p, button)] else []
  {
    match Affine.InverseApply(DefaultT(sc), p)
    case None => []
    case Some(_) => [ToPad(kind, p, button)]
  }

  /** The four crossing steps that a move or a drag makes, in order: the
      new shape is entered, the Pad is entered (leaving a shape for the
      background), the old shape is exited, the Pad is exited (leaving the
      background for a shape). */
  function Crossing(sc: Scene.Scene, last: Option<ShapeId>, s: Option<ShapeId>, p: Point, button: int): seq<Call>
    requires Scene.WellFormed(sc)
    requires s.Some? ==> s.value in sc.shapes
    requires last.Some? ==> last.value in sc.shapes
  {
    EnterShape(sc, last, s, p, button)
    + (if s.None? && last != s then PadCrossing(sc, Entered, p, button) else [])
    + ExitShape(sc, last, s, p, button)
    + (if s.Some? && last.None? then PadCrossing(sc, Exited, p, button) else [])
  }

  /** The first step: the shape the pointer comes onto is entered. */
  function EnterShape(sc: Scene.Scene, last: Option<ShapeId>, s: Option<ShapeId>, p: Point, button: int): (r: seq<Call>)
    requires Scene.WellFormed(sc)
    requires s.Some? ==> s.value in sc.shapes
    ensures forall x, k ::
      CountCalls(r, DeliveryOf(x, k)) == Indicator(s == Some(x) && last != s && k == Entered && sc.shapes[x].layer.Some?)
  {
    var r := if s.Some? && last != s then ShapeCalls(sc, s.value, Entered, p, button) else [];
    forall x, k ensures CountCalls(r, DeliveryOf(x, k))
      == Indicator(s == Some(x) && last != s && k == Entered && sc.shapes[x].layer.Some?)
    {
      if s.Some? && last != s {
        DeliverCounts(sc.shapes[s.value], LayerOf(sc, s.value), s.value, Entered, p, button, x, k);
      }
    }
    r
  }

  /** The third step: the shape the pointer leaves is exited. */
  function ExitShape(sc: Scene.Scene, last: Option<ShapeId>, s: Option<ShapeId>, p: Point, button: int): (r: seq<Call>)
    requires Scene.WellFormed(sc)
    requires last.Some? ==> last.value in sc.shapes
    ensures forall x, k ::
      CountCalls(r, DeliveryOf(x, k)) == Indicator(last == Some(x) && last != s && k == Exited && sc.shapes[x].layer.Some?)
  {
    var r := if last.Some? && last != s then ShapeCalls(sc, last.value, Exited, p, button) else [];
    forall x, k ensures CountCalls(r, DeliveryOf(x, k))
      == Indicator(last == Some(x) && last != s && k == Exited && sc.shapes[x].layer.Some?)
    {
      if last.Some? && last != s {
        DeliverCounts(sc.shapes[last.value], LayerOf(sc, last.value), last.value, Exited, p, button, x, k);
      }
    }
    r
  }

  /** Calls that are all to the Pad contain no shape callback. */
  lemma {:induction false} PadOnlyCount(calls: seq<Call>, x: ShapeId, k: Kind)
    requires forall i :: 0 <= i < |calls| ==> calls[i].ToPad?
    ensures CountCalls(calls, DeliveryOf(x, k)) == 0
  {
    if calls != [] {
      PadOnlyCount(calls[..|calls| - 1], x, k);
    }
  }

  /** Counting over four consecutive pieces. */
  lemma CountFour(c1: seq<Call>, c2: seq<Call>, c3: seq<Call>, c4: seq<Call>, pat: Pattern)
    ensures CountCalls(c1 + c2 + c3 + c4, pat)
      == CountCalls(c1, pat) + CountCalls(c2, pat) + CountCalls(c3, pat) + CountCalls(c4, pat)
  {
    CountCallsAppend(c1 + c2 + c3, c4, pat);
    CountCallsAppend(c1 + c2, c3, pat);
    CountCallsAppend(c1, c2, pat);
  }

  /** The shape callbacks of the crossings are those of the first and
      third steps. */
  lemma CrossingShapeCalls(sc: Scene.Scene, last: Option<ShapeId>, s: Option<ShapeId>, p: Point, button: int, x: ShapeId, k: Kind)
    requires Scene.WellFormed(sc)
    requires s.Some? ==> s.value in sc.shapes
    requires last.Some? ==> last.value in sc.shapes
    ensures CountCalls(Crossing(sc, last, s, p, button), DeliveryOf(x, k))
      == CountCalls(EnterShape(sc, last, s, p, button), DeliveryOf(x, k))
         + CountCalls(ExitShape(sc, last, s, p, button), DeliveryOf(x, k))
  {
    var c2 := if s.None? && last != s then PadCrossing(sc, Entered, p, button) else [];
    var c4 := if s.Some? && last.None? then PadCrossing(sc, Exited, p, button) else [];
    var c1, c3 := EnterShape(sc, last, s, p, button), ExitShape(sc, last, s, p, button);
    CountFour(c1, c2, c3, c4, DeliveryOf(x, k));
    PadCrossingNoDelivery(sc, Entered, p, button, x, k);
    PadCrossingNoDelivery(sc, Exited, p, button, x, k);
  }

  /** The Pad's crossing callbacks are no shape callback. */
  lemma PadCrossingNoDelivery(sc: Scene.Scene, kind: Kind, p: Point, button: int, x: ShapeId, k: Kind)
    requires Scene.WellFormed(sc)
    ensures CountCalls(PadCrossing(sc, kind, p, button), DeliveryOf(x, k)) == 0
  {
    CountOne(ToPad(kind, p, button), DeliveryOf(x, k));
  }

  /** A shape with a layer is entered exactly when the pointer comes onto
      it and exited exactly when the pointer leaves it; the crossings make
      no other shape callback. */
  lemma CrossingCounts(sc: Scene.Scene, last: Option<ShapeId>, s: Option<ShapeId>, p: Point, button: int, x: ShapeId, k: Kind)
    requires Scene.WellFormed(sc)
    requires s.Some? ==> s.value in sc.shapes
    requires last.Some? ==> last.value in sc.shapes
    requires x in sc.shapes && sc.shapes[x].layer.Some?
    ensures CountCalls(Crossing(sc, last, s, p, button), DeliveryOf(x, k))
      == if k == Entered then Indicator(s == Some(x) && last != s)
         else if k == Exited then Indicator(last == Some(x) && last != s)
         else 0
  {
    CrossingShapeCalls(sc, last, s, p, button, x, k);
  }

  // --- move --------------------------------------------------------------

  /** `mouseMoved`: the crossings, then the moved callback on the shape
      under the pointer or, over the background, on the Pad with the
      pointer in default-layer coordinates (skipped when the default
      layer's transform cannot be inverted); the shape under the pointer
      becomes the last one. */
  function Move(st: PadState, at: Pixel, button: int): (r: Outcome)
    requires Coherent(st)
    ensures Coherent(r.state)
    ensures r.state == st.(last := HitTest.Resolve(st.hits, at))
  {
    var sc := st.scene;
    var p := ToPoint(at);
    var s := HitTest.Resolve(st.hits, at);
    var moved := if s.Some? then ShapeCalls(sc, s.value, Moved, p, button)
                 else match Affine.InverseApply(DefaultT(sc), p)
                      case None => []
                      case Some(v) => [ToPad(Moved, v, button)];
    Outcome(st.(last := s), Crossing(sc, st.last, s, p, button) + moved)
  }

  /** One move enters the shape the pointer comes onto and exits the one
      it leaves, each once, and makes exactly one moved callback: to the
      shape under the pointer when it has a layer, to the Pad over the
      background when the default layer's transform can be inverted. */
  lemma MoveCounts(st: PadState, at: Pixel, button: int, x: ShapeId, k: Kind)
    requires Coherent(st)
    requires x in st.scene.shapes && st.scene.shapes[x].layer.Some?
    requires k == Entered || k == Exited || k == Moved
    ensures var r, s := Move(st, at, button), HitTest.Resolve(st.hits, at);
      CountCalls(r.calls, DeliveryOf(x, k))
      == if k == Entered then Indicator(s == Some(x) && st.last != s)
         else if k == Exited then Indicator(st.last == Some(x) && st.last != s)
         else Indicator(s == Some(x))
  {
    var sc, p, s := st.scene, ToPoint(at), HitTest.Resolve(st.hits, at);
    var cross := Crossing(sc, st.last, s, p, button);
    var moved := if s.Some? then ShapeCalls(sc, s.value, Moved, p, button)
                 else match Affine.InverseApply(DefaultT(sc), p)
                      case None => []
                      case Some(v) => [ToPad(Moved, v, button)];
    assert Move(st, at, button).calls == cross + moved;
    CountCallsAppend(cross, moved, DeliveryOf(x, k));
    if s.Some? {
      DeliverCounts(sc.shapes[s.value], LayerOf(sc, s.value), s.value, Moved, p, button, x, k);
    } else {
      PadOnlyCount(moved, x, k);
    }
    CrossingCounts(sc, st.last, s, p, button, x, k);
  }

  /** A run of moves. */
  function Moves(st: PadState, path: seq<Pixel>, button: int): (r: Outcome)
    requires Coherent(st)
    ensures Coherent(r.state) && r.state.scene == st.scene && r.state.hits == st.hits
  {
    if path == [] then Outcome(st, [])
    else
      var prev := Moves(st, path[..|path| - 1], button);
      var m := Move(prev.state, path[|path| - 1], button);
      Outcome(m.state, prev.calls + m.calls)
  }

  /** Over any run of moves a shape with a layer is exited once for each
      time it is entered: the difference is whether the pointer is over it
      at the end less whether it was at the start. */
  lemma {:induction false} MovesBalance(st: PadState, path: seq<Pixel>, button: int, x: ShapeId)
    requires Coherent(st)
    requires x in st.scene.shapes && st.scene.shapes[x].layer.Some?
    ensures var r := Moves(st, path, button);
      CountCalls(r.calls, DeliveryOf(x, Entered)) - CountCalls(r.calls, DeliveryOf(x, Exited))
      == Indicator(r.state.last == Some(x)) - Indicator(st.last == Some(x))
    decreases |path|
  {
    if path != [] {
      var prev := Moves(st, path[..|path| - 1], button);
      MovesBalance(st, path[..|path| - 1], button, x);
      var m := Move(prev.state, path[|path| - 1], button);
      MoveCounts(prev.state, path[|path| - 1], button, x, Entered);
      MoveCounts(prev.state, path[|path| - 1], button, x, Exited);
      CountCallsAppend(prev.calls, m.calls, DeliveryOf(x, Entered));
      CountCallsAppend(prev.calls, m.calls, DeliveryOf(x, Exited));
    }
  }

  // --- press ---------------------------------------------------------------

  /** Some shape of the list has a `null` layer back-reference. */
  function AnyDetached(shapes: map<ShapeId, Shape.ShapeRec>, ids: seq<ShapeId>): (b: bool)
    requires forall x :: x in ids ==> x in shapes
    ensures b <==> exists i :: 0 <= i < |ids| && shapes[ids[i]].layer.None?
  {
    if ids == [] then false
    else AnyDetached(shapes, ids[..|ids| - 1]) || shapes[ids[|ids| - 1]].layer.None?
  }

  /** `b` is `a` with at most its drag offset changed. */
  predicate OffsetOnly(a: Shape.ShapeRec, b: Shape.ShapeRec) {
    b == a.(dragDelta := b.dragDelta)
  }

  /** The offset `startDrag` records for a shape with a layer when the
      pointer is at `p`. */
  function StartOffset(sc: Scene.Scene, x: ShapeId, p: Point): Point
    requires Scene.WellFormed(sc) && x in sc.shapes && sc.shapes[x].layer.Some?
  {
    Shape.StartDrag(sc.shapes[x], LayerOf(sc, x), p).value.dragDelta
  }

  /** Shape `x` has a layer, and in `sc'` holds the offset `startDrag`
      records for it in `sc` with the pointer at `p`. */
  predicate Recorded(sc: Scene.Scene, sc': Scene.Scene, x: ShapeId, p: Point) {
    Scene.WellFormed(sc) && x in sc.shapes && x in sc'.shapes && sc.shapes[x].layer.Some?
    && sc'.shapes[x].dragDelta == StartOffset(sc, x, p)
  }

  /** Changing only selection flags and drag offsets leaves the offset
      `startDrag` would record. */
  lemma StartOffsetKept(sc: Scene.Scene, sc': Scene.Scene, x: ShapeId, p: Point)
    requires Scene.WellFormed(sc) && Reshaped(sc, sc') && x in sc.shapes
    requires PressTouched(sc.shapes[x], sc'.shapes[x])
    requires sc.shapes[x].layer.Some? || sc'.shapes[x].layer.Some?
    ensures sc.shapes[x].layer.Some? && sc'.shapes[x].layer.Some?
    ensures StartOffset(sc', x, p) == StartOffset(sc, x, p)
  {
  }

  /** `startDrag` on each shape of a list in turn: each records its offset
      from the pointer; a shape whose back-reference is `null` throws, which
      ends the handler (the flag in the result). When nothing throws, every
      listed shape holds the offset of the pointer, however often it is
      listed; an unlisted shape is untouched. */
  function StartDragList(sc: Scene.Scene, ids: seq<ShapeId>, p: Point): (r: (Scene.Scene, bool))
    requires Scene.WellFormed(sc) && forall x :: x in ids ==> x in sc.shapes
    ensures Reshaped(sc, r.0)
    ensures forall x :: x in sc.shapes ==> OffsetOnly(sc.shapes[x], r.0.shapes[x])
    ensures r.1 == AnyDetached(sc.shapes, ids)
    ensures !r.1 ==> forall x :: x in ids ==> Recorded(sc, r.0, x, p)
    ensures forall x :: x in sc.shapes && x !in ids ==> r.0.shapes[x] == sc.shapes[x]
  {
    if ids == [] then (sc, false)
    else
      var x := ids[|ids| - 1];
      var prev := StartDragList(sc, ids[..|ids| - 1], p);
      if prev.1 then prev
      else
        var one := StartDragOne(prev.0, x, p);
        OffsetThenOne(sc.shapes, prev.0.shapes, one.0.shapes, x);
        StartDragListStep(sc, prev.0, one.0, ids, p, one.1);
        one
  }

  /** The last shape of the list after the others. */
  lemma StartDragListStep(sc: Scene.Scene, mid: Scene.Scene, sc': Scene.Scene, ids: seq<ShapeId>, p: Point, fault: bool)
    requires Scene.WellFormed(sc) && Reshaped(sc, mid) && Reshaped(mid, sc') && ids != []
    requires forall x :: x in ids ==> x in sc.shapes
    requires forall x :: x in sc.shapes ==> OffsetOnly(sc.shapes[x], mid.shapes[x])
    requires forall x :: x in ids[..|ids| - 1] ==> Recorded(sc, mid, x, p)
    requires forall x :: x in sc.shapes && x !in ids[..|ids| - 1] ==> mid.shapes[x] == sc.shapes[x]
    requires fault == mid.shapes[ids[|ids| - 1]].layer.None?
    requires !fault ==> sc'.shapes[ids[|ids| - 1]] == Shape.StartDrag(mid.shapes[ids[|ids| - 1]], LayerOf(mid, ids[|ids| - 1]), p).value
    requires fault ==> sc'.shapes[ids[|ids| - 1]] == mid.shapes[ids[|ids| - 1]]
    requires forall x :: x in mid.shapes && x != ids[|ids| - 1] ==> sc'.shapes[x] == mid.shapes[x]
    ensures !fault ==> forall x :: x in ids ==> Recorded(sc, sc', x, p)
    ensures forall x :: x in sc.shapes && x !in ids ==> sc'.shapes[x] == sc.shapes[x]
  {
    var init, y := ids[..|ids| - 1], ids[|ids| - 1];
    if !fault {
      assert PressTouched(sc.shapes[y], mid.shapes[y]) by {
        assert OffsetOnly(sc.shapes[y], mid.shapes[y]);
      }
      StartOffsetKept(sc, mid, y, p);
      assert sc'.shapes[y].dragDelta == StartOffset(mid, y, p);
      forall x | x in ids
        ensures Recorded(sc, sc', x, p)
      {
        if x != y {
          Lists.InLast(ids, x);
          assert Recorded(sc, mid, x, p);
        }
      }
    }
    forall x | x in sc.shapes && x !in ids
      ensures sc'.shapes[x] == sc.shapes[x]
    {
      assert x !in init;
    }
  }

  /** Offset changes followed by the offset change of one shape `x`. */
  lemma OffsetThenOne(a: map<ShapeId, Shape.ShapeRec>, b: map<ShapeId, Shape.ShapeRec>, c: map<ShapeId, Shape.ShapeRec>, x: ShapeId)
    requires a.Keys == b.Keys == c.Keys && x in b
    requires forall y :: y in a ==> OffsetOnly(a[y], b[y])
    requires forall y :: y in b && y != x ==> c[y] == b[y]
    requires OffsetOnly(b[x], c[x])
    ensures forall y :: y in a ==> OffsetOnly(a[y], c[y])
  {
  }

  /** `startDrag` on one shape. */
  function StartDragOne(sc: Scene.Scene, x: ShapeId, p: Point): (r: (Scene.Scene, bool))
    requires Scene.WellFormed(sc) && x in sc.shapes
    ensures Reshaped(sc, r.0)
    ensures forall y :: y in sc.shapes && y != x ==> r.0.shapes[y] == sc.shapes[y]
    ensures OffsetOnly(sc.shapes[x], r.0.shapes[x])
    ensures r.1 == sc.shapes[x].layer.None?
    ensures r.1 ==> r.0 == sc
    ensures !r.1 ==> r.0.shapes[x] == Shape.StartDrag(sc.shapes[x], LayerOf(sc, x), p).value
  {
    match Shape.StartDrag(sc.shapes[x], LayerOf(sc, x), p)
    case Err(_) => (sc, true)
    case Ok(v) => (Scene.SetShape(sc, x, v), false)
  }

  /** The press loop over the layers: in each, `startDrag` on all its
      shapes, then the press is delivered to the shape under the pointer,
      once per layer. The flag reports an exception, after which the loop
      stops. When nothing throws, every shape listed in the layers visited
      holds the offset `startDrag` records for the pointer. */
  function PressLayers(sc: Scene.Scene, layers: seq<LayerId>, n: nat, s: ShapeId, p: Point, button: int): (r: (Scene.Scene, seq<Call>, bool))
    requires Scene.WellFormed(sc) && s in sc.shapes && n <= |layers|
    requires forall i :: 0 <= i < |layers| ==> layers[i] in sc.layerRecs
    ensures Reshaped(sc, r.0)
    ensures forall x :: x in sc.shapes ==> PressTouched(sc.shapes[x], r.0.shapes[x])
    ensures forall x :: x in sc.shapes && x != s ==> r.0.shapes[x].selected == sc.shapes[x].selected
    ensures r.2 <==> EndsInFault(r.1)
    ensures !r.2 ==> forall i, x :: 0 <= i < n && x in sc.layerRecs[layers[i]].shapes ==> Recorded(sc, r.0, x, p)
    decreases n
  {
    if n == 0 then (sc, [], false)
    else
      var prev := PressLayers(sc, layers, n - 1, s, p, button);
      if prev.2 then prev
      else
        var one := PressLayer(prev.0, layers[n - 1], s, p, button);
        PressTouchedTrans(sc.shapes, prev.0.shapes, one.0.shapes);
        EndsInFaultAppend(prev.1, one.1);
        PressLayersOffsetStep(sc, prev.0, one.0, layers, n, p, one.2);
        (one.0, prev.1 + one.1, one.2)
  }

  /** The offsets after one more layer of the press loop. */
  lemma PressLayersOffsetStep(sc: Scene.Scene, mid: Scene.Scene, sc': Scene.Scene, layers: seq<LayerId>, n: nat, p: Point, fault: bool)
    requires Scene.WellFormed(sc) && Reshaped(sc, mid) && Reshaped(mid, sc') && 0 < n <= |layers|
    requires forall i :: 0 <= i < |layers| ==> layers[i] in sc.layerRecs
    requires forall x :: x in sc.shapes ==> PressTouched(sc.shapes[x], mid.shapes[x])
    requires forall i, x :: 0 <= i < n - 1 && x in sc.layerRecs[layers[i]].shapes ==> Recorded(sc, mid, x, p)
    requires !fault ==> forall x :: x in mid.layerRecs[layers[n - 1]].shapes ==> Recorded(mid, sc', x, p)
    requires forall x :: x in mid.shapes && x !in mid.layerRecs[layers[n - 1]].shapes ==>
      sc'.shapes[x].dragDelta == mid.shapes[x].dragDelta
    ensures !fault ==> forall i, x :: 0 <= i < n && x in sc.layerRecs[layers[i]].shapes ==> Recorded(sc, sc', x, p)
  {
    if !fault {
      forall i, x | 0 <= i < n && x in sc.layerRecs[layers[i]].shapes
        ensures Recorded(sc, sc', x, p)
      {
        if x in sc.layerRecs[layers[n - 1]].shapes {
          assert Recorded(mid, sc', x, p);
          StartOffsetKept(sc, mid, x, p);
        } else {
          assert i < n - 1;
          assert Recorded(sc, mid, x, p);
        }
      }
    }
  }

  /** One round of the press loop, on layer `l`. When nothing throws, the
      layer's shapes hold the offset of the pointer; no other offset
      changes. */
  function PressLayer(sc: Scene.Scene, l: LayerId, s: ShapeId, p: Point, button: int): (r: (Scene.Scene, seq<Call>, bool))
    requires Scene.WellFormed(sc) && s in sc.shapes && l in sc.layerRecs
    ensures Reshaped(sc, r.0)
    ensures forall x :: x in sc.shapes ==> PressTouched(sc.shapes[x], r.0.shapes[x])
    ensures forall x :: x in sc.shapes && x != s ==> r.0.shapes[x].selected == sc.shapes[x].selected
    ensures r.2 <==> EndsInFault(r.1)
    ensures r.2 <==> AnyDetached(sc.shapes, sc.layerRecs[l].shapes)
    ensures !r.2 ==> forall x :: x in sc.layerRecs[l].shapes ==> Recorded(sc, r.0, x, p)
    ensures forall x :: x in sc.shapes && x !in sc.layerRecs[l].shapes ==>
      r.0.shapes[x].dragDelta == sc.shapes[x].dragDelta
  {
    var started := StartDragList(sc, sc.layerRecs[l].shapes, p);
    if started.1 then (started.0, [Fault(NullReference)], true)
    else
      var d := Deliver(started.0, s, Pressed, p, button);
      assert d.1 == [] || d.1[|d.1| - 1].ToShape?;
      DeliverSelectsOnly(started.0, s, Pressed, p, button);
      PressTouchedSteps(sc.shapes, started.0.shapes, d.0.shapes);
      (d.0, d.1, false)
  }

  /** The trace ends in the exception a `null` back-reference throws. */
  predicate EndsInFault(calls: seq<Call>) {
    |calls| > 0 && calls[|calls| - 1] == Fault(NullReference)
  }

  lemma EndsInFaultAppend(a: seq<Call>, b: seq<Call>)
    ensures b == [] ==> a + b == a
    ensures b != [] ==> (EndsInFault(a + b) <==> EndsInFault(b))
  {
    if b != [] {
      assert (a + b)[|a + b| - 1] == b[|b| - 1];
    }
  }

  /** `b` is `a` with at most its selection and drag offset changed. */
  predicate PressTouched(a: Shape.ShapeRec, b: Shape.ShapeRec) {
    b == a.(selected := b.selected, dragDelta := b.dragDelta)
  }

  /** `b` is `a` with at most its selection changed. */
  predicate SelectOnly(a: Shape.ShapeRec, b: Shape.ShapeRec) {
    b == a.(selected := b.selected)
  }

  /** Delivering a callback changes at most the selection of shapes. */
  lemma DeliverSelectsOnly(sc: Scene.Scene, s: ShapeId, kind: Kind, p: Point, button: int)
    requires Scene.WellFormed(sc) && s in sc.shapes
    ensures forall x :: x in sc.shapes ==> SelectOnly(sc.shapes[x], Deliver(sc, s, kind, p, button).0.shapes[x])
  {
  }

  lemma PressTouchedSteps(a: map<ShapeId, Shape.ShapeRec>, b: map<ShapeId, Shape.ShapeRec>, c: map<ShapeId, Shape.ShapeRec>)
    requires a.Keys == b.Keys == c.Keys
    requires forall x :: x in a ==> OffsetOnly(a[x], b[x])
    requires forall x :: x in b ==> SelectOnly(b[x], c[x])
    ensures forall x :: x in a ==> PressTouched(a[x], c[x])
  {
  }

  lemma PressTouchedTrans(a: map<ShapeId, Shape.ShapeRec>, b: map<ShapeId, Shape.ShapeRec>, c: map<ShapeId, Shape.ShapeRec>)
    requires a.Keys == b.Keys == c.Keys
    requires forall x :: x in a ==> PressTouched(a[x], b[x])
    requires forall x :: x in b ==> PressTouched(b[x], c[x])
    ensures forall x :: x in a ==> PressTouched(a[x], c[x])
  {
  }

  /** The window point in default-layer coordinates as a `java.awt.Point`:
      the inverse is rounded into the point, and the point is left as it
      was when the transform cannot be inverted. */
  function PadPoint(sc: Scene.Scene, p: Point): (q: Point)
    requires Scene.WellFormed(sc)
    ensures Affine.Det(DefaultT(sc)) == 0.0 ==> q == p
  {
    match Affine.InverseApply(DefaultT(sc), p)
    case None => p
    case Some(v) => RoundPoint(v)
  }

  /** With an invertible default transform the Pad is given the rounded
      preimage of the window point. */
  lemma PadPointRounds(sc: Scene.Scene, p: Point)
    requires Scene.WellFormed(sc) && Affine.Det(DefaultT(sc)) != 0.0
    ensures exists v :: Affine.Apply(DefaultT(sc), v) == p && PadPoint(sc, p) == RoundPoint(v)
  {
    Affine.InverseApplies(DefaultT(sc), p);
  }

  /** `mousePressed`. Over a shape: unless shift is down or the shape is
      already selected, everything is deselected; dragging starts; then
      the press loop. Over the background: unless shift is down,
      everything is deselected; then the Pad's pressed callback, in
      default-layer coordinates. */
  function Press(st: PadState, at: Pixel, button: int, shift: bool): (r: Outcome)
    requires Coherent(st)
    ensures Coherent(r.state)
    ensures r.state.hits == st.hits && r.state.last == st.last
    ensures Reshaped(st.scene, r.state.scene)
    ensures forall x :: x in st.scene.shapes ==> PressTouched(st.scene.shapes[x], r.state.scene.shapes[x])
    ensures r.state.dragging == (st.dragging || HitTest.Resolve(st.hits, at).Some?)
    ensures HitTest.Resolve(st.hits, at).Some? && !EndsInFault(r.calls) ==>
      forall x :: x in Scene.Listed(st.scene) ==> Recorded(st.scene, r.state.scene, x, ToPoint(at))
  {
    var sc, p, target := st.scene, ToPoint(at), HitTest.Resolve(st.hits, at);
    if target.Some? then
      var s := target.value;
      var d := DeselectIf(sc, !shift && !sc.shapes[s].selected);
      var pl := PressLayers(d.0, d.0.layers, |d.0.layers|, s, p, button);
      PressOffsets(sc, d.0, pl.0, p, d.1, pl.1, pl.2);
      Outcome(st.(scene := pl.0, dragging := true), d.1 + pl.1)
    else
      var d := DeselectIf(sc, !shift);
      Outcome(st.(scene := d.0), d.1 + [ToPad(Pressed, PadPoint(sc, p), button)])
  }

  /** `deselectAll()` when `b` holds: only selection flags change. */
  function DeselectIf(sc: Scene.Scene, b: bool): (r: (Scene.Scene, seq<Call>))
    requires Scene.WellFormed(sc)
    ensures Reshaped(sc, r.0)
    ensures forall x :: x in sc.shapes ==> SelectOnly(sc.shapes[x], r.0.shapes[x])
    ensures !b ==> r == (sc, [])
    ensures b ==> r == Scene.DeselectAll(sc)
  {
    if b then Scene.DeselectAll(sc) else (sc, [])
  }

  /** A deselection and then the press loop: only selection flags and
      offsets change, and when the trace does not end in an exception
      every listed shape holds the offset of the pointer. */
  lemma PressOffsets(sc: Scene.Scene, mid: Scene.Scene, sc': Scene.Scene, p: Point,
                     pre: seq<Call>, calls: seq<Call>, fault: bool)
    requires Scene.WellFormed(sc) && Reshaped(sc, mid) && Reshaped(mid, sc')
    requires forall x :: x in sc.shapes ==> SelectOnly(sc.shapes[x], mid.shapes[x])
    requires forall x :: x in mid.shapes ==> PressTouched(mid.shapes[x], sc'.shapes[x])
    requires fault <==> EndsInFault(calls)
    requires !fault ==> forall i, x :: 0 <= i < |mid.layers| && x in mid.layerRecs[mid.layers[i]].shapes ==> Recorded(mid, sc', x, p)
    ensures forall x :: x in sc.shapes ==> PressTouched(sc.shapes[x], sc'.shapes[x])
    ensures !EndsInFault(pre + calls) ==> forall x :: x in Scene.Listed(sc) ==> Recorded(sc, sc', x, p)
  {
    EndsInFaultAppend(pre, calls);
    if !EndsInFault(pre + calls) {
      forall x | x in Scene.Listed(sc)
        ensures Recorded(sc, sc', x, p)
      {
        var i :| 0 <= i < |sc.layers| && sc.layers[i] in sc.layerRecs && x in sc.layerRecs[sc.layers[i]].shapes;
        assert Recorded(mid, sc', x, p);
        assert PressTouched(sc.shapes[x], mid.shapes[x]);
        StartOffsetKept(sc, mid, x, p);
      }
    }
  }

  /** Every shape listed in a layer of the Pad refers to some layer. */
  predicate Attached(sc: Scene.Scene)
    requires Scene.WellFormed(sc)
  {
    forall i, x :: 0 <= i < |sc.layers| && x in sc.layerRecs[sc.layers[i]].shapes ==> sc.shapes[x].layer.Some?
  }

  /** When every listed shape refers to a layer, the press loop throws
      nothing and delivers the press once per layer; and the pressed shape
      ends up selected if it is selectable. */
  lemma {:induction false} PressLayersDelivers(sc: Scene.Scene, n: nat, s: ShapeId, p: Point, button: int)
    requires Scene.WellFormed(sc) && s in sc.shapes && Attached(sc) && n <= |sc.layers|
    requires sc.shapes[s].layer.Some?
    ensures var r := PressLayers(sc, sc.layers, n, s, p, button);
      !r.2 && CountCalls(r.1, DeliveryOf(s, Pressed)) == n
      && r.0.shapes[s].selected == (sc.shapes[s].selected || (n > 0 && sc.shapes[s].selectable))
  {
    if n > 0 {
      var m: nat := n - 1;
      PressLayersDelivers(sc, m, s, p, button);
      PressLayersStep(sc, m, s, p, button);
    }
  }

  /** The inductive step of `PressLayersDelivers`. */
  lemma PressLayersStep(sc: Scene.Scene, m: nat, s: ShapeId, p: Point, button: int)
    requires Scene.WellFormed(sc) && s in sc.shapes && Attached(sc) && m < |sc.layers|
    requires sc.shapes[s].layer.Some?
    requires var prev := PressLayers(sc, sc.layers, m, s, p, button);
      !prev.2 && CountCalls(prev.1, DeliveryOf(s, Pressed)) == m
      && prev.0.shapes[s].selected == (sc.shapes[s].selected || (m > 0 && sc.shapes[s].selectable))
    ensures var r := PressLayers(sc, sc.layers, m + 1, s, p, button);
      !r.2 && CountCalls(r.1, DeliveryOf(s, Pressed)) == m + 1
      && r.0.shapes[s].selected == (sc.shapes[s].selected || sc.shapes[s].selectable)
  {
    var prev := PressLayers(sc, sc.layers, m, s, p, button);
    var l := sc.layers[m];
    StillAttached(sc, prev.0, l);
    PressLayerDelivers(prev.0, l, s, p, button);
    PressLayersUnfold(sc, m, s, p, button);
    var d := PressLayer(prev.0, l, s, p, button);
    CountCallsAppend(prev.1, d.1, DeliveryOf(s, Pressed));
    assert PressTouched(sc.shapes[s], prev.0.shapes[s]);
  }

  /** One more round of the press loop, after rounds that threw nothing. */
  lemma PressLayersUnfold(sc: Scene.Scene, m: nat, s: ShapeId, p: Point, button: int)
    requires Scene.WellFormed(sc) && s in sc.shapes && m < |sc.layers|
    requires !PressLayers(sc, sc.layers, m, s, p, button).2
    ensures var prev := PressLayers(sc, sc.layers, m, s, p, button);
      var d := PressLayer(prev.0, sc.layers[m], s, p, button);
      PressLayers(sc, sc.layers, m + 1, s, p, button) == (d.0, prev.1 + d.1, d.2)
  {
  }

  /** Changing only selection and drag offsets keeps the shapes of a
      layer attached. */
  lemma StillAttached(sc: Scene.Scene, sc': Scene.Scene, l: LayerId)
    requires Scene.WellFormed(sc) && Attached(sc) && Reshaped(sc, sc')
    requires l in sc.layers
    requires forall x :: x in sc.shapes ==> PressTouched(sc.shapes[x], sc'.shapes[x])
    ensures !AnyDetached(sc'.shapes, sc'.layerRecs[l].shapes)
  {
    var ids := sc'.layerRecs[l].shapes;
    var i :| 0 <= i < |sc.layers| && sc.layers[i] == l;
    forall x | x in ids
      ensures sc'.shapes[x].layer.Some?
    {
      assert sc.shapes[x].layer.Some?;
      assert PressTouched(sc.shapes[x], sc'.shapes[x]);
    }
    NoneDetached(sc'.shapes, ids);
  }

  /** One round of the press loop on a layer whose shapes all refer to a
      layer delivers the press to an attached shape exactly once. */
  lemma PressLayerDelivers(sc: Scene.Scene, l: LayerId, s: ShapeId, p: Point, button: int)
    requires Scene.WellFormed(sc) && s in sc.shapes && l in sc.layerRecs
    requires sc.shapes[s].layer.Some? && !AnyDetached(sc.shapes, sc.layerRecs[l].shapes)
    ensures var r := PressLayer(sc, l, s, p, button);
      !r.2 && CountCalls(r.1, DeliveryOf(s, Pressed)) == 1
      && r.0.shapes[s].selected == (sc.shapes[s].selected || sc.shapes[s].selectable)
  {
    var started := StartDragList(sc, sc.layerRecs[l].shapes, p);
    DeliverCounts(started.0.shapes[s], LayerOf(started.0, s), s, Pressed, p, button, s, Pressed);
  }

  /** A press on an unselected shape without shift leaves that shape the
      only selected one among the listed shapes (when it is selectable and
      every listed shape refers to a layer). */
  lemma PressSelectsOnlyTarget(st: PadState, at: Pixel, button: int)
    requires Coherent(st) && Attached(st.scene) && Scene.SelectionConsistent(st.scene.shapes)
    requires HitTest.Resolve(st.hits, at).Some?
    requires var s := HitTest.Resolve(st.hits, at).value;
      !st.scene.shapes[s].selected && st.scene.shapes[s].layer.Some?
    ensures var s, r := HitTest.Resolve(st.hits, at).value, Press(st, at, button, false);
      var sc' := r.state.scene;
      r.state.dragging && CountCalls(r.calls, DeliveryOf(s, Pressed)) == |st.scene.layers|
      && sc'.shapes[s].selected == st.scene.shapes[s].selectable
      && forall x :: x in Scene.Listed(st.scene) && x != s ==> !sc'.shapes[x].selected
  {
    var sc, p, s := st.scene, ToPoint(at), HitTest.Resolve(st.hits, at).value;
    var d := Scene.DeselectAll(sc);
    assert Attached(d.0);
    PressLayersDelivers(d.0, |d.0.layers|, s, p, button);
    var pl := PressLayers(d.0, d.0.layers, |d.0.layers|, s, p, button);
    CountCallsAppend(d.1, pl.1, DeliveryOf(s, Pressed));
    DeselectionsOnly(d.1, DeliveryOf(s, Pressed));
  }

  lemma NoneDetached(shapes: map<ShapeId, Shape.ShapeRec>, ids: seq<ShapeId>)
    requires forall x :: x in ids ==> x in shapes && shapes[x].layer.Some?
    ensures !AnyDetached(shapes, ids)
  {
  }

  /** Deselection callbacks are neither deliveries nor Pad callbacks. */
  lemma {:induction false} DeselectionsOnly(calls: seq<Call>, pat: Pattern)
    requires forall i :: 0 <= i < |calls| ==> calls[i].SelectionChanged?
    requires !pat.DeselectionOf?
    ensures CountCalls(calls, pat) == 0
  {
    if calls != [] {
      DeselectionsOnly(calls[..|calls| - 1], pat);
    }
  }

  /** A press over the background calls the Pad's pressed callback once,
      last, with the pointer in default-layer coordinates, and starts no
      drag; without shift nothing listed stays selected, with shift the
      scene is untouched. */
  lemma PressBackground(st: PadState, at: Pixel, button: int, shift: bool)
    requires Coherent(st) && Scene.SelectionConsistent(st.scene.shapes)
    requires HitTest.Resolve(st.hits, at).None?
    ensures var r := Press(st, at, button, shift);
      r.state.dragging == st.dragging
      && CountCalls(r.calls, PadCallOf(Pressed)) == 1
      && r.calls[|r.calls| - 1] == ToPad(Pressed, PadPoint(st.scene, ToPoint(at)), button)
      && (shift ==> r.state.scene == st.scene)
      && (!shift ==> forall x :: x in Scene.Listed(st.scene) && x in st.scene.shapes ==> !r.state.scene.shapes[x].selected)
  {
    var sc, p := st.scene, ToPoint(at);
    var d := if !shift then Scene.DeselectAll(sc) else (sc, []);
    var c := [ToPad(Pressed, PadPoint(sc, p), button)];
    DeselectionsOnly(d.1, PadCallOf(Pressed));
    CountCallsAppend(d.1, c, PadCallOf(Pressed));
    CountOne(c[0], PadCallOf(Pressed));
  }

  // --- release ---------------------------------------------------------------

  /** `mouseReleased`: dragging stops (`stopDrag` does nothing); then the
      released callback goes to the shape under the pointer or, over the
      background, to the Pad with the pointer in default-layer coordinates
      rounded into a point. When the default layer's transform cannot be
      inverted the exception skips the Pad's callback. */
  function Release(st: PadState, at: Pixel, button: int): (r: Outcome)
    requires Coherent(st)
    ensures Coherent(r.state)
    ensures r.state.scene == st.scene && r.state.last == st.last && !r.state.dragging
  {
    Outcome(st.(dragging := false), ReleaseCalls(st.scene, HitTest.Resolve(st.hits, at), ToPoint(at), button))
  }

  /** The callbacks of a release over `s`: the shape's listener, or the
      Pad's when the window point maps back into the default layer. */
  function ReleaseCalls(sc: Scene.Scene, s: Option<ShapeId>, p: Point, button: int): seq<Call>
    requires Scene.WellFormed(sc) && (s.Some? ==> s.value in sc.shapes)
  {
    if s.Some? then ShapeCalls(sc, s.value, Released, p, button)
    else match Affine.InverseApply(DefaultT(sc), p)
         case None => []
         case Some(_) => [ToPad(Released, PadPoint(sc, p), button)]
  }

  /** A release calls back exactly once: the shape under the pointer when
      it has a layer, the Pad over the background when the default layer's
      transform can be inverted; nobody else, and with no selection
      change. */
  lemma ReleaseCounts(st: PadState, at: Pixel, button: int, x: ShapeId, k: Kind)
    requires Coherent(st) && x in st.scene.shapes
    ensures var r, s := Release(st, at, button), HitTest.Resolve(st.hits, at);
      |r.calls| <= 1
      && CountCalls(r.calls, DeliveryOf(x, k))
         == Indicator(k == Released && s == Some(x) && st.scene.shapes[x].layer.Some?)
      && CountCalls(r.calls, PadCallOf(k))
         == Indicator(k == Released && s.None? && Affine.Det(DefaultT(st.scene)) != 0.0)
  {
    ReleaseCallsCounts(st.scene, HitTest.Resolve(st.hits, at), ToPoint(at), button, x, k);
  }

  lemma ReleaseCallsCounts(sc: Scene.Scene, s: Option<ShapeId>, p: Point, button: int, x: ShapeId, k: Kind)
    requires Scene.WellFormed(sc) && (s.Some? ==> s.value in sc.shapes) && x in sc.shapes
    ensures var calls := ReleaseCalls(sc, s, p, button);
      |calls| <= 1
      && CountCalls(calls, DeliveryOf(x, k)) == Indicator(k == Released && s == Some(x) && sc.shapes[x].layer.Some?)
      && CountCalls(calls, PadCallOf(k)) == Indicator(k == Released && s.None? && Affine.Det(DefaultT(sc)) != 0.0)
  {
    if s.Some? {
      DeliverCounts(sc.shapes[s.value], LayerOf(sc, s.value), s.value, Released, p, button, x, k);
    } else if Affine.Det(DefaultT(sc)) != 0.0 {
      var c := ToPad(Released, PadPoint(sc, p), button);
      assert ReleaseCalls(sc, s, p, button) == [c];
      CountOne(c, DeliveryOf(x, k));
      CountOne(c, PadCallOf(k));
    }
  }

  // --- drag ------------------------------------------------------------------

  /** A shape that `doDrag` moves. */
  predicate Mover(r: Shape.ShapeRec) {
    r.selected && r.draggable
  }

  /** `b` is `a` with at most its location changed. */
  predicate Relocated(a: Shape.ShapeRec, b: Shape.ShapeRec) {
    b == a.(x := b.x, y := b.y)
  }

  lemma RelocatedTrans(a: map<ShapeId, Shape.ShapeRec>, b: map<ShapeId, Shape.ShapeRec>, c: map<ShapeId, Shape.ShapeRec>)
    requires a.Keys == b.Keys == c.Keys
    requires forall x :: x in a ==> Relocated(a[x], b[x])
    requires forall x :: x in b ==> Relocated(b[x], c[x])
    ensures forall x :: x in a ==> Relocated(a[x], c[x])
  {
  }

  /** Relocations followed by the relocation of one shape `x`. */
  lemma RelocatedThenOne(a: map<ShapeId, Shape.ShapeRec>, b: map<ShapeId, Shape.ShapeRec>, c: map<ShapeId, Shape.ShapeRec>, x: ShapeId)
    requires a.Keys == b.Keys == c.Keys && x in b
    requires forall y :: y in a ==> Relocated(a[y], b[y])
    requires forall y :: y in b && y != x ==> c[y] == b[y]
    requires Relocated(b[x], c[x])
    ensures forall y :: y in a ==> Relocated(a[y], c[y])
  {
  }

  /** `doDrag` and then the shape listener's dragged callback, on one
      shape. A mover whose back-reference is `null` throws (the flag). */
  function DragOne(sc: Scene.Scene, x: ShapeId, p: Point, button: int): (r: (Scene.Scene, seq<Call>, bool))
    requires Scene.WellFormed(sc) && x in sc.shapes
    ensures Reshaped(sc, r.0)
    ensures forall y :: y in sc.shapes && y != x ==> r.0.shapes[y] == sc.shapes[y]
    ensures Relocated(sc.shapes[x], r.0.shapes[x])
    ensures r.2 <==> EndsInFault(r.1)
    ensures r.2 <==> Mover(sc.shapes[x]) && sc.shapes[x].layer.None?
    ensures !r.2 ==> r.0.shapes[x] == Shape.DoDrag(sc.shapes[x], LayerOf(sc, x), p).value
  {
    match Shape.DoDrag(sc.shapes[x], LayerOf(sc, x), p)
    case Err(_) => (sc, [Fault(NullReference)], true)
    case Ok(v) =>
      var sc' := Scene.SetShape(sc, x, v);
      var calls := ShapeCalls(sc', x, Dragged, p, button);
      assert calls == [] || calls[|calls| - 1].ToShape?;
      (sc', calls, false)
  }

  /** `doDrag` and the dragged callback on each shape of a list in turn,
      until one throws. */
  function DragShapes(sc: Scene.Scene, ids: seq<ShapeId>, p: Point, button: int): (r: (Scene.Scene, seq<Call>, bool))
    requires Scene.WellFormed(sc) && forall x :: x in ids ==> x in sc.shapes
    ensures Reshaped(sc, r.0)
    ensures forall x :: x in sc.shapes ==> Relocated(sc.shapes[x], r.0.shapes[x])
    ensures forall x :: x in sc.shapes && x !in ids ==> r.0.shapes[x] == sc.shapes[x]
    ensures r.2 <==> EndsInFault(r.1)
    decreases |ids|
  {
    if ids == [] then (sc, [], false)
    else
      var init := ids[..|ids| - 1];
      var prev := DragShapes(sc, init, p, button);
      if prev.2 then prev
      else
        var one := DragOne(prev.0, ids[|ids| - 1], p, button);
        RelocatedThenOne(sc.shapes, prev.0.shapes, one.0.shapes, ids[|ids| - 1]);
        EndsInFaultAppend(prev.1, one.1);
        assert forall x :: x !in ids ==> x !in init && x != ids[|ids| - 1];
        (one.0, prev.1 + one.1, one.2)
  }

  /** The selected shapes of layer `l` are dragged. */
  function DragLayer(sc: Scene.Scene, l: LayerId, p: Point, button: int): (r: (Scene.Scene, seq<Call>, bool))
    requires Scene.WellFormed(sc) && l in sc.layerRecs
    ensures Reshaped(sc, r.0)
    ensures forall x :: x in sc.shapes ==> Relocated(sc.shapes[x], r.0.shapes[x])
    ensures forall x :: x in sc.shapes && !sc.shapes[x].selected ==> r.0.shapes[x] == sc.shapes[x]
    ensures r.2 <==> EndsInFault(r.1)
  {
    DragShapes(sc, Scene.SelectedIn(sc.layerRecs[l].shapes, sc.shapes), p, button)
  }

  /** The drag loop over the first `n` layers, layer after layer. */
  function DragLayers(sc: Scene.Scene, layers: seq<LayerId>, n: nat, p: Point, button: int): (r: (Scene.Scene, seq<Call>, bool))
    requires Scene.WellFormed(sc) && n <= |layers|
    requires forall i :: 0 <= i < |layers| ==> layers[i] in sc.layerRecs
    ensures Reshaped(sc, r.0)
    ensures forall x :: x in sc.shapes ==> Relocated(sc.shapes[x], r.0.shapes[x])
    ensures forall x :: x in sc.shapes && !sc.shapes[x].selected ==> r.0.shapes[x] == sc.shapes[x]
    ensures r.2 <==> EndsInFault(r.1)
    decreases n
  {
    if n == 0 then (sc, [], false)
    else
      var prev := DragLayers(sc, layers, n - 1, p, button);
      if prev.2 then prev
      else
        var one := DragLayer(prev.0, layers[n - 1], p, button);
        RelocatedTrans(sc.shapes, prev.0.shapes, one.0.shapes);
        EndsInFaultAppend(prev.1, one.1);
        (one.0, prev.1 + one.1, one.2)
  }

  /** `mouseDragged`. While a drag is under way, the selected shapes of
      every layer are moved and told; an exception from a shape ends the
      handler there. Then, over the background, the Pad's dragged callback
      with the window coordinates unconverted; then the crossings as for a
      move, and the shape under the pointer becomes the last one. */
  function Drag(st: PadState, at: Pixel, button: int): (r: Outcome)
    requires Coherent(st)
    ensures Coherent(r.state)
    ensures r.state.hits == st.hits && r.state.dragging == st.dragging
    ensures Reshaped(st.scene, r.state.scene)
    ensures forall x :: x in st.scene.shapes ==> Relocated(st.scene.shapes[x], r.state.scene.shapes[x])
    ensures !st.dragging ==> r.state == Move(st, at, button).state
  {
    var sc, p := st.scene, ToPoint(at);
    var dl := DragLoop(st, p, button);
    if dl.2 then Outcome(st.(scene := dl.0), dl.1)
    else
      var s := HitTest.Resolve(st.hits, at);
      Outcome(st.(scene := dl.0, last := s), dl.1 + DragTail(dl.0, st.last, s, p, button))
  }

  /** The drag loop of `mouseDragged`, which runs only while dragging. */
  function DragLoop(st: PadState, p: Point, button: int): (r: (Scene.Scene, seq<Call>, bool))
    requires Coherent(st)
    ensures Reshaped(st.scene, r.0)
    ensures forall x :: x in st.scene.shapes ==> Relocated(st.scene.shapes[x], r.0.shapes[x])
    ensures !st.dragging ==> r == (st.scene, [], false)
  {
    if st.dragging then DragLayers(st.scene, st.scene.layers, |st.scene.layers|, p, button) else (st.scene, [], false)
  }

  /** What `mouseDragged` does after the loop: the Pad's dragged callback
      over the background, then the crossings. */
  function DragTail(sc: Scene.Scene, last: Option<ShapeId>, s: Option<ShapeId>, p: Point, button: int): seq<Call>
    requires Scene.WellFormed(sc)
    requires s.Some? ==> s.value in sc.shapes
    requires last.Some? ==> last.value in sc.shapes
  {
    (if s.None? then [ToPad(Dragged, p, button)] else []) + Crossing(sc, last, s, p, button)
  }

  // --- what a drag does --------------------------------------------------------

  /** No shape of the list could make `doDrag` throw. */
  predicate Safe(shapes: map<ShapeId, Shape.ShapeRec>, ids: seq<ShapeId>) {
    forall x :: x in ids ==> x in shapes && (Mover(shapes[x]) ==> shapes[x].layer.Some?)
  }

  /** Every listed shape that `doDrag` would move refers to a layer. */
  predicate MoversAttached(sc: Scene.Scene)
    requires Scene.WellFormed(sc)
  {
    forall i, x :: 0 <= i < |sc.layers| && x in sc.layerRecs[sc.layers[i]].shapes && Mover(sc.shapes[x])
      ==> sc.shapes[x].layer.Some?
  }

  /** Shape `x` is listed in one of the first `n` layers of the Pad. */
  predicate ListedBefore(sc: Scene.Scene, n: nat, x: ShapeId)
    requires Scene.WellFormed(sc) && n <= |sc.layers|
  {
    exists i :: 0 <= i < n && x in sc.layerRecs[sc.layers[i]].shapes
  }

  /** Relocating a shape keeps what `LayerOf` and `doDrag` look at. */
  lemma RelocatedKeeps(sc: Scene.Scene, sc': Scene.Scene, x: ShapeId)
    requires Scene.WellFormed(sc) && Reshaped(sc, sc') && x in sc.shapes
    requires Relocated(sc.shapes[x], sc'.shapes[x])
    ensures LayerOf(sc', x) == LayerOf(sc, x)
    ensures Mover(sc'.shapes[x]) == Mover(sc.shapes[x])
    ensures sc'.shapes[x].selected == sc.shapes[x].selected
    ensures sc'.shapes[x].layer == sc.shapes[x].layer
  {
  }

  /** Over a safe list the drag loop throws nothing. */
  lemma {:induction false} DragShapesSafe(sc: Scene.Scene, ids: seq<ShapeId>, p: Point, button: int)
    requires Scene.WellFormed(sc) && Safe(sc.shapes, ids)
    ensures !DragShapes(sc, ids, p, button).2
    decreases |ids|
  {
    if ids != [] {
      var init, y := ids[..|ids| - 1], ids[|ids| - 1];
      DragShapesSafe(sc, init, p, button);
      var prev := DragShapes(sc, init, p, button);
      RelocatedKeeps(sc, prev.0, y);
    }
  }

  /** Over a safe list every listed shape ends where `doDrag` from its
      state before the loop puts it, however often it is listed. */
  lemma {:induction false} DragShapesPlaces(sc: Scene.Scene, ids: seq<ShapeId>, p: Point, button: int, x: ShapeId)
    requires Scene.WellFormed(sc) && Safe(sc.shapes, ids) && x in ids
    ensures Shape.DoDrag(sc.shapes[x], LayerOf(sc, x), p).Ok?
    ensures DragShapes(sc, ids, p, button).0.shapes[x] == Shape.DoDrag(sc.shapes[x], LayerOf(sc, x), p).value
    decreases |ids|
  {
    var init, y := ids[..|ids| - 1], ids[|ids| - 1];
    DragShapesSafe(sc, init, p, button);
    var prev := DragShapes(sc, init, p, button);
    RelocatedKeeps(sc, prev.0, x);
    if x in init {
      DragShapesPlaces(sc, init, p, button, x);
      if x == y {
        Shape.DoDragIdempotent(sc.shapes[x], LayerOf(sc, x), p);
      }
    }
  }

  /** Counting the callbacks of the drag loop over a list: none to the Pad,
      only dragged callbacks, none to a shape not in the list, and, when
      nothing throws, one per occurrence of an attached shape. */
  lemma {:induction false} DragShapesCounts(sc: Scene.Scene, ids: seq<ShapeId>, p: Point, button: int, x: ShapeId, k: Kind)
    requires Scene.WellFormed(sc) && x in sc.shapes && forall y :: y in ids ==> y in sc.shapes
    ensures var r := DragShapes(sc, ids, p, button);
      CountCalls(r.1, PadCallOf(k)) == 0
      && (x !in ids || k != Dragged ==> CountCalls(r.1, DeliveryOf(x, k)) == 0)
      && (!r.2 && k == Dragged ==> CountCalls(r.1, DeliveryOf(x, k))
                                   == if sc.shapes[x].layer.Some? then Lists.Count(ids, x) else 0)
    decreases |ids|
  {
    if ids != [] {
      var init := ids[..|ids| - 1];
      DragShapesCounts(sc, init, p, button, x, k);
      DragShapesCountsStep(sc, ids, p, button, x, k);
    }
  }

  lemma DragShapesCountsStep(sc: Scene.Scene, ids: seq<ShapeId>, p: Point, button: int, x: ShapeId, k: Kind)
    requires Scene.WellFormed(sc) && x in sc.shapes && ids != [] && forall y :: y in ids ==> y in sc.shapes
    requires var r := DragShapes(sc, ids[..|ids| - 1], p, button);
      CountCalls(r.1, PadCallOf(k)) == 0
      && (x !in ids[..|ids| - 1] || k != Dragged ==> CountCalls(r.1, DeliveryOf(x, k)) == 0)
      && (!r.2 && k == Dragged ==> CountCalls(r.1, DeliveryOf(x, k))
                                   == if sc.shapes[x].layer.Some? then Lists.Count(ids[..|ids| - 1], x) else 0)
    ensures var r := DragShapes(sc, ids, p, button);
      CountCalls(r.1, PadCallOf(k)) == 0
      && (x !in ids || k != Dragged ==> CountCalls(r.1, DeliveryOf(x, k)) == 0)
      && (!r.2 && k == Dragged ==> CountCalls(r.1, DeliveryOf(x, k))
                                   == if sc.shapes[x].layer.Some? then Lists.Count(ids, x) else 0)
  {
    var init, y := ids[..|ids| - 1], ids[|ids| - 1];
    var prev := DragShapes(sc, init, p, button);
    if !prev.2 {
      var one := DragOne(prev.0, y, p, button);
      DragOneCounts(prev.0, y, p, button, x, k);
      RelocatedKeeps(sc, prev.0, x);
      CountCallsAppend(prev.1, one.1, PadCallOf(k));
      CountCallsAppend(prev.1, one.1, DeliveryOf(x, k));
      Lists.CountLast(ids, x);
      Lists.InLast(ids, x);
    }
  }

  /** The callbacks of one step of the drag loop. */
  lemma DragOneCounts(sc: Scene.Scene, y: ShapeId, p: Point, button: int, x: ShapeId, k: Kind)
    requires Scene.WellFormed(sc) && y in sc.shapes
    ensures var r := DragOne(sc, y, p, button);
      CountCalls(r.1, PadCallOf(k)) == 0
      && CountCalls(r.1, DeliveryOf(x, k)) == Indicator(x == y && k == Dragged && sc.shapes[y].layer.Some?)
  {
    var r := DragOne(sc, y, p, button);
    if r.2 {
      CountOne(Fault(NullReference), PadCallOf(k));
      CountOne(Fault(NullReference), DeliveryOf(x, k));
    } else {
      RelocatedKeeps(sc, r.0, y);
      DeliverCounts(r.0.shapes[y], LayerOf(r.0, y), y, Dragged, p, button, x, k);
    }
  }

  /** One more layer of the drag loop. */
  lemma DragLayersUnfold(sc: Scene.Scene, m: nat, p: Point, button: int)
    requires Scene.WellFormed(sc) && m < |sc.layers|
    ensures var prev := DragLayers(sc, sc.layers, m, p, button);
      DragLayers(sc, sc.layers, m + 1, p, button)
      == if prev.2 then prev
         else var d := DragLayer(prev.0, sc.layers[m], p, button); (d.0, prev.1 + d.1, d.2)
  {
  }

  /** The selected shapes of a layer, as the drag loop finds them after
      earlier layers, are safe when the movers of the Pad are attached. */
  lemma LayerSafe(sc: Scene.Scene, sc': Scene.Scene, m: nat)
    requires Scene.WellFormed(sc) && MoversAttached(sc) && m < |sc.layers| && Reshaped(sc, sc')
    requires forall x :: x in sc.shapes ==> Relocated(sc.shapes[x], sc'.shapes[x])
    ensures Safe(sc'.shapes, Scene.SelectedIn(sc'.layerRecs[sc.layers[m]].shapes, sc'.shapes))
  {
    var ids := Scene.SelectedIn(sc'.layerRecs[sc.layers[m]].shapes, sc'.shapes);
    forall x | x in ids
      ensures x in sc'.shapes && (Mover(sc'.shapes[x]) ==> sc'.shapes[x].layer.Some?)
    {
      RelocatedKeeps(sc, sc', x);
    }
  }

  /** When every listed mover is attached the drag loop throws nothing. */
  lemma {:induction false} DragLayersSafe(sc: Scene.Scene, n: nat, p: Point, button: int)
    requires Scene.WellFormed(sc) && MoversAttached(sc) && n <= |sc.layers|
    ensures !DragLayers(sc, sc.layers, n, p, button).2
  {
    if n > 0 {
      var m: nat := n - 1;
      DragLayersSafe(sc, m, p, button);
      var prev := DragLayers(sc, sc.layers, m, p, button);
      LayerSafe(sc, prev.0, m);
      DragShapesSafe(prev.0, Scene.SelectedIn(prev.0.layerRecs[sc.layers[m]].shapes, prev.0.shapes), p, button);
      DragLayersUnfold(sc, m, p, button);
    }
  }

  /** The drag loop calls nothing on the Pad, nothing but dragged
      callbacks on shapes, and nothing on a shape that is not selected. */
  lemma {:induction false} DragLayersCounts(sc: Scene.Scene, n: nat, p: Point, button: int, x: ShapeId, k: Kind)
    requires Scene.WellFormed(sc) && n <= |sc.layers| && x in sc.shapes
    ensures var r := DragLayers(sc, sc.layers, n, p, button);
      CountCalls(r.1, PadCallOf(k)) == 0
      && (!sc.shapes[x].selected || k != Dragged ==> CountCalls(r.1, DeliveryOf(x, k)) == 0)
  {
    if n > 0 {
      var m: nat := n - 1;
      DragLayersCounts(sc, m, p, button, x, k);
      DragLayersCountsStep(sc, m, p, button, x, k);
      assert m + 1 == n;
    }
  }

  lemma DragLayersCountsStep(sc: Scene.Scene, m: nat, p: Point, button: int, x: ShapeId, k: Kind)
    requires Scene.WellFormed(sc) && m < |sc.layers| && x in sc.shapes
    requires var r := DragLayers(sc, sc.layers, m, p, button);
      CountCalls(r.1, PadCallOf(k)) == 0
      && (!sc.shapes[x].selected || k != Dragged ==> CountCalls(r.1, DeliveryOf(x, k)) == 0)
    ensures var r := DragLayers(sc, sc.layers, m + 1, p, button);
      CountCalls(r.1, PadCallOf(k)) == 0
      && (!sc.shapes[x].selected || k != Dragged ==> CountCalls(r.1, DeliveryOf(x, k)) == 0)
  {
    DragLayersUnfold(sc, m, p, button);
    var prev := DragLayers(sc, sc.layers, m, p, button);
    if !prev.2 {
      RelocatedKeeps(sc, prev.0, x);
      DragLayerCounts(prev.0, prev.1, sc.layers[m], p, button, x, k);
    }
  }

  /** One layer of the drag loop, appended to the calls so far, calls
      nothing on the Pad and only dragged callbacks, on selected shapes. */
  lemma DragLayerCounts(sc: Scene.Scene, calls: seq<Call>, l: LayerId, p: Point, button: int, x: ShapeId, k: Kind)
    requires Scene.WellFormed(sc) && l in sc.layerRecs && x in sc.shapes
    requires CountCalls(calls, PadCallOf(k)) == 0
    requires !sc.shapes[x].selected || k != Dragged ==> CountCalls(calls, DeliveryOf(x, k)) == 0
    ensures var r := calls + DragLayer(sc, l, p, button).1;
      CountCalls(r, PadCallOf(k)) == 0
      && (!sc.shapes[x].selected || k != Dragged ==> CountCalls(r, DeliveryOf(x, k)) == 0)
  {
    var d := DragLayer(sc, l, p, button);
    DragShapesCounts(sc, Scene.SelectedIn(sc.layerRecs[l].shapes, sc.shapes), p, button, x, k);
    CountCallsAppend(calls, d.1, PadCallOf(k));
    CountCallsAppend(calls, d.1, DeliveryOf(x, k));
  }

  /** When every listed mover is attached, a drag leaves each shape where
      `doDrag` puts it if some layer lists it, and untouched otherwise. */
  lemma {:induction false} DragLayersPlaces(sc: Scene.Scene, n: nat, p: Point, button: int, x: ShapeId)
    requires Scene.WellFormed(sc) && MoversAttached(sc) && n <= |sc.layers| && x in sc.shapes
    ensures ListedBefore(sc, n, x) ==> Shape.DoDrag(sc.shapes[x], LayerOf(sc, x), p).Ok?
    ensures DragLayers(sc, sc.layers, n, p, button).0.shapes[x]
      == if ListedBefore(sc, n, x) then Shape.DoDrag(sc.shapes[x], LayerOf(sc, x), p).value else sc.shapes[x]
  {
    if n > 0 {
      var m: nat := n - 1;
      DragLayersPlaces(sc, m, p, button, x);
      DragLayersPlacesStep(sc, m, p, button, x);
    }
  }

  lemma DragLayersPlacesStep(sc: Scene.Scene, m: nat, p: Point, button: int, x: ShapeId)
    requires Scene.WellFormed(sc) && MoversAttached(sc) && m < |sc.layers| && x in sc.shapes
    requires ListedBefore(sc, m, x) ==> Shape.DoDrag(sc.shapes[x], LayerOf(sc, x), p).Ok?
    requires DragLayers(sc, sc.layers, m, p, button).0.shapes[x]
      == if ListedBefore(sc, m, x) then Shape.DoDrag(sc.shapes[x], LayerOf(sc, x), p).value else sc.shapes[x]
    ensures ListedBefore(sc, m + 1, x) ==> Shape.DoDrag(sc.shapes[x], LayerOf(sc, x), p).Ok?
    ensures DragLayers(sc, sc.layers, m + 1, p, button).0.shapes[x]
      == if ListedBefore(sc, m + 1, x) then Shape.DoDrag(sc.shapes[x], LayerOf(sc, x), p).value else sc.shapes[x]
  {
    var l := sc.layers[m];
    DragLayersSafe(sc, m, p, button);
    DragLayersUnfold(sc, m, p, button);
    var prev := DragLayers(sc, sc.layers, m, p, button);
    LayerSafe(sc, prev.0, m);
    RelocatedKeeps(sc, prev.0, x);
    ListedStep(sc, m, p, x);
    DragLayerPlaces(prev.0, l, p, button, x);
    if ListedBefore(sc, m, x) && x in sc.layerRecs[l].shapes {
      Shape.DoDragIdempotent(sc.shapes[x], LayerOf(sc, x), p);
    }
  }

  /** Listed in the first `m + 1` layers is listed in the first `m` or in
      layer `m`; a listed shape can be dragged. */
  lemma ListedStep(sc: Scene.Scene, m: nat, p: Point, x: ShapeId)
    requires Scene.WellFormed(sc) && MoversAttached(sc) && m < |sc.layers| && x in sc.shapes
    ensures ListedBefore(sc, m + 1, x) <==> ListedBefore(sc, m, x) || x in sc.layerRecs[sc.layers[m]].shapes
    ensures ListedBefore(sc, m + 1, x) ==> Shape.DoDrag(sc.shapes[x], LayerOf(sc, x), p).Ok?
  {
    if ListedBefore(sc, m + 1, x) {
      var i :| 0 <= i < m + 1 && x in sc.layerRecs[sc.layers[i]].shapes;
      assert Mover(sc.shapes[x]) ==> sc.shapes[x].layer.Some?;
    }
  }

  /** One layer of the drag loop places each shape it lists where
      `doDrag` puts it: a selected one is moved, an unselected one is left,
      which is also what `doDrag` does with it. */
  lemma DragLayerPlaces(sc: Scene.Scene, l: LayerId, p: Point, button: int, x: ShapeId)
    requires Scene.WellFormed(sc) && l in sc.layerRecs && x in sc.shapes
    requires Safe(sc.shapes, Scene.SelectedIn(sc.layerRecs[l].shapes, sc.shapes))
    requires x in sc.layerRecs[l].shapes ==> Shape.DoDrag(sc.shapes[x], LayerOf(sc, x), p).Ok?
    ensures DragLayer(sc, l, p, button).0.shapes[x]
      == if x in sc.layerRecs[l].shapes then Shape.DoDrag(sc.shapes[x], LayerOf(sc, x), p).value else sc.shapes[x]
  {
    var ids := Scene.SelectedIn(sc.layerRecs[l].shapes, sc.shapes);
    if x in ids {
      DragShapesPlaces(sc, ids, p, button, x);
    }
  }

  /** Every listed mover is attached after a drag exactly when it was
      before: a drag changes no flag and no back-reference. */
  lemma DragKeepsMoversAttached(st: PadState, at: Pixel, button: int)
    requires Coherent(st)
    ensures var sc' := Drag(st, at, button).state.scene;
      MoversAttached(sc') <==> MoversAttached(st.scene)
  {
    var sc, sc' := st.scene, Drag(st, at, button).state.scene;
    forall i, x | 0 <= i < |sc.layers| && x in sc.layerRecs[sc.layers[i]].shapes
      ensures Mover(sc'.shapes[x]) == Mover(sc.shapes[x]) && sc'.shapes[x].layer == sc.shapes[x].layer
    {
      RelocatedKeeps(sc, sc', x);
    }
  }

  /** While dragging with every listed mover attached, each listed shape
      ends where `doDrag` puts it from its state before the event (the
      pointer in its coordinates plus its offset when it is selected and
      draggable, where it was otherwise), and every other shape stays. */
  lemma DragPlaces(st: PadState, at: Pixel, button: int, x: ShapeId)
    requires Coherent(st) && st.dragging && MoversAttached(st.scene) && x in st.scene.shapes
    ensures var sc, p := st.scene, ToPoint(at);
      (x in Scene.Listed(sc) ==> Shape.DoDrag(sc.shapes[x], LayerOf(sc, x), p).Ok?)
      && Drag(st, at, button).state.scene.shapes[x]
         == if x in Scene.Listed(sc) then Shape.DoDrag(sc.shapes[x], LayerOf(sc, x), p).value else sc.shapes[x]
  {
    var sc := st.scene;
    DragLayersSafe(sc, |sc.layers|, ToPoint(at), button);
    DragLayersPlaces(sc, |sc.layers|, ToPoint(at), button, x);
    assert x in Scene.Listed(sc) <==> ListedBefore(sc, |sc.layers|, x);
  }

  /** When every listed shape refers to a layer the press loop throws
      nothing, whichever shape the press is delivered to. */
  lemma {:induction false} PressLayersSafe(sc: Scene.Scene, n: nat, s: ShapeId, p: Point, button: int)
    requires Scene.WellFormed(sc) && s in sc.shapes && Attached(sc) && n <= |sc.layers|
    ensures !PressLayers(sc, sc.layers, n, s, p, button).2
  {
    if n > 0 {
      var m: nat := n - 1;
      PressLayersSafe(sc, m, s, p, button);
      var prev := PressLayers(sc, sc.layers, m, s, p, button);
      StillAttached(sc, prev.0, sc.layers[m]);
      PressLayersUnfold(sc, m, s, p, button);
    }
  }

  /** A press on a shape of a Pad whose listed shapes all refer to a layer
      throws nothing, records every listed shape's offset from the pointer,
      starts a drag and keeps every listed mover attached. */
  lemma PressPrepares(st: PadState, at: Pixel, button: int, shift: bool)
    requires Coherent(st) && Attached(st.scene) && HitTest.Resolve(st.hits, at).Some?
    ensures var r := Press(st, at, button, shift);
      !EndsInFault(r.calls) && r.state.dragging && MoversAttached(r.state.scene)
      && forall x :: x in Scene.Listed(st.scene) ==> Recorded(st.scene, r.state.scene, x, ToPoint(at))
  {
    var sc, p, s := st.scene, ToPoint(at), HitTest.Resolve(st.hits, at).value;
    var d := DeselectIf(sc, !shift && !sc.shapes[s].selected);
    assert Attached(d.0) by {
      forall i, x | 0 <= i < |d.0.layers| && x in d.0.layerRecs[d.0.layers[i]].shapes
        ensures d.0.shapes[x].layer.Some?
      {
        assert SelectOnly(sc.shapes[x], d.0.shapes[x]);
      }
    }
    PressLayersSafe(d.0, |d.0.layers|, s, p, button);
    var pl := PressLayers(d.0, d.0.layers, |d.0.layers|, s, p, button);
    EndsInFaultAppend(d.1, pl.1);
    var r := Press(st, at, button, shift);
    forall i, x | 0 <= i < |r.state.scene.layers| && x in r.state.scene.layerRecs[r.state.scene.layers[i]].shapes
      ensures r.state.scene.shapes[x].layer.Some?
    {
      assert PressTouched(sc.shapes[x], r.state.scene.shapes[x]);
    }
  }

  /** A press on a shape and then a drag, on a Pad whose listed shapes all
      refer to a layer: every listed shape that the press left selected and
      draggable moves by the pointer's displacement in its own coordinates
      (from the press point to the drag point), and every other shape stays
      where it was. */
  lemma PressThenDrag(st: PadState, a: Pixel, b: Pixel, button: int, shift: bool, x: ShapeId)
    requires Coherent(st) && Attached(st.scene) && HitTest.Resolve(st.hits, a).Some?
    requires x in st.scene.shapes
    ensures var sc, pr := st.scene, Press(st, a, button, shift).state;
      var r, o := sc.shapes[x], Drag(pr, b, button).state.scene.shapes[x];
      if x in Scene.Listed(sc) && Mover(pr.scene.shapes[x]) then
        r.layer.Some?
        && var q0 := Shape.ToShapeCoords(sc.layerRecs[r.layer.value].transform, r.transform, ToPoint(a));
           var q1 := Shape.ToShapeCoords(sc.layerRecs[r.layer.value].transform, r.transform, ToPoint(b));
           o.x == r.x + (q1.x - q0.x) && o.y == r.y + (q1.y - q0.y)
      else o.x == r.x && o.y == r.y
  {
    var sc, pr := st.scene, Press(st, a, button, shift).state;
    PressPrepares(st, a, button, shift);
    DragPlaces(pr, b, button, x);
    assert PressTouched(sc.shapes[x], pr.scene.shapes[x]);
    assert Scene.Listed(pr.scene) == Scene.Listed(sc);
    if x in Scene.Listed(sc) {
      assert Recorded(sc, pr.scene, x, ToPoint(a));
    }
  }

  /** A drag to the pixel of the press moves nothing: every shape is as
      the press left it. */
  lemma PressThenDragInPlace(st: PadState, at: Pixel, button: int, shift: bool, x: ShapeId)
    requires Coherent(st) && Attached(st.scene) && HitTest.Resolve(st.hits, at).Some?
    requires x in st.scene.shapes
    ensures var pr := Press(st, at, button, shift).state;
      Drag(pr, at, button).state.scene.shapes[x] == pr.scene.shapes[x]
  {
    var sc, pr := st.scene, Press(st, at, button, shift).state;
    PressThenDrag(st, at, at, button, shift, x);
    assert Relocated(pr.scene.shapes[x], Drag(pr, at, button).state.scene.shapes[x]);
    assert PressTouched(sc.shapes[x], pr.scene.shapes[x]);
  }

  /** The callbacks of one drag event, for a shape with a layer, when
      nothing throws: the shape is entered and exited as in a move; it is
      told of the drag only if it is selected and a drag is under way; and
      over the background the Pad is told exactly once. */
  lemma DragCounts(st: PadState, at: Pixel, button: int, x: ShapeId, k: Kind)
    requires Coherent(st) && x in st.scene.shapes && st.scene.shapes[x].layer.Some?
    requires st.dragging ==> MoversAttached(st.scene)
    ensures var r, s := Drag(st, at, button), HitTest.Resolve(st.hits, at);
      r.state.last == s
      && CountCalls(r.calls, PadCallOf(Dragged)) == Indicator(s.None?)
      && (k == Entered ==> CountCalls(r.calls, DeliveryOf(x, k)) == Indicator(s == Some(x) && st.last != s))
      && (k == Exited ==> CountCalls(r.calls, DeliveryOf(x, k)) == Indicator(st.last == Some(x) && st.last != s))
      && (k == Dragged && !(st.dragging && st.scene.shapes[x].selected) ==> CountCalls(r.calls, DeliveryOf(x, k)) == 0)
  {
    var sc, p, s := st.scene, ToPoint(at), HitTest.Resolve(st.hits, at);
    var dl := DragLoop(st, p, button);
    DragLoopCounts(st, p, button, x, k);
    DragLoopCounts(st, p, button, x, Dragged);
    RelocatedKeeps(sc, dl.0, x);
    if s.Some? {
      RelocatedKeeps(sc, dl.0, s.value);
    }
    if st.last.Some? {
      RelocatedKeeps(sc, dl.0, st.last.value);
    }
    var tail := DragTail(dl.0, st.last, s, p, button);
    DragTailCounts(dl.0, st.last, s, p, button, x, k);
    var calls := Drag(st, at, button).calls;
    assert calls == dl.1 + tail;
    if k != Dragged {
      CountsAfterSilent(dl.1, tail, DeliveryOf(x, k));
    } else {
      CountCallsAppend(dl.1, tail, DeliveryOf(x, k));
    }
    CountsAfterSilent(dl.1, tail, PadCallOf(Dragged));
  }

  /** A prefix with no entry of a kind leaves the count of the rest. */
  lemma CountsAfterSilent(a: seq<Call>, b: seq<Call>, pat: Pattern)
    requires CountCalls(a, pat) == 0
    ensures CountCalls(a + b, pat) == CountCalls(b, pat)
  {
    CountCallsAppend(a, b, pat);
  }

  /** The drag loop throws nothing when every listed mover is attached,
      calls nothing on the Pad, and makes only dragged callbacks, on
      selected shapes, and none at all when no drag is under way. */
  lemma DragLoopCounts(st: PadState, p: Point, button: int, x: ShapeId, k: Kind)
    requires Coherent(st) && x in st.scene.shapes
    requires st.dragging ==> MoversAttached(st.scene)
    ensures var r := DragLoop(st, p, button);
      !r.2
      && CountCalls(r.1, PadCallOf(k)) == 0
      && (!(st.dragging && st.scene.shapes[x].selected) || k != Dragged ==> CountCalls(r.1, DeliveryOf(x, k)) == 0)
  {
    if st.dragging {
      var sc := st.scene;
      DragLayersSafe(sc, |sc.layers|, p, button);
      DragLayersCounts(sc, |sc.layers|, p, button, x, k);
    }
  }

  /** After the loop: exactly one Pad dragged callback over the background,
      and a shape with a layer is entered and exited as in a move and not
      told of the drag. */
  lemma DragTailCounts(sc: Scene.Scene, last: Option<ShapeId>, s: Option<ShapeId>, p: Point, button: int, x: ShapeId, k: Kind)
    requires Scene.WellFormed(sc)
    requires s.Some? ==> s.value in sc.shapes
    requires last.Some? ==> last.value in sc.shapes
    requires x in sc.shapes && sc.shapes[x].layer.Some?
    ensures var r := DragTail(sc, last, s, p, button);
      CountCalls(r, PadCallOf(Dragged)) == Indicator(s.None?)
      && CountCalls(r, DeliveryOf(x, k))
         == if k == Entered then Indicator(s == Some(x) && last != s)
            else if k == Exited then Indicator(last == Some(x) && last != s)
            else 0
  {
    var pad := if s.None? then [ToPad(Dragged, p, button)] else [];
    var cross := Crossing(sc, last, s, p, button);
    PadDraggedCounts(s, p, button, x, k);
    CountCallsAppend(pad, cross, DeliveryOf(x, k));
    CountCallsAppend(pad, cross, PadCallOf(Dragged));
    CrossingCounts(sc, last, s, p, button, x, k);
    CrossingPadCalls(sc, last, s, p, button);
  }

  /** The Pad's dragged callback, made over the background. */
  lemma PadDraggedCounts(s: Option<ShapeId>, p: Point, button: int, x: ShapeId, k: Kind)
    ensures var pad := if s.None? then [ToPad(Dragged, p, button)] else [];
      CountCalls(pad, PadCallOf(Dragged)) == Indicator(s.None?) && CountCalls(pad, DeliveryOf(x, k)) == 0
  {
    CountOne(ToPad(Dragged, p, button), DeliveryOf(x, k));
    CountOne(ToPad(Dragged, p, button), PadCallOf(Dragged));
  }

  /** The crossings make no Pad callback other than entered and exited. */
  lemma CrossingPadCalls(sc: Scene.Scene, last: Option<ShapeId>, s: Option<ShapeId>, p: Point, button: int)
    requires Scene.WellFormed(sc)
    requires s.Some? ==> s.value in sc.shapes
    requires last.Some? ==> last.value in sc.shapes
    ensures CountCalls(Crossing(sc, last, s, p, button), PadCallOf(Dragged)) == 0
  {
    var c1, c3 := EnterShape(sc, last, s, p, button), ExitShape(sc, last, s, p, button);
    var c2 := if s.None? && last != s then PadCrossing(sc, Entered, p, button) else [];
    var c4 := if s.Some? && last.None? then PadCrossing(sc, Exited, p, button) else [];
    CountFour(c1, c2, c3, c4, PadCallOf(Dragged));
    if s.Some? && last != s {
      ShapeCallsNoPad(sc, s.value, Entered, p, button, Dragged);
    }
    if last.Some? && last != s {
      ShapeCallsNoPad(sc, last.value, Exited, p, button, Dragged);
    }
    PadCrossingNotDragged(sc, Entered, p, button);
    PadCrossingNotDragged(sc, Exited, p, button);
  }

  lemma ShapeCallsNoPad(sc: Scene.Scene, s: ShapeId, kind: Kind, p: Point, button: int, k: Kind)
    requires Scene.WellFormed(sc) && s in sc.shapes
    ensures CountCalls(ShapeCalls(sc, s, kind, p, button), PadCallOf(k)) == 0
  {
    DeliverCounts(sc.shapes[s], LayerOf(sc, s), s, kind, p, button, s, k);
  }

  lemma PadCrossingNotDragged(sc: Scene.Scene, kind: Kind, p: Point, button: int)
    requires Scene.WellFormed(sc) && kind != Dragged
    ensures CountCalls(PadCrossing(sc, kind, p, button), PadCallOf(Dragged)) == 0
  {
    if Affine.Det(DefaultT(sc)) != 0.0 {
      CountOne(ToPad(kind, p, button), PadCallOf(Dragged));
    }
  }
}

=== FILE: easing.dfy ===
/** The polynomial Penner easing functions of the library: Linear, Back and
    Bounce. Each maps a time `t` in `[0, d]` to a value that starts at `b`
    and changes by `c`. Doubles are read as exact reals; a zero duration
    (which yields NaN or an infinity in floating point) is excluded. */
module Easing {

  // ---------------------------------------------------------------- Linear

  /** `Linear.easeNone`, `easeIn`, `easeOut` and `easeInOut` all compute
      the same straight line, `c * t / d + b`. */
  function Linear(t: real, b: real, c: real, d: real): (r: real)
    requires d != 0.0
    ensures t == 0.0 ==> r == b
    ensures t == d ==> r == b + c
  {
    c * t / d + b
  }

  /** Equal time steps give equal value steps. */
  lemma LinearStep(t: real, h: real, b: real, c: real, d: real)
    requires d != 0.0
    ensures Linear(t + h, b, c, d) - Linear(t, b, c, d) == c * h / d
  {
    assert c * (t + h) == c * t + c * h;
    assert c * (t + h) / d == c * t / d + c * h / d;
  }

  /** With a non-negative change and a positive duration the value never
      decreases as time goes on. */
  lemma LinearMonotone(t1: real, t2: real, b: real, c: real, d: real)
    requires d > 0.0 && c >= 0.0 && t1 <= t2
    ensures Linear(t1, b, c, d) <= Linear(t2, b, c, d)
  {
    LinearStep(t1, t2 - t1, b, c, d);
    assert c * (t2 - t1) >= 0.0;
  }

  // ------------------------------------------------------------------ Back

  /** The overshoot constant `s` of the Back easings. */
  const BackS: real := 1.70158

  /** `Back.easeIn`: `c * u * u * ((s + 1) * u - s) + b` with `u = t / d`. */
  function BackEaseIn(t: real, b: real, c: real, d: real): (r: real)
    requires d != 0.0
    ensures t == 0.0 ==> r == b
    ensures t == d ==> r == b + c
  {
    var u := t / d;
    c * u * u * ((BackS + 1.0) * u - BackS) + b
  }

  /** `Back.easeOut`: `c * (u * u * ((s + 1) * u + s) + 1) + b` with
      `u = t / d - 1`. */
  function BackEaseOut(t: real, b: real, c: real, d: real): (r: real)
    requires d != 0.0
    ensures t == 0.0 ==> r == b
    ensures t == d ==> r == b + c
  {
    var u := t / d - 1.0;
    c * (u * u * ((BackS + 1.0) * u + BackS) + 1.0) + b
  }

  /** `Back.easeInOut`: time is measured in half durations, `s` is first
      multiplied by 1.525, and the two halves are Back-in and Back-out
      curves of height `c / 2`. */
  function BackEaseInOut(t: real, b: real, c: real, d: real): (r: real)
    requires d != 0.0
    ensures t == 0.0 ==> r == b
  {
    var u := t / (d / 2.0);
    var s := BackS * 1.525;
    if u < 1.0 then c / 2.0 * (u * u * ((s + 1.0) * u - s)) + b
    else
      var v := u - 2.0;
      c / 2.0 * (v * v * ((s + 1.0) * v + s) + 2.0) + b
  }

  /** Back-in-out reaches `b + c / 2` half way and `b + c` at the end. */
  lemma BackEaseInOutEnds(b: real, c: real, d: real)
    requires d != 0.0
    ensures BackEaseInOut(d / 2.0, b, c, d) == b + c / 2.0
    ensures BackEaseInOut(d, b, c, d) == b + c
  {
    assert d / 2.0 / (d / 2.0) == 1.0;
    assert d / (d / 2.0) == 2.0;
  }

  /** Back-in first pulls back: half way through, the value is below `b`. */
  lemma BackEaseInDips(b: real, c: real, d: real)
    requires d != 0.0 && c > 0.0
    ensures BackEaseIn(d / 2.0, b, c, d) < b
  {
    assert d / 2.0 / d == 0.5;
    assert BackEaseIn(d / 2.0, b, c, d) == c * ((1.0 - BackS) / 8.0) + b;
  }

  /** Back-out overshoots: half way through, the value is above `b + c`. */
  lemma BackEaseOutOvershoots(b: real, c: real, d: real)
    requires d != 0.0 && c > 0.0
    ensures BackEaseOut(d / 2.0, b, c, d) > b + c
  {
    assert d / 2.0 / d == 0.5;
    assert BackEaseOut(d / 2.0, b, c, d) == c * (1.0 + (BackS - 1.0) / 8.0) + b;
  }

  // ---------------------------------------------------------------- Bounce

  /** The four parabolic arcs of `Bounce.easeOut`, on normalised time `u`.
      The breakpoints `1/2.75`, `2/2.75` and `2.5/2.75` are 4/11, 8/11 and
      10/11, and `7.5625` is `2.75 * 2.75`. */
  function BounceArc(arc: nat, u: real): real
    requires arc < 4
  {
    match arc
    case 0 => 7.5625 * u * u
    case 1 => var v := u - 1.5 / 2.75; 7.5625 * v * v + 0.75
    case 2 => var v := u - 2.25 / 2.75; 7.5625 * v * v + 0.9375
    case 3 => var v := u - 2.625 / 2.75; 7.5625 * v * v + 0.984375
  }

  /** Which arc `Bounce.easeOut` uses at normalised time `u`. */
  function BounceArcAt(u: real): (arc: nat)
    ensures arc < 4
  {
    if u < 1.0 / 2.75 then 0
    else if u < 2.0 / 2.75 then 1
    else if u < 2.5 / 2.75 then 2
    else 3
  }

  /** `Bounce.easeOut` on the unit interval: the height reached at `u`. */
  function BounceUnit(u: real): (v: real)
    ensures 0.0 <= u <= 1.0 ==> 0.0 <= v <= 1.0
    ensures u == 0.0 ==> v == 0.0
    ensures u == 1.0 ==> v == 1.0
  {
    var arc := BounceArcAt(u);
    ArcBounded(arc, u);
    BounceArc(arc, u)
  }

  /** On its own stretch of the unit interval each arc stays in `[0, 1]`. */
  lemma ArcBounded(arc: nat, u: real)
    requires arc < 4 && arc == BounceArcAt(u)
    ensures 0.0 <= u <= 1.0 ==> 0.0 <= BounceArc(arc, u) <= 1.0
  {
    if 0.0 <= u <= 1.0 {
      var lo := [0.0, 1.5 / 2.75, 2.25 / 2.75, 2.625 / 2.75][arc];
      var v := u - lo;
      var half := [1.0 / 2.75, 0.5 / 2.75, 0.25 / 2.75, 0.125 / 2.75][arc];
      assert -half <= v <= half;
      SquareBound(v, half);
    }
  }

  lemma SquareBound(v: real, h: real)
    requires h >= 0.0 && -h <= v <= h
    ensures 0.0 <= v * v <= h * h
  {
    if v >= 0.0 {
      assert v * v <= v * h <= h * h;
    } else {
      assert v * v == (-v) * (-v);
      assert (-v) * (-v) <= (-v) * h <= h * h;
    }
  }

  /** `Bounce.easeOut`: the unit curve stretched to duration `d` and
      height `c` above `b`. */
  function BounceEaseOut(t: real, b: real, c: real, d: real): (r: real)
    requires d != 0.0
    ensures t == 0.0 ==> r == b
    ensures t == d ==> r == b + c
  {
    c * BounceUnit(t / d) + b
  }

  /** `Bounce.easeIn` is `easeOut` played backwards. */
  function BounceEaseIn(t: real, b: real, c: real, d: real): (r: real)
    requires d != 0.0
    ensures t == 0.0 ==> r == b
    ensures t == d ==> r == b + c
  {
    c - BounceEaseOut(d - t, 0.0, c, d) + b
  }

  /** `Bounce.easeInOut`: `easeIn` at double speed and half height for the
      first half, then `easeOut` likewise, lifted by `c / 2`. */
  function BounceEaseInOut(t: real, b: real, c: real, d: real): (r: real)
    requires d != 0.0
    ensures d > 0.0 && t == 0.0 ==> r == b
    ensures 2.0 * t == d ==> 2.0 * (r - b) == c
    ensures d > 0.0 && t == d ==> r == b + c
  {
    if t < d / 2.0 then BounceEaseIn(t * 2.0, 0.0, c, d) * 0.5 + b
    else BounceEaseOut(t * 2.0 - d, 0.0, c, d) * 0.5 + c * 0.5 + b
  }

  /** Each breakpoint is a touch-down: the arcs on both sides reach full
      height there, so the curve is continuous and equals `b + c`. */
  lemma BounceBreakpoints()
    ensures BounceArc(0, 1.0 / 2.75) == 1.0 == BounceArc(1, 1.0 / 2.75)
    ensures BounceArc(1, 2.0 / 2.75) == 1.0 == BounceArc(2, 2.0 / 2.75)
    ensures BounceArc(2, 2.5 / 2.75) == 1.0 == BounceArc(3, 2.5 / 2.75)
  {
  }

  lemma BounceTouchDown(b: real, c: real, d: real, k: real)
    requires d != 0.0 && k in {1.0, 2.0, 2.5}
    ensures BounceEaseOut(d * (k / 2.75), b, c, d) == b + c
  {
    assert d * (k / 2.75) / d == k / 2.75;
    BounceBreakpoints();
  }

  /** For a rising curve (`c >= 0`) the value stays between `b` and `b + c`
      over the whole duration. */
  lemma BounceEaseOutBounded(t: real, b: real, c: real, d: real)
    requires d > 0.0 && c >= 0.0 && 0.0 <= t <= d
    ensures b <= BounceEaseOut(t, b, c, d) <= b + c
  {
    var u := t / d;
    assert 0.0 <= u <= 1.0 by {
      assert u * d == t;
    }
    var v := BounceUnit(u);
    assert 0.0 <= c * v <= c * 1.0;
  }
}

=== FILE: events.dfy ===
/** The callbacks a pointer event ends in, recorded as a trace. The
    listener interfaces of the library carry no behaviour of their own, so
    a callback is an entry naming who is told what. */
module Events {
  import opened Common

  /** Shapes and layers are objects; the model names them by stable ids. */
  type ShapeId = nat
  type LayerId = nat

  datatype Kind = Pressed | Released | Moved | Dragged | Entered | Exited

  datatype Call =
    /** `onMouseX(x, y, button)` of a shape, in the shape's coordinates. */
    | ToShape(shape: ShapeId, kind: Kind, at: Point, button: int)
    /** `onSelectionChanged(sel)` of a shape. */
    | SelectionChanged(shape: ShapeId, sel: bool)
    /** The Pad's own `onMouseX(x, y, button)` and then every registered
        pad mouse listener, in registration order. */
    | ToPad(kind: Kind, at: Point, button: int)
    /** An exception that escapes the handler and ends it. */
    | Fault(failure: Failure)

  /** The kinds of entry a trace is searched for. */
  datatype Pattern =
    | DeliveryOf(shape: ShapeId, kind: Kind)
    | PadCallOf(kind: Kind)
    | DeselectionOf(shape: ShapeId)
    | AnyFault

  predicate Matches(c: Call, pat: Pattern) {
    match pat
    case DeliveryOf(x, k) => c.ToShape? && c.shape == x && c.kind == k
    case PadCallOf(k) => c.ToPad? && c.kind == k
    case DeselectionOf(x) => c == SelectionChanged(x, false)
    case AnyFault => c.Fault?
  }

  /** Number of entries of `calls` that match `pat`. */
  function CountCalls(calls: seq<Call>, pat: Pattern): nat {
    if calls == [] then 0
    else CountCalls(calls[..|calls| - 1], pat) + (if Matches(calls[|calls| - 1], pat) then 1 else 0)
  }

  lemma {:induction false} CountCallsAppend(a: seq<Call>, b: seq<Call>, pat: Pattern)
    ensures CountCalls(a + b, pat) == CountCalls(a, pat) + CountCalls(b, pat)
    decreases |b|
  {
    if b == [] {
      assert a + b == a;
    } else {
      var n := |b| - 1;
      assert (a + b)[..|a + b| - 1] == a + b[..n];
      CountCallsAppend(a, b[..n], pat);
    }
  }

  /** A trace of one entry. */
  lemma CountOne(c: Call, pat: Pattern)
    ensures CountCalls([c], pat) == if Matches(c, pat) then 1 else 0
  {
    assert [c][..0] == [];
  }
}

=== FILE: hittest.dfy ===
/** Hit detection. Every paint pass also draws, off screen, each visible
    shape that receives events in a colour of its own, and keeps a table
    from colour to shape; the shape under the pointer is the one whose
    colour is at the pointer's pixel. Which pixels a shape covers is not
    modelled: it is a parameter `cover` of the drawing. */
module HitTest {
  import opened Common
  import opened Events
  import Affine
  import Shape
  import Scene

  /** A shape as the paint pass draws it, with the layer's transform and
      the shape's composed. */
  datatype Painter = Painter(id: ShapeId, at: Affine.Affine)

  /** The hit image, an ARGB raster of `width` by `height` pixels: pixels
      drawn in this pass are in `img`, the rest hold `background`. `keys`
      is the table from colour to shape. */
  datatype HitState = HitState(keys: map<int, ShapeId>, img: map<Pixel, int>, background: int, width: int, height: int)

  /** Opaque white, what the pass fills the image with first. */
  const OpaqueWhite: int := 0xFFFF_FFFF

  /** The colour of the `i`-th painter: `new Color(count++)` keeps the low
      24 bits of the counter and is opaque. */
  function Argb(i: nat): (c: int)
    ensures 0xFF00_0000 <= c <= OpaqueWhite
    ensures i < 0x100_0000 ==> c == 0xFF00_0000 + i
  {
    0xFF00_0000 + i % 0x100_0000
  }

  /** Two painters share a colour exactly when their indices agree modulo
      2^24. */
  lemma ArgbSame(i: nat, j: nat)
    ensures Argb(i) == Argb(j) <==> i % 0x100_0000 == j % 0x100_0000
  {
  }

  // --- the paint pass ---------------------------------------------------

  /** The shapes of one layer list that go into the hit image, in order. */
  function LayerPainters(sc: Scene.Scene, layerT: Affine.Affine, ids: seq<ShapeId>): (r: seq<Painter>)
    ensures |r| <= |ids|
    ensures forall i :: 0 <= i < |r| ==>
      (r[i].id in ids && r[i].id in sc.shapes
       && sc.shapes[r[i].id].visible && sc.shapes[r[i].id].eventsEnabled
       && r[i].at == Affine.Compose(layerT, sc.shapes[r[i].id].transform))
    ensures forall s :: s in ids && s in sc.shapes && sc.shapes[s].visible && sc.shapes[s].eventsEnabled ==>
      exists i :: 0 <= i < |r| && r[i].id == s
  {
    if ids == [] then []
    else
      var s := ids[|ids| - 1];
      var init := LayerPainters(sc, layerT, ids[..|ids| - 1]);
      if s in sc.shapes && sc.shapes[s].visible && sc.shapes[s].eventsEnabled then
        var r := init + [Painter(s, Affine.Compose(layerT, sc.shapes[s].transform))];
        assert r[|r| - 1].id == s;
        assert forall i :: 0 <= i < |init| ==> r[i] == init[i];
        r
      else init
  }

  /** The painters of a list of layers, layer after layer. */
  function LayersPainters(sc: Scene.Scene, layers: seq<LayerId>): (r: seq<Painter>)
    ensures forall i :: 0 <= i < |r| ==>
      (r[i].id in sc.shapes && sc.shapes[r[i].id].visible && sc.shapes[r[i].id].eventsEnabled)
  {
    if layers == [] then []
    else
      var l := layers[|layers| - 1];
      LayersPainters(sc, layers[..|layers| - 1])
        + (if l in sc.layerRecs then LayerPainters(sc, sc.layerRecs[l].transform, sc.layerRecs[l].shapes) else [])
  }

  /** Every painter of the Pad, in paint order. */
  function Painters(sc: Scene.Scene): seq<Painter> {
    LayersPainters(sc, sc.layers)
  }

  /** The colour table after drawing `ps`: `hitHash.put` replaces the
      entry of a colour that is drawn again. */
  function Keys(ps: seq<Painter>): map<int, ShapeId> {
    if ps == [] then map[]
    else Keys(ps[..|ps| - 1])[Argb(|ps| - 1) := ps[|ps| - 1].id]
  }

  /** The drawn pixels after drawing `ps`: the later painter wins. */
  function Image(ps: seq<Painter>, cover: Painter -> set<Pixel>): map<Pixel, int> {
    if ps == [] then map[]
    else
      var im := Image(ps[..|ps| - 1], cover);
      var c := cover(ps[|ps| - 1]);
      map q | q in im.Keys + c :: if q in c then Argb(|ps| - 1) else im[q]
  }

  /** The paint pass over the current image `h`: the image keeps its size,
      is filled white, then every painter is drawn. */
  function Paint(h: HitState, sc: Scene.Scene, cover: Painter -> set<Pixel>): (r: HitState)
    ensures r.width == h.width && r.height == h.height
    ensures r.background == OpaqueWhite
  {
    var ps := Painters(sc);
    HitState(Keys(ps), Image(ps, cover), OpaqueWhite, h.width, h.height)
  }

  /** The component is resized: a new, fully transparent image, with the
      old colour table, until the next paint. */
  function Resized(h: HitState, width: int, height: int): HitState {
    HitState(h.keys, map[], 0, width, height)
  }

  /** The state of a new Pad: a transparent image and an empty table. */
  function Initial(width: int, height: int): HitState {
    HitState(map[], map[], 0, width, height)
  }

  predicate InBounds(h: HitState, q: Pixel) {
    0 <= q.x < h.width && 0 <= q.y < h.height
  }

  /** `getShapeMouseListener`: a pixel outside the image throws, which
      gives no shape; otherwise the pixel's colour is looked up. */
  function Resolve(h: HitState, q: Pixel): (r: Option<ShapeId>)
    ensures r.Some? ==> InBounds(h, q)
    ensures r.Some? ==> r.value in h.keys.Values
  {
    if !InBounds(h, q) then None
    else
      var c := if q in h.img then h.img[q] else h.background;
      if c in h.keys then Some(h.keys[c]) else None
  }

  // --- what the paint pass computes ----------------------------------------

  /** The reference meaning of a hit: the index of the last painter whose
      pixels include `q`, or -1 when there is none. */
  function TopIndex(ps: seq<Painter>, cover: Painter -> set<Pixel>, q: Pixel): (r: int)
    ensures -1 <= r < |ps|
    ensures r >= 0 ==> q in cover(ps[r])
    ensures forall j :: r < j < |ps| ==> q !in cover(ps[j])
  {
    if ps == [] then -1
    else if q in cover(ps[|ps| - 1]) then |ps| - 1
    else TopIndex(ps[..|ps| - 1], cover, q)
  }

  /** A pixel is drawn exactly when some painter covers it, and it holds
      the colour of the last such painter. */
  lemma {:induction false} ImageTop(ps: seq<Painter>, cover: Painter -> set<Pixel>, q: Pixel)
    ensures q in Image(ps, cover) <==> TopIndex(ps, cover, q) >= 0
    ensures q in Image(ps, cover) ==> Image(ps, cover)[q] == Argb(TopIndex(ps, cover, q))
  {
    if ps != [] {
      ImageTop(ps[..|ps| - 1], cover, q);
    }
  }

  /** With fewer than 2^24 painters every colour names the painter that
      was drawn in it, and those are all the colours in the table. */
  lemma {:induction false} KeysNamePainters(ps: seq<Painter>)
    requires |ps| <= 0x100_0000
    ensures forall i :: 0 <= i < |ps| ==> Argb(i) in Keys(ps) && Keys(ps)[Argb(i)] == ps[i].id
    ensures forall c :: c in Keys(ps) ==> exists i :: 0 <= i < |ps| && c == Argb(i)
  {
    if ps != [] {
      var n := |ps| - 1;
      var init := ps[..n];
      KeysNamePainters(init);
      forall i | 0 <= i < |ps|
        ensures Argb(i) in Keys(ps) && Keys(ps)[Argb(i)] == ps[i].id
      {
        if i < n {
          assert Argb(i) != Argb(n);
          assert init[i] == ps[i];
        }
      }
    }
  }

  /** Whatever was drawn, every colour in the table is opaque. */
  lemma {:induction false} KeysOpaque(ps: seq<Painter>)
    ensures forall c :: c in Keys(ps) ==> 0xFF00_0000 <= c <= OpaqueWhite
  {
    if ps != [] {
      KeysOpaque(ps[..|ps| - 1]);
    }
  }

  /** The colour of painter 2^24 - 1 is opaque white, the colour of the
      background: with that many painters the table has it. */
  lemma {:induction false} KeysHaveWhite(ps: seq<Painter>)
    requires |ps| >= 0x100_0000
    ensures OpaqueWhite in Keys(ps)
    decreases |ps|
  {
    var n := |ps| - 1;
    if n == 0xFF_FFFF {
      assert Argb(n) == OpaqueWhite;
    } else {
      KeysHaveWhite(ps[..n]);
    }
  }

  /** Hit detection is right while the colours do not wrap: right after a
      paint, a pixel inside the image resolves to the last painter that
      covers it, and to nothing when none does. */
  lemma ResolveIsTopPainter(h0: HitState, sc: Scene.Scene, cover: Painter -> set<Pixel>, q: Pixel)
    requires |Painters(sc)| <= 0xFF_FFFF
    ensures var ps, h := Painters(sc), Paint(h0, sc, cover);
      var t := TopIndex(ps, cover, q);
      Resolve(h, q) == if InBounds(h, q) && t >= 0 then Some(ps[t].id) else None
  {
    var ps := Painters(sc);
    ImageTop(ps, cover, q);
    KeysNamePainters(ps);
    assert forall i :: 0 <= i < |ps| ==> Argb(i) != OpaqueWhite;
    assert OpaqueWhite !in Keys(ps);
  }

  /** So a pixel resolves only to a shape that is visible and receives
      events, and to one drawn over the pixel: no shape drawn later covers
      it. */
  lemma ResolvedShapeIsOnTop(h0: HitState, sc: Scene.Scene, cover: Painter -> set<Pixel>, q: Pixel)
    requires |Painters(sc)| <= 0xFF_FFFF
    requires Resolve(Paint(h0, sc, cover), q).Some?
    ensures var ps, s := Painters(sc), Resolve(Paint(h0, sc, cover), q).value;
      s in sc.shapes && sc.shapes[s].visible && sc.shapes[s].eventsEnabled
      && exists i :: 0 <= i < |ps| && ps[i].id == s && q in cover(ps[i])
           && forall j :: i < j < |ps| ==> q !in cover(ps[j])
  {
    ResolveIsTopPainter(h0, sc, cover, q);
    var t := TopIndex(Painters(sc), cover, q);
    assert t >= 0;
  }

  /** When the colours wrap, a pixel inside the image that no shape covers
      still resolves to a shape: the one drawn in opaque white. */
  lemma WhiteCollision(h0: HitState, sc: Scene.Scene, cover: Painter -> set<Pixel>, q: Pixel)
    requires |Painters(sc)| >= 0x100_0000
    requires InBounds(h0, q)
    requires TopIndex(Painters(sc), cover, q) == -1
    ensures Resolve(Paint(h0, sc, cover), q).Some?
  {
    ImageTop(Painters(sc), cover, q);
    KeysHaveWhite(Painters(sc));
  }

  /** Between a resize and the next paint no pixel resolves to a shape:
      the transparent image matches no opaque colour. The same holds for a
      new Pad. */
  lemma ResizedResolvesNothing(h0: HitState, sc: Scene.Scene, cover: Painter -> set<Pixel>, w: int, h: int, q: Pixel)
    ensures Resolve(Resized(Paint(h0, sc, cover), w, h), q).None?
    ensures Resolve(Initial(w, h), q).None?
  {
    KeysOpaque(Painters(sc));
  }
}

=== FILE: line.dfy ===
/** `Line`: a shape whose location is its first endpoint and whose size is
    the signed offset to its second endpoint. */
module Line {
  import opened Common

  /** The geometry fields a Line inherits from Shape. */
  datatype Line = Line(x: real, y: real, width: real, height: real)

  /** The outcome of a mutator: the new geometry and whether it asked the
      pad to repaint. */
  datatype Mutation = Mutation(line: Line, repaint: bool)

  /** The endpoints reported by `toString` and used by `draw`. */
  function Endpoints(l: Line): (ends: (Point, Point))
    ensures ends.0 == Point(l.x, l.y)
    ensures ends.1 == Point(l.x + l.width, l.y + l.height)
  {
    (Point(l.x, l.y), Point(l.x + l.width, l.y + l.height))
  }

  /** The constructor: location `(x1, y1)`, size `(x2 - x1, y2 - y1)`, not
      normalised, so either component may be negative. */
  function NewLine(x1: real, y1: real, x2: real, y2: real): (l: Line)
    ensures Endpoints(l) == (Point(x1, y1), Point(x2, y2))
    ensures l.width < 0.0 <==> x2 < x1
    ensures l.height < 0.0 <==> y2 < y1
  {
    Line(x1, y1, x2 - x1, y2 - y1)
  }

  /** `setPoints`: the same encoding as the constructor, with no repaint. */
  function SetPoints(l: Line, x1: real, y1: real, x2: real, y2: real): (m: Mutation)
    ensures Endpoints(m.line) == (Point(x1, y1), Point(x2, y2))
    ensures !m.repaint
  {
    Mutation(NewLine(x1, y1, x2, y2), false)
  }

  /** The inherited `move(dx, dy)`, through `setLocation`, which repaints. */
  function Move(l: Line, dx: real, dy: real): (m: Mutation)
    ensures m.repaint
    ensures m.line.width == l.width && m.line.height == l.height
    ensures var (a, b) := Endpoints(l); var (a', b') := Endpoints(m.line);
      a' == Point(a.x + dx, a.y + dy) && b' == Point(b.x + dx, b.y + dy)
  {
    Mutation(l.(x := l.x + dx, y := l.y + dy), true)
  }

  /** The encoding loses nothing: a line is determined by its endpoints. */
  lemma EncodingRoundTrip(l: Line)
    ensures var (a, b) := Endpoints(l); NewLine(a.x, a.y, b.x, b.y) == l
  {
  }
}

=== FILE: lists.dfy ===
/** The three `java.util.List` operations the library relies on for its
    ordered collections (shapes of a layer, listener lists):
    `add(x)`, `add(0, x)` and `remove(Object)`, which removes only the
    FIRST occurrence and does nothing when the element is absent. */
module Lists {

  /** Index of the first occurrence of `x` in `s`. */
  function IndexOf<T(==)>(s: seq<T>, x: T): (i: nat)
    requires x in s
    ensures i < |s| && s[i] == x
    ensures forall j :: 0 <= j < i ==> s[j] != x
  {
    if s[0] == x then 0 else 1 + IndexOf(s[1..], x)
  }

  /** `List.remove(Object)`. */
  function RemoveFirst<T(==)>(s: seq<T>, x: T): (r: seq<T>)
    ensures x !in s ==> r == s
    ensures x in s ==> |r| == |s| - 1
    ensures x in s ==> r == s[..IndexOf(s, x)] + s[IndexOf(s, x) + 1..]
    ensures multiset(r) == multiset(s) - multiset{x}
  {
    if x in s then
      var i := IndexOf(s, x);
      assert s == s[..i] + [x] + s[i + 1..];
      s[..i] + s[i + 1..]
    else s
  }

  /** Number of occurrences of `x` in `s`. */
  function Count<T(==)>(s: seq<T>, x: T): nat {
    multiset(s)[x]
  }

  /** The last element of a list is one more occurrence of it than the
      rest of the list has. */
  lemma CountLast<T>(s: seq<T>, x: T)
    requires s != []
    ensures Count(s, x) == Count(s[..|s| - 1], x) + (if x == s[|s| - 1] then 1 else 0)
  {
    assert s == s[..|s| - 1] + [s[|s| - 1]];
    assert multiset(s) == multiset(s[..|s| - 1]) + multiset{s[|s| - 1]};
  }

  /** Removing never brings in a new element. */
  lemma RemoveFirstWithin<T>(s: seq<T>, x: T)
    ensures forall y :: y in RemoveFirst(s, x) ==> y in s
  {
    forall y | y in RemoveFirst(s, x) ensures y in s {
      assert y in multiset(RemoveFirst(s, x));
    }
  }

  /** An element of a list is in its front or is its last element. */
  lemma InLast<T>(s: seq<T>, x: T)
    requires s != []
    ensures x in s <==> x in s[..|s| - 1] || x == s[|s| - 1]
  {
    assert s == s[..|s| - 1] + [s[|s| - 1]];
  }

  /** Removing an element that occurs `k > 0` times leaves `k - 1` of it. */
  lemma RemoveFirstCount<T>(s: seq<T>, x: T, y: T)
    ensures Count(RemoveFirst(s, x), y) == if x == y && x in s then Count(s, y) - 1 else Count(s, y)
  {
  }

  /** Every other element keeps its relative order: removing the first
      occurrence and re-inserting it at the same index rebuilds `s`. */
  lemma RemoveFirstReinsert<T>(s: seq<T>, x: T)
    requires x in s
    ensures RemoveFirst(s, x)[..IndexOf(s, x)] + [x] + RemoveFirst(s, x)[IndexOf(s, x)..] == s
  {
    var i := IndexOf(s, x);
    SpliceAt(s, i);
  }

  lemma SpliceAt<T>(s: seq<T>, i: nat)
    requires i < |s|
    ensures (s[..i] + s[i + 1..])[..i] + [s[i]] + (s[..i] + s[i + 1..])[i..] == s
  {
    var r := s[..i] + s[i + 1..];
    assert r[..i] == s[..i];
    assert r[i..] == s[i + 1..];
    assert s[i..] == [s[i]] + s[i + 1..];
    assert s == s[..i] + s[i..];
  }
}

=== FILE: path.dfy ===
/** `Path`: a shape made of a list of path operations (move, line,
    quadratic and cubic curve, close). Every mutation rebuilds the
    `Path2D` from the whole list and, except `closePath`, resets the
    bounding box to the path's bounds. Rebuilding throws when the list does
    not start with a move; the exception leaves the op list changed, the
    path empty and the box as it was. */
module Path {
  import opened Common
  import Bounds
  import Path2D

  /** One stored operation. A close stores a dummy point (0, 0) that is
      moved and resized like the others but never drawn. */
  datatype PathOp =
    | OpMove(p: Point)
    | OpLine(p: Point)
    | OpQuad(c: Point, p: Point)
    | OpCurve(c1: Point, c2: Point, p: Point)
    | OpClose(dummy: Point)

  datatype PathShape = PathShape(
    ops: seq<PathOp>, path: Path2D.Path2D,
    x: real, y: real, width: real, height: real)

  /** The state after a mutator, and the exception it threw, if any. */
  datatype Outcome = Outcome(shape: PathShape, thrown: Option<Failure>)

  /** `addOp()`: what one operation adds to the path being built. */
  function Emit(path: Path2D.Path2D, op: PathOp): Result<Path2D.Path2D> {
    match op
    case OpMove(p) => Ok(Path2D.MoveTo(path, p))
    case OpLine(p) => Path2D.Append(path, Path2D.SegLine(p))
    case OpQuad(c, p) => Path2D.Append(path, Path2D.SegQuad(c, p))
    case OpCurve(c1, c2, p) => Path2D.Append(path, Path2D.SegCubic(c1, c2, p))
    case OpClose(_) => Path2D.Append(path, Path2D.SegClose)
  }

  /** `rebuildPath()`: a fresh path, then every op in order; the first
      exception ends the loop. Only a list that does not start with a move
      fails, and a list that does never yields an empty path. */
  function Rebuild(ops: seq<PathOp>): (r: Result<Path2D.Path2D>)
    ensures r.Err? <==> ops != [] && !ops[0].OpMove?
    ensures r.Err? ==> r.failure == IllegalPathState
    ensures r.Ok? ==> (r.value == [] <==> ops == [])
  {
    if ops == [] then Ok([])
    else
      var init := ops[..|ops| - 1];
      assert init != [] ==> init[0] == ops[0];
      match Rebuild(init)
      case Err(e) => Err(e)
      case Ok(p) => Emit(p, ops[|ops| - 1])
  }

  function MapOp(op: PathOp, f: Point -> Point): (r: PathOp)
    ensures r.OpMove? == op.OpMove? && r.OpLine? == op.OpLine? && r.OpQuad? == op.OpQuad?
    ensures r.OpCurve? == op.OpCurve? && r.OpClose? == op.OpClose?
  {
    match op
    case OpMove(p) => OpMove(f(p))
    case OpLine(p) => OpLine(f(p))
    case OpQuad(c, p) => OpQuad(f(c), f(p))
    case OpCurve(c1, c2, p) => OpCurve(f(c1), f(c2), f(p))
    case OpClose(d) => OpClose(f(d))
  }

  function MapOps(ops: seq<PathOp>, f: Point -> Point): (r: seq<PathOp>)
    ensures |r| == |ops| && forall i :: 0 <= i < |ops| ==> r[i] == MapOp(ops[i], f)
  {
    seq(|ops|, i requires 0 <= i < |ops| => MapOp(ops[i], f))
  }

  /** Rebuilding from mapped ops gives the mapped path. */
  lemma {:induction false} RebuildMap(ops: seq<PathOp>, f: Point -> Point)
    ensures var r := Rebuild(ops);
      Rebuild(MapOps(ops, f)) == if r.Ok? then Ok(Path2D.MapPath(r.value, f)) else r
    decreases |ops|
  {
    if ops != [] {
      var init := ops[..|ops| - 1];
      var m := MapOps(ops, f);
      assert m[..|m| - 1] == MapOps(init, f);
      RebuildMap(init, f);
      if Rebuild(init).Ok? {
        var p := Rebuild(init).value;
        match ops[|ops| - 1]
        case OpMove(q) => Path2D.MoveToMap(p, q, f);
        case OpLine(q) => Path2D.AppendMap(p, Path2D.SegLine(q), f);
        case OpQuad(c, q) => Path2D.AppendMap(p, Path2D.SegQuad(c, q), f);
        case OpCurve(c1, c2, q) => Path2D.AppendMap(p, Path2D.SegCubic(c1, c2, q), f);
        case OpClose(_) => Path2D.AppendMap(p, Path2D.SegClose, f);
      }
    }
  }

  function Box(s: PathShape): Rect {
    Rect(s.x, s.y, s.width, s.height)
  }

  /** The state every successful mutator but `closePath` leaves: the path
      is built from the ops and the box is the path's bounds. */
  predicate Valid(s: PathShape) {
    Rebuild(s.ops) == Ok(s.path) && Box(s) == Path2D.Bounds2D(s.path)
  }

  /** `new Path()`: no ops, empty path, box at the origin. */
  function NewPath(): (s: PathShape)
    ensures Valid(s) && s.ops == []
  {
    PathShape([], [], 0.0, 0.0, 0.0, 0.0)
  }

  /** `updateBoundingBox()`. */
  function WithBounds(s: PathShape): (r: PathShape)
    ensures Box(r) == Path2D.Bounds2D(s.path) && r.ops == s.ops && r.path == s.path
  {
    var b := Path2D.Bounds2D(s.path);
    s.(x := b.x, y := b.y, width := b.w, height := b.h)
  }

  /** Rebuild from `ops`; on success optionally recompute the box. */
  function Commit(s: PathShape, ops: seq<PathOp>, updateBox: bool): (o: Outcome)
    ensures o.shape.ops == ops
    ensures o.thrown.None? <==> Rebuild(ops).Ok?
    ensures o.thrown.Some? ==> o.shape.path == [] && Box(o.shape) == Box(s)
    ensures o.thrown.None? ==> o.shape.path == Rebuild(ops).value
    ensures o.thrown.None? && updateBox ==> Valid(o.shape)
    ensures !updateBox ==> Box(o.shape) == Box(s)
  {
    match Rebuild(ops)
    case Err(e) => Outcome(s.(ops := ops, path := []), Some(e))
    case Ok(p) =>
      var s' := s.(ops := ops, path := p);
      Outcome(if updateBox then WithBounds(s') else s', None)
  }

  /** `moveTo`, `lineTo`, `quadTo`, `curveTo`: append one op, rebuild, and
      reset the box. */
  function AddOp(s: PathShape, op: PathOp): (o: Outcome)
    requires !op.OpClose?
    ensures o.shape.ops == s.ops + [op]
    ensures o.thrown.Some? <==> !(s.ops + [op])[0].OpMove?
    ensures o.thrown.None? ==> Valid(o.shape)
  {
    Commit(s, s.ops + [op], true)
  }

  /** `closePath`: append a close and rebuild, without touching the box. */
  function ClosePath(s: PathShape): (o: Outcome)
    ensures o.shape.ops == s.ops + [OpClose(Point(0.0, 0.0))]
    ensures Box(o.shape) == Box(s)
    ensures o.thrown.Some? <==> !(s.ops + [OpClose(Point(0.0, 0.0))])[0].OpMove?
  {
    Commit(s, s.ops + [OpClose(Point(0.0, 0.0))], false)
  }

  /** Skipping the box update in `closePath` is harmless: a close stores no
      coordinate, so the bounds are those it had. */
  lemma ClosePathKeepsValid(s: PathShape)
    requires Valid(s)
    ensures var o := ClosePath(s); o.thrown.None? ==> Valid(o.shape)
  {
    var ops := s.ops + [OpClose(Point(0.0, 0.0))];
    var o := ClosePath(s);
    if o.thrown.None? {
      assert ops[..|ops| - 1] == s.ops;
      var r := Path2D.Append(s.path, Path2D.SegClose);
      assert Rebuild(ops) == r;
      assert o.shape.path == r.value;
      Path2D.CloseKeepsCoords(s.path);
      assert Box(o.shape) == Box(s);
    }
  }

  /** `setLocation(x, y)`: every stored point, control points and the dummy
      of a close included, moves by the change of location; on success the
      box is recomputed and then the location set to `(x, y)`. */
  function SetLocation(s: PathShape, x: real, y: real): (o: Outcome)
    ensures o.shape.ops == MapOps(s.ops, Path2D.Relocate(Point(s.x, s.y), Point(x, y)))
    ensures o.thrown.Some? <==> s.ops != [] && !s.ops[0].OpMove?
    ensures o.thrown.None? ==> o.shape.x == x && o.shape.y == y
    ensures o.thrown.None? ==> Rebuild(o.shape.ops) == Ok(o.shape.path)
    ensures o.thrown.None? ==> var b := Path2D.Bounds2D(o.shape.path); o.shape.width == b.w && o.shape.height == b.h
    ensures o.thrown.Some? ==> o.shape.path == [] && Box(o.shape) == Box(s)
  {
    var o := Commit(s, MapOps(s.ops, Path2D.Relocate(Point(s.x, s.y), Point(x, y))), true);
    if o.thrown.None? then Outcome(o.shape.(x := x, y := y), None) else o
  }

  /** `setSize(w, h)`: every stored point is scaled about the current
      location by `w / width` (1 when the width is 0), likewise vertically;
      on success the box is recomputed and then the size set to `(w, h)`. */
  function SetSize(s: PathShape, w: real, h: real): (o: Outcome)
    ensures o.shape.ops == MapOps(s.ops, Path2D.ScaleAbout(Point(s.x, s.y), Bounds.Ratio(w, s.width), Bounds.Ratio(h, s.height)))
    ensures o.thrown.Some? <==> s.ops != [] && !s.ops[0].OpMove?
    ensures o.thrown.None? ==> o.shape.width == w && o.shape.height == h
    ensures o.thrown.None? ==> Rebuild(o.shape.ops) == Ok(o.shape.path)
    ensures o.thrown.None? ==> var b := Path2D.Bounds2D(o.shape.path); o.shape.x == b.x && o.shape.y == b.y
    ensures o.thrown.Some? ==> o.shape.path == [] && Box(o.shape) == Box(s)
  {
    var f := Path2D.ScaleAbout(Point(s.x, s.y), Bounds.Ratio(w, s.width), Bounds.Ratio(h, s.height));
    var o := Commit(s, MapOps(s.ops, f), true);
    if o.thrown.None? then Outcome(o.shape.(width := w, height := h), None) else o
  }

  /** Moving a consistent path keeps it consistent: the box computed from
      the moved points is exactly the requested location with the old
      size. */
  lemma SetLocationKeepsValid(s: PathShape, x: real, y: real)
    requires Valid(s) && Path2D.Coords(s.path) != []
    ensures var o := SetLocation(s, x, y); o.thrown.None? && Valid(o.shape)
    ensures Box(SetLocation(s, x, y).shape) == Rect(x, y, s.width, s.height)
  {
    var p' := MovedPath(s, x, y);
    SetLocationFrom(s, x, y, p');
  }

  /** The path rebuilt from the moved ops, and its bounds. */
  lemma MovedPath(s: PathShape, x: real, y: real) returns (p': Path2D.Path2D)
    requires Valid(s) && Path2D.Coords(s.path) != []
    ensures Rebuild(MapOps(s.ops, Path2D.Relocate(Point(s.x, s.y), Point(x, y)))) == Ok(p')
    ensures Path2D.Bounds2D(p') == Rect(x, y, s.width, s.height)
  {
    var f := Path2D.Relocate(Point(s.x, s.y), Point(x, y));
    p' := Path2D.MapPath(s.path, f);
    RebuildMap(s.ops, f);
    Path2D.BoundsAfterMove(s.path, Point(s.x, s.y), Point(x, y), s.width, s.height);
  }

  lemma SetLocationFrom(s: PathShape, x: real, y: real, p': Path2D.Path2D)
    requires Rebuild(MapOps(s.ops, Path2D.Relocate(Point(s.x, s.y), Point(x, y)))) == Ok(p')
    requires Path2D.Bounds2D(p') == Rect(x, y, s.width, s.height)
    ensures var o := SetLocation(s, x, y); o.thrown.None? && Valid(o.shape)
    ensures Box(SetLocation(s, x, y).shape) == Rect(x, y, s.width, s.height)
  {
    var res := SetLocation(s, x, y);
    assert res.thrown.None?;
    assert res.shape.path == p';
  }

  /** Resizing a consistent path to a non-negative size from a non-empty
      extent gives exactly the requested box. */
  lemma SetSizeKeepsValid(s: PathShape, w: real, h: real)
    requires Valid(s) && Path2D.Coords(s.path) != []
    requires s.width > 0.0 && s.height > 0.0 && w >= 0.0 && h >= 0.0
    ensures var o := SetSize(s, w, h); o.thrown.None? && Valid(o.shape)
    ensures Box(SetSize(s, w, h).shape) == Rect(s.x, s.y, w, h)
  {
    var rw, rh := Bounds.Ratio(w, s.width), Bounds.Ratio(h, s.height);
    var f := Path2D.ScaleAbout(Point(s.x, s.y), rw, rh);
    var ops', p' := MapOps(s.ops, f), Path2D.MapPath(s.path, f);
    RebuildMap(s.ops, f);
    assert Rebuild(ops') == Ok(p');
    Path2D.BoundsAfterResize(s.path, s.x, s.y, s.width, s.height, w, h);
    var res := SetSize(s, w, h);
    assert res.shape.ops == ops' && res.thrown.None?;
    assert res.shape.path == p';
    assert Box(res.shape) == Rect(s.x, s.y, w, h);
  }
}

=== FILE: path2d.dfy ===
/** The part of `java.awt.geom.Path2D.Double` that polygons and paths use:
    building a path segment by segment and its `getBounds2D`. A segment
    other than the initial move throws on an empty path, a move right after
    a move replaces it, and a close right after a close is ignored. The
    bounds are those of every stored coordinate, control points included,
    as computed by Path2D before JDK 19. */
module Path2D {
  import opened Common
  import Bounds

  datatype Seg =
    | SegMove(p: Point)
    | SegLine(p: Point)
    | SegQuad(c: Point, p: Point)
    | SegCubic(c1: Point, c2: Point, p: Point)
    | SegClose

  type Path2D = seq<Seg>

  function Last(path: Path2D): Seg
    requires |path| > 0
  {
    path[|path| - 1]
  }

  /** `moveTo(x, y)`. */
  function MoveTo(path: Path2D, p: Point): (r: Path2D)
    ensures |r| > 0 && Last(r) == SegMove(p)
    ensures |path| > 0 && Last(path).SegMove? ==> r[..|r| - 1] == path[..|path| - 1]
    ensures !(|path| > 0 && Last(path).SegMove?) ==> r[..|r| - 1] == path
  {
    if |path| > 0 && Last(path).SegMove? then path[..|path| - 1] + [SegMove(p)]
    else path + [SegMove(p)]
  }

  /** `lineTo`, `quadTo`, `curveTo` and `closePath`: any segment but a move
      needs a path that is not empty. */
  function Append(path: Path2D, s: Seg): (r: Result<Path2D>)
    requires !s.SegMove?
    ensures r.Err? <==> path == []
    ensures r.Err? ==> r.failure == IllegalPathState
    ensures r.Ok? && !(s.SegClose? && Last(path).SegClose?) ==> r.value == path + [s]
    ensures r.Ok? && s.SegClose? && Last(path).SegClose? ==> r.value == path
  {
    if path == [] then Err(IllegalPathState)
    else if s.SegClose? && Last(path).SegClose? then Ok(path)
    else Ok(path + [s])
  }

  /** The coordinates a segment stores, in order. */
  function SegCoords(s: Seg): seq<Point> {
    match s
    case SegMove(p) => [p]
    case SegLine(p) => [p]
    case SegQuad(c, p) => [c, p]
    case SegCubic(c1, c2, p) => [c1, c2, p]
    case SegClose => []
  }

  /** All stored coordinates of a path. */
  function Coords(path: Path2D): seq<Point> {
    if path == [] then [] else Coords(path[..|path| - 1]) + SegCoords(Last(path))
  }

  function Xs(pts: seq<Point>): (r: seq<real>)
    ensures |r| == |pts| && forall i :: 0 <= i < |pts| ==> r[i] == pts[i].x
  {
    seq(|pts|, i requires 0 <= i < |pts| => pts[i].x)
  }

  function Ys(pts: seq<Point>): (r: seq<real>)
    ensures |r| == |pts| && forall i :: 0 <= i < |pts| ==> r[i] == pts[i].y
  {
    seq(|pts|, i requires 0 <= i < |pts| => pts[i].y)
  }

  /** The smallest rectangle holding every point, or the empty rectangle at
      the origin when there are none. */
  function Hull(pts: seq<Point>): (r: Rect)
    ensures pts == [] ==> r == Rect(0.0, 0.0, 0.0, 0.0)
  {
    if pts == [] then Rect(0.0, 0.0, 0.0, 0.0)
    else
      var xs, ys := Xs(pts), Ys(pts);
      var minX, minY := Bounds.Min(xs), Bounds.Min(ys);
      Rect(minX, minY, Bounds.Max(xs) - minX, Bounds.Max(ys) - minY)
  }

  /** The hull contains every point. */
  lemma HullContains(pts: seq<Point>)
    ensures var r := Hull(pts); forall i :: 0 <= i < |pts| ==>
      r.x <= pts[i].x <= r.x + r.w && r.y <= pts[i].y <= r.y + r.h
  {
    if pts != [] {
      var xs, ys := Xs(pts), Ys(pts);
      forall i | 0 <= i < |pts|
        ensures Bounds.Min(xs) <= xs[i] <= Bounds.Max(xs) && Bounds.Min(ys) <= ys[i] <= Bounds.Max(ys)
      {
        assert xs[i] == pts[i].x && ys[i] == pts[i].y;
      }
    }
  }

  /** Points on one vertical line span no width. */
  lemma HullFlat(pts: seq<Point>, c: real)
    requires pts != [] && forall i :: 0 <= i < |pts| ==> pts[i].x == c
    ensures Hull(pts).x == c && Hull(pts).w == 0.0
  {
    var xs := Xs(pts);
    Bounds.MinUnique(xs, 0);
    Bounds.MaxUnique(xs, 0);
  }

  /** Conversely, a hull of no width puts every point on its left edge. */
  lemma HullZeroWidth(pts: seq<Point>)
    requires Hull(pts).w == 0.0
    ensures forall i :: 0 <= i < |pts| ==> pts[i].x == Hull(pts).x
  {
    var h := Hull(pts);
    HullContains(pts);
    forall i | 0 <= i < |pts| ensures pts[i].x == h.x {
      assert h.x <= pts[i].x <= h.x + h.w;
    }
  }

  /** `getBounds2D()`. */
  function Bounds2D(path: Path2D): Rect {
    Hull(Coords(path))
  }

  /** A close stores no coordinate. */
  lemma CloseKeepsCoords(path: Path2D)
    requires path != []
    ensures Coords(Append(path, SegClose).value) == Coords(path)
  {
    var r := Append(path, SegClose).value;
    if r != path {
      assert r[..|r| - 1] == path;
      assert Coords(r) == Coords(path) + [];
    }
  }

  // --- transforming every coordinate ------------------------------------

  function MapSeg(s: Seg, f: Point -> Point): Seg {
    match s
    case SegMove(p) => SegMove(f(p))
    case SegLine(p) => SegLine(f(p))
    case SegQuad(c, p) => SegQuad(f(c), f(p))
    case SegCubic(c1, c2, p) => SegCubic(f(c1), f(c2), f(p))
    case SegClose => SegClose
  }

  function MapPath(path: Path2D, f: Point -> Point): (r: Path2D)
    ensures |r| == |path| && forall i :: 0 <= i < |path| ==> r[i] == MapSeg(path[i], f)
  {
    seq(|path|, i requires 0 <= i < |path| => MapSeg(path[i], f))
  }

  function MapPoints(pts: seq<Point>, f: Point -> Point): (r: seq<Point>)
    ensures |r| == |pts| && forall i :: 0 <= i < |pts| ==> r[i] == f(pts[i])
  {
    seq(|pts|, i requires 0 <= i < |pts| => f(pts[i]))
  }

  /** Mapping the path maps its stored coordinates. */
  lemma {:induction false} CoordsMap(path: Path2D, f: Point -> Point)
    ensures Coords(MapPath(path, f)) == MapPoints(Coords(path), f)
    decreases |path|
  {
    if path != [] {
      var init := path[..|path| - 1];
      var m := MapPath(path, f);
      assert m[..|m| - 1] == MapPath(init, f);
      CoordsMap(init, f);
      assert SegCoords(Last(m)) == MapPoints(SegCoords(Last(path)), f);
    }
  }

  /** Building commutes with mapping: the same segments are stored, with
      mapped coordinates. */
  lemma MoveToMap(path: Path2D, p: Point, f: Point -> Point)
    ensures MoveTo(MapPath(path, f), f(p)) == MapPath(MoveTo(path, p), f)
  {
    var m := MapPath(path, f);
    if |path| > 0 && Last(path).SegMove? {
      assert m[..|m| - 1] == MapPath(path[..|path| - 1], f);
    }
  }

  lemma AppendMap(path: Path2D, s: Seg, f: Point -> Point)
    requires !s.SegMove?
    ensures var r := Append(path, s);
      Append(MapPath(path, f), MapSeg(s, f)) == if r.Ok? then Ok(MapPath(r.value, f)) else r
  {
    var m := MapPath(path, f);
    if path != [] {
      assert Last(m) == MapSeg(Last(path), f);
      assert MapPath(path + [s], f) == m + [MapSeg(s, f)];
    }
  }

  // --- bounds of shifted and scaled coordinates --------------------------

  function ShiftBy(dx: real, dy: real): Point -> Point {
    (p: Point) => Point(p.x + dx, p.y + dy)
  }

  /** The shift that takes `from` to `to`. */
  function Relocate(from: Point, to: Point): Point -> Point {
    ShiftBy(to.x - from.x, to.y - from.y)
  }

  function ScaleAbout(o: Point, rw: real, rh: real): Point -> Point {
    (p: Point) => Point(Bounds.ScaleCoord(o.x, rw, p.x), Bounds.ScaleCoord(o.y, rh, p.y))
  }

  /** Scaling every coordinate about the hull's corner by non-negative
      factors keeps the corner, and the far corner is the image of the old
      far corner. */
  lemma HullScale(pts: seq<Point>, rw: real, rh: real)
    requires pts != [] && rw >= 0.0 && rh >= 0.0
    ensures var r := Hull(pts); var o := Point(r.x, r.y);
      Hull(MapPoints(pts, ScaleAbout(o, rw, rh)))
        == Rect(r.x, r.y, Bounds.ScaleCoord(r.x, rw, r.x + r.w) - r.x, Bounds.ScaleCoord(r.y, rh, r.y + r.h) - r.y)
  {
    var xs, ys := Xs(pts), Ys(pts);
    var r := Hull(pts);
    assert r.x == Bounds.Min(xs) && r.x + r.w == Bounds.Max(xs);
    assert r.y == Bounds.Min(ys) && r.y + r.h == Bounds.Max(ys);
    var o := Point(r.x, r.y);
    var m := MapPoints(pts, ScaleAbout(o, rw, rh));
    ScaledAxes(pts, o, rw, rh);
    AxisScale(xs, rw);
    AxisScale(ys, rh);
  }

  lemma ScaledAxes(pts: seq<Point>, o: Point, rw: real, rh: real)
    ensures Xs(MapPoints(pts, ScaleAbout(o, rw, rh))) == Bounds.ScaleAbout(Xs(pts), o.x, rw)
    ensures Ys(MapPoints(pts, ScaleAbout(o, rw, rh))) == Bounds.ScaleAbout(Ys(pts), o.y, rh)
  {
  }

  /** One axis of `HullScale`. */
  lemma AxisScale(xs: seq<real>, k: real)
    requires |xs| > 0 && k >= 0.0
    ensures var lo := Bounds.Min(xs); var ys := Bounds.ScaleAbout(xs, lo, k);
      Bounds.Min(ys) == lo && Bounds.Max(ys) == Bounds.ScaleCoord(lo, k, Bounds.Max(xs))
  {
    var lo := Bounds.Min(xs);
    Bounds.ScaleBounds(xs, lo, k);
    assert Bounds.ScaleCoord(lo, k, lo) == lo;
  }

  /** A hull moved from its corner `from` to `to` keeps its size. */
  lemma HullAfterMove(pts: seq<Point>, from: Point, to: Point, width: real, height: real)
    requires pts != [] && Hull(pts) == Rect(from.x, from.y, width, height)
    ensures Hull(MapPoints(pts, Relocate(from, to))) == Rect(to.x, to.y, width, height)
  {
    var dx, dy := to.x - from.x, to.y - from.y;
    var m := MapPoints(pts, Relocate(from, to));
    var xs, ys := Xs(pts), Ys(pts);
    assert Xs(m) == Bounds.Shift(xs, dx);
    assert Ys(m) == Bounds.Shift(ys, dy);
    AxisMove(xs, from.x, width, to.x, dx);
    AxisMove(ys, from.y, height, to.y, dy);
  }

  /** One axis of `HullAfterMove`. */
  lemma AxisMove(xs: seq<real>, lo: real, w: real, x: real, d: real)
    requires |xs| > 0 && Bounds.Min(xs) == lo && Bounds.Max(xs) - lo == w && d == x - lo
    ensures var ys := Bounds.Shift(xs, d); Bounds.Min(ys) == x && Bounds.Max(ys) - Bounds.Min(ys) == w
  {
    Bounds.ShiftBounds(xs, d);
  }

  /** Scaling by the ratio of a new size to a non-zero old size, about the
      hull's corner, gives a hull of exactly the new size. */
  lemma HullAfterResize(pts: seq<Point>, x: real, y: real, width: real, height: real, w: real, h: real)
    requires pts != [] && Hull(pts) == Rect(x, y, width, height)
    requires width > 0.0 && height > 0.0 && w >= 0.0 && h >= 0.0
    ensures Hull(MapPoints(pts, ScaleAbout(Point(x, y), Bounds.Ratio(w, width), Bounds.Ratio(h, height))))
      == Rect(x, y, w, h)
  {
    Bounds.RatioRestores(x, w, width);
    Bounds.RatioRestores(y, h, height);
    HullScale(pts, Bounds.Ratio(w, width), Bounds.Ratio(h, height));
  }

  /** The bounds of a moved path: `HullAfterMove` for the stored
      coordinates. */
  lemma BoundsAfterMove(path: Path2D, from: Point, to: Point, width: real, height: real)
    requires Coords(path) != [] && Bounds2D(path) == Rect(from.x, from.y, width, height)
    ensures Bounds2D(MapPath(path, Relocate(from, to))) == Rect(to.x, to.y, width, height)
  {
    CoordsMap(path, Relocate(from, to));
    HullAfterMove(Coords(path), from, to, width, height);
  }

  /** The bounds of a resized path: `HullAfterResize` for the stored
      coordinates. */
  lemma BoundsAfterResize(path: Path2D, x: real, y: real, width: real, height: real, w: real, h: real)
    requires Coords(path) != [] && Bounds2D(path) == Rect(x, y, width, height)
    requires width > 0.0 && height > 0.0 && w >= 0.0 && h >= 0.0
    ensures Bounds2D(MapPath(path, ScaleAbout(Point(x, y), Bounds.Ratio(w, width), Bounds.Ratio(h, height))))
      == Rect(x, y, w, h)
  {
    CoordsMap(path, ScaleAbout(Point(x, y), Bounds.Ratio(w, width), Bounds.Ratio(h, height)));
    HullAfterResize(Coords(path), x, y, width, height, w, h);
  }
}

=== FILE: polygon.dfy ===
/** `Polygon`: a closed outline through a list of points. The points are
    kept in two coordinate arrays of the same length; every change rebuilds
    the `Path2D` (a move to the first point, a line to each further point,
    a close) and recomputes the bounding box from the points, except that a
    polygon without points keeps the box it had. */
module Polygon {
  import opened Common
  import Bounds
  import Path2D

  /** The arrays are modelled as one sequence of points: every constructor
      gives both arrays the same length, and nothing changes a length. */
  datatype Polygon = Polygon(
    pts: seq<Point>, path: Path2D.Path2D,
    x: real, y: real, width: real, height: real)

  function Box(s: Polygon): Rect {
    Rect(s.x, s.y, s.width, s.height)
  }

  /** `Arrays.copyOf(a, n)`: the first `n` elements, padded with zeros. */
  function CopyOf(a: seq<real>, n: nat): (r: seq<real>)
    ensures |r| == n
    ensures forall i :: 0 <= i < n ==> r[i] == (if i < |a| then a[i] else 0.0)
  {
    seq(n, i requires 0 <= i < n => if i < |a| then a[i] else 0.0)
  }

  /** A line to each point in turn, on a path that already has its move. */
  function LinesTo(base: Path2D.Path2D, q: seq<Point>): (r: Path2D.Path2D)
    requires base != []
    ensures |r| == |base| + |q|
    ensures r[..|base|] == base
    ensures forall i :: 0 <= i < |q| ==> r[|base| + i] == Path2D.SegLine(q[i])
  {
    if q == [] then base
    else
      var init := LinesTo(base, q[..|q| - 1]);
      Path2D.Append(init, Path2D.SegLine(q[|q| - 1])).value
  }

  /** `rebuildPath()`. No path operation is issued for a polygon without
      points, so rebuilding never throws. */
  function RebuildPath(pts: seq<Point>): (r: Path2D.Path2D)
    ensures pts == [] <==> r == []
    ensures pts != [] ==> |r| == |pts| + 1 && r[0] == Path2D.SegMove(pts[0])
    ensures pts != [] ==> Path2D.Last(r) == Path2D.SegClose
    ensures forall i :: 1 <= i < |pts| ==> r[i] == Path2D.SegLine(pts[i])
  {
    if pts == [] then []
    else
      var lines := LinesTo(Path2D.MoveTo([], pts[0]), pts[1..]);
      assert lines[0] == Path2D.SegMove(pts[0]);
      assert forall i :: 1 <= i < |pts| ==> lines[i] == Path2D.SegLine(pts[1..][i - 1]);
      Path2D.Append(lines, Path2D.SegClose).value
  }

  /** The coordinates the rebuilt path stores are exactly the points, so
      its bounds are the points' hull. */
  lemma RebuildPathCoords(pts: seq<Point>)
    ensures Path2D.Coords(RebuildPath(pts)) == pts
  {
    if pts != [] {
      var r := RebuildPath(pts);
      assert Path2D.Coords(r) == Path2D.Coords(r[..|r| - 1]);
      SegmentCoords(r[..|r| - 1], pts);
    }
  }

  lemma {:induction false} SegmentCoords(segs: Path2D.Path2D, pts: seq<Point>)
    requires |segs| == |pts| > 0 && segs[0] == Path2D.SegMove(pts[0])
    requires forall i :: 1 <= i < |pts| ==> segs[i] == Path2D.SegLine(pts[i])
    ensures Path2D.Coords(segs) == pts
    decreases |pts|
  {
    var n := |pts|;
    if n == 1 {
      assert segs[..0] == [];
      assert Path2D.Coords(segs) == [] + [pts[0]];
    } else {
      SegmentCoords(segs[..n - 1], pts[..n - 1]);
      assert Path2D.Coords(segs) == pts[..n - 1] + [pts[n - 1]];
      assert pts == pts[..n - 1] + [pts[n - 1]];
    }
  }

  /** `updateBoundingBox()`: one pass over the points keeping the smallest
      and largest coordinate seen. A larger coordinate is only looked for
      when the point is not a new minimum (`else if`), which loses nothing
      because a new minimum is below the current maximum. */
  method BoundingBox(pts: seq<Point>) returns (r: Rect)
    requires pts != []
    ensures r == Path2D.Hull(pts)
  {
    var minX, maxX := pts[0].x, pts[0].x;
    var minY, maxY := pts[0].y, pts[0].y;
    ghost var kMinX, kMaxX, kMinY, kMaxY := 0, 0, 0, 0;
    var i := 1;
    while i < |pts|
      invariant 1 <= i <= |pts|
      invariant kMinX < i && pts[kMinX].x == minX && kMaxX < i && pts[kMaxX].x == maxX
      invariant kMinY < i && pts[kMinY].y == minY && kMaxY < i && pts[kMaxY].y == maxY
      invariant forall j :: 0 <= j < i ==> minX <= pts[j].x <= maxX && minY <= pts[j].y <= maxY
    {
      var xx, yy := pts[i].x, pts[i].y;
      if xx < minX {
        minX, kMinX := xx, i;
      } else if xx > maxX {
        maxX, kMaxX := xx, i;
      }
      if yy < minY {
        minY, kMinY := yy, i;
      } else if yy > maxY {
        maxY, kMaxY := yy, i;
      }
      i := i + 1;
    }
    var xs, ys := Path2D.Xs(pts), Path2D.Ys(pts);
    Bounds.MinUnique(xs, kMinX);
    Bounds.MaxUnique(xs, kMaxX);
    Bounds.MinUnique(ys, kMinY);
    Bounds.MaxUnique(ys, kMaxY);
    r := Rect(minX, minY, maxX - minX, maxY - minY);
  }

  /** The rebuilt path and the recomputed box; the box is left alone when
      there are no points. */
  function Refresh(s: Polygon, pts: seq<Point>): (r: Polygon)
    ensures r.pts == pts && r.path == RebuildPath(pts)
    ensures pts == [] ==> Box(r) == Box(s)
    ensures pts != [] ==> Box(r) == Path2D.Hull(pts)
  {
    var s' := s.(pts := pts, path := RebuildPath(pts));
    if pts == [] then s'
    else
      var b := Path2D.Hull(pts);
      s'.(x := b.x, y := b.y, width := b.w, height := b.h)
  }

  /** What every constructor and setter but `setLocation` and `setSize`
      leaves: the path drawn through the points and, when there are points,
      the box equal to the path's bounds. */
  predicate Valid(s: Polygon) {
    s.path == RebuildPath(s.pts) && (s.pts != [] ==> Box(s) == Path2D.Bounds2D(s.path))
  }

  lemma RefreshValid(s: Polygon, pts: seq<Point>)
    ensures Valid(Refresh(s, pts))
  {
    RebuildPathCoords(pts);
  }

  /** `new Polygon(double[] xPoints, double[] yPoints, layer)`: as many
      points as x-coordinates; a shorter y array is padded with zeros and a
      longer one cut. The box starts at the origin with size 0. */
  function FromArrays(xs: seq<real>, ys: seq<real>): (r: Polygon)
    ensures |r.pts| == |xs|
    ensures forall i :: 0 <= i < |xs| ==> r.pts[i] == Point(xs[i], if i < |ys| then ys[i] else 0.0)
    ensures Valid(r)
    ensures xs == [] ==> Box(r) == Rect(0.0, 0.0, 0.0, 0.0)
  {
    var cy := CopyOf(ys, |xs|);
    var pts := seq(|xs|, i requires 0 <= i < |xs| => Point(xs[i], cy[i]));
    RefreshValid(Polygon([], [], 0.0, 0.0, 0.0, 0.0), pts);
    Refresh(Polygon([], [], 0.0, 0.0, 0.0, 0.0), pts)
  }

  /** `new Polygon(int[] xPoints, int[] yPoints)`: every `int` is exactly
      representable as a `double`. */
  function FromIntArrays(xs: seq<int>, ys: seq<int>): Polygon {
    FromArrays(seq(|xs|, i requires 0 <= i < |xs| => xs[i] as real),
               seq(|ys|, i requires 0 <= i < |ys| => ys[i] as real))
  }

  /** `new Polygon(List<Point> points, layer)`. */
  function FromPoints(pts: seq<Point>): (r: Polygon)
    ensures r.pts == pts && Valid(r)
    ensures pts == [] ==> Box(r) == Rect(0.0, 0.0, 0.0, 0.0)
    ensures pts != [] ==> forall i :: 0 <= i < |pts| ==>
      r.x <= pts[i].x <= r.x + r.width && r.y <= pts[i].y <= r.y + r.height
  {
    RefreshValid(Polygon([], [], 0.0, 0.0, 0.0, 0.0), pts);
    Refresh(Polygon([], [], 0.0, 0.0, 0.0, 0.0), pts)
  }

  /** `setLocation(x, y)`: every point moves by the change of location,
      the box is recomputed, and then the location is set to `(x, y)`. */
  function SetLocation(s: Polygon, x: real, y: real): (r: Polygon)
    ensures r.pts == Path2D.MapPoints(s.pts, Path2D.Relocate(Point(s.x, s.y), Point(x, y)))
    ensures r.path == RebuildPath(r.pts)
    ensures r.x == x && r.y == y
    ensures s.pts == [] ==> r.width == s.width && r.height == s.height
    ensures s.pts != [] ==> r.width == Path2D.Hull(r.pts).w && r.height == Path2D.Hull(r.pts).h
  {
    var pts := seq(|s.pts|, i requires 0 <= i < |s.pts| => Point(s.pts[i].x - s.x + x, s.pts[i].y - s.y + y));
    assert pts == Path2D.MapPoints(s.pts, Path2D.Relocate(Point(s.x, s.y), Point(x, y)));
    Refresh(s, pts).(x := x, y := y)
  }

  /** Moving a consistent polygon keeps it consistent, at the requested
      location with the old size. */
  lemma SetLocationKeepsValid(s: Polygon, x: real, y: real)
    requires Valid(s)
    ensures Valid(SetLocation(s, x, y))
    ensures s.pts != [] ==> Box(SetLocation(s, x, y)) == Rect(x, y, s.width, s.height)
  {
    var r := SetLocation(s, x, y);
    RebuildPathCoords(r.pts);
    if s.pts != [] {
      MovedHull(s, x, y);
    }
  }

  lemma MovedHull(s: Polygon, x: real, y: real)
    requires Valid(s) && s.pts != []
    ensures Path2D.Hull(Path2D.MapPoints(s.pts, Path2D.Relocate(Point(s.x, s.y), Point(x, y)))) == Rect(x, y, s.width, s.height)
  {
    RebuildPathCoords(s.pts);
    Path2D.HullAfterMove(s.pts, Point(s.x, s.y), Point(x, y), s.width, s.height);
  }

  /** `setSize(w, h)`: every point is scaled about the current location by
      `w / width` (1 when the width is 0), likewise vertically; the box is
      recomputed, and then the size is set to `(w, h)` whatever the points
      span. */
  function SetSize(s: Polygon, w: real, h: real): (r: Polygon)
    ensures r.pts == Path2D.MapPoints(s.pts, Path2D.ScaleAbout(Point(s.x, s.y), Bounds.Ratio(w, s.width), Bounds.Ratio(h, s.height)))
    ensures r.path == RebuildPath(r.pts)
    ensures r.width == w && r.height == h
    ensures s.pts == [] ==> r.x == s.x && r.y == s.y
    ensures s.pts != [] ==> r.x == Path2D.Hull(r.pts).x && r.y == Path2D.Hull(r.pts).y
  {
    var rw, rh := Bounds.Ratio(w, s.width), Bounds.Ratio(h, s.height);
    var pts := Path2D.MapPoints(s.pts, Path2D.ScaleAbout(Point(s.x, s.y), rw, rh));
    Refresh(s, pts).(width := w, height := h)
  }

  /** Resizing a consistent polygon with a non-empty extent to a
      non-negative size keeps it consistent, at the old location. */
  lemma SetSizeKeepsValid(s: Polygon, w: real, h: real)
    requires Valid(s) && s.pts != []
    requires s.width > 0.0 && s.height > 0.0 && w >= 0.0 && h >= 0.0
    ensures Valid(SetSize(s, w, h))
    ensures Box(SetSize(s, w, h)) == Rect(s.x, s.y, w, h)
  {
    var r := SetSize(s, w, h);
    RebuildPathCoords(s.pts);
    RebuildPathCoords(r.pts);
    Path2D.HullAfterResize(s.pts, s.x, s.y, s.width, s.height, w, h);
  }

  /** When the points have no horizontal extent the ratio is 1, so the
      points stay where they are while the stored width becomes `w`: the box
      no longer matches the points. */
  lemma SetSizeOfFlatPolygon(s: Polygon, w: real, h: real)
    requires Valid(s) && s.pts != [] && s.width == 0.0 && w != 0.0
    ensures SetSize(s, w, h).pts == Path2D.MapPoints(s.pts, Path2D.ScaleAbout(Point(s.x, s.y), 1.0, Bounds.Ratio(h, s.height)))
    ensures Path2D.Hull(SetSize(s, w, h).pts).w == 0.0
    ensures !Valid(SetSize(s, w, h))
  {
    var r := SetSize(s, w, h);
    FlatPoints(s);
    RebuildPathCoords(r.pts);
    forall i | 0 <= i < |r.pts| ensures r.pts[i].x == s.x {
      assert r.pts[i].x == Bounds.ScaleCoord(s.x, 1.0, s.pts[i].x);
    }
    Path2D.HullFlat(r.pts, s.x);
  }

  /** Every point of a consistent polygon of width 0 lies on its left edge. */
  lemma FlatPoints(s: Polygon)
    requires Valid(s) && s.pts != [] && s.width == 0.0
    ensures forall i :: 0 <= i < |s.pts| ==> s.pts[i].x == s.x
  {
    RebuildPathCoords(s.pts);
    assert Path2D.Hull(s.pts) == Box(s);
    Path2D.HullZeroWidth(s.pts);
  }

  /** `getX(i)`: an index outside the arrays throws. */
  function GetX(s: Polygon, i: int): (r: Result<real>)
    ensures r.Err? <==> !(0 <= i < |s.pts|)
    ensures r.Err? ==> r.failure == IndexOutOfBounds
    ensures r.Ok? ==> r.value == s.pts[i].x
  {
    if 0 <= i < |s.pts| then Ok(s.pts[i].x) else Err(IndexOutOfBounds)
  }

  /** `getY(i)`. */
  function GetY(s: Polygon, i: int): (r: Result<real>)
    ensures r.Err? <==> !(0 <= i < |s.pts|)
    ensures r.Err? ==> r.failure == IndexOutOfBounds
    ensures r.Ok? ==> r.value == s.pts[i].y
  {
    if 0 <= i < |s.pts| then Ok(s.pts[i].y) else Err(IndexOutOfBounds)
  }

  /** `setX(i, v)`: the store throws before anything changes; otherwise
      only point `i` moves and the polygon is refreshed. */
  function SetX(s: Polygon, i: int, v: real): (r: Result<Polygon>)
    ensures r.Err? <==> !(0 <= i < |s.pts|)
    ensures r.Err? ==> r.failure == IndexOutOfBounds
    ensures r.Ok? ==> |r.value.pts| == |s.pts| && r.value.pts[i] == Point(v, s.pts[i].y)
    ensures r.Ok? ==> forall j :: 0 <= j < |s.pts| && j != i ==> r.value.pts[j] == s.pts[j]
    ensures r.Ok? ==> Valid(r.value)
  {
    if 0 <= i < |s.pts| then
      var pts := s.pts[i := Point(v, s.pts[i].y)];
      RefreshValid(s, pts);
      Ok(Refresh(s, pts))
    else Err(IndexOutOfBounds)
  }

  /** `setY(i, v)`. */
  function SetY(s: Polygon, i: int, v: real): (r: Result<Polygon>)
    ensures r.Err? <==> !(0 <= i < |s.pts|)
    ensures r.Err? ==> r.failure == IndexOutOfBounds
    ensures r.Ok? ==> |r.value.pts| == |s.pts| && r.value.pts[i] == Point(s.pts[i].x, v)
    ensures r.Ok? ==> forall j :: 0 <= j < |s.pts| && j != i ==> r.value.pts[j] == s.pts[j]
    ensures r.Ok? ==> Valid(r.value)
  {
    if 0 <= i < |s.pts| then
      var pts := s.pts[i := Point(s.pts[i].x, v)];
      RefreshValid(s, pts);
      Ok(Refresh(s, pts))
    else Err(IndexOutOfBounds)
  }

  /** Reading back a coordinate just written gives the value written, and
      writing back the value read changes nothing in a consistent polygon. */
  lemma SetGetX(s: Polygon, i: int, v: real)
    requires 0 <= i < |s.pts|
    ensures GetX(SetX(s, i, v).value, i) == Ok(v)
    ensures GetY(SetX(s, i, v).value, i) == GetY(s, i)
    ensures Valid(s) ==> SetX(s, i, GetX(s, i).value) == Ok(s)
  {
    if Valid(s) {
      assert s.pts[i := Point(s.pts[i].x, s.pts[i].y)] == s.pts;
      RefreshSame(s);
    }
  }

  lemma SetGetY(s: Polygon, i: int, v: real)
    requires 0 <= i < |s.pts|
    ensures GetY(SetY(s, i, v).value, i) == Ok(v)
    ensures GetX(SetY(s, i, v).value, i) == GetX(s, i)
    ensures Valid(s) ==> SetY(s, i, GetY(s, i).value) == Ok(s)
  {
    if Valid(s) {
      assert s.pts[i := Point(s.pts[i].x, s.pts[i].y)] == s.pts;
      RefreshSame(s);
    }
  }

  /** Refreshing a consistent polygon from its own points changes nothing. */
  lemma RefreshSame(s: Polygon)
    requires Valid(s) && s.pts != []
    ensures Refresh(s, s.pts) == s
  {
    RebuildPathCoords(s.pts);
    var r := Refresh(s, s.pts);
    assert Box(r) == Box(s);
  }
}

=== FILE: scene.dfy ===
/** The scene a Pad holds: an ordered list of layers, each an ordered
    list of shapes drawn back to front, plus the layer and shape objects
    themselves. Objects are named by ids; a layer removed from the Pad and
    a shape removed from its layer still exist, and may still be referred
    to. */
module Scene {
  import opened Common
  import opened Events
  import Lists
  import Affine
  import Shape

  datatype LayerRec = LayerRec(shapes: seq<ShapeId>, transform: Affine.Affine)

  /** `layers` is the Pad's list; `nextLayer` and `nextShape` are the ids
      the next new objects get. */
  datatype Scene = Scene(
    layers: seq<LayerId>,
    layerRecs: map<LayerId, LayerRec>,
    shapes: map<ShapeId, Shape.ShapeRec>,
    nextLayer: LayerId,
    nextShape: ShapeId)

  /** Every id refers to an existing object, fresh ids are unused, and the
      Pad always has its default layer. */
  predicate WellFormed(sc: Scene) {
    |sc.layers| >= 1
    && (forall i :: 0 <= i < |sc.layers| ==> sc.layers[i] in sc.layerRecs)
    && (forall l :: l in sc.layerRecs ==> l < sc.nextLayer)
    && (forall l :: l in sc.layerRecs ==> forall s :: s in sc.layerRecs[l].shapes ==> s in sc.shapes)
    && (forall s :: s in sc.shapes ==> s < sc.nextShape)
    && (forall s :: s in sc.shapes ==> sc.shapes[s].layer.Some? ==> sc.shapes[s].layer.value in sc.layerRecs)
  }

  /** Every shape is selected only when selectable. */
  predicate SelectionConsistent(shapes: map<ShapeId, Shape.ShapeRec>) {
    forall s :: s in shapes ==> Shape.SelectionConsistent(shapes[s])
  }

  // --- the layer list of the Pad ------------------------------------------

  /** A new Pad has exactly one layer, with no shapes and no transform. */
  function NewPad(): (sc: Scene)
    ensures WellFormed(sc) && |sc.layers| == 1 && sc.shapes == map[]
    ensures sc.layerRecs[sc.layers[0]] == LayerRec([], Affine.Identity)
  {
    Scene([0], map[0 := LayerRec([], Affine.Identity)], map[], 1, 0)
  }

  /** `addLayer()`: a new empty layer goes last; its index is returned. */
  function AddLayer(sc: Scene): (r: (Scene, int))
    requires WellFormed(sc)
    ensures WellFormed(r.0)
    ensures |r.0.layers| == |sc.layers| + 1 && r.0.layers[..|sc.layers|] == sc.layers
    ensures r.1 == |r.0.layers| - 1
    ensures r.0.layers[r.1] !in sc.layerRecs && r.0.layerRecs[r.0.layers[r.1]] == LayerRec([], Affine.Identity)
    ensures r.0.shapes == sc.shapes
  {
    var l := sc.nextLayer;
    var sc' := sc.(layers := sc.layers + [l], layerRecs := sc.layerRecs[l := LayerRec([], Affine.Identity)],
                   nextLayer := l + 1);
    (sc', |sc'.layers| - 1)
  }

  /** `removeLayer(idx)`: index 0 is refused, and an index outside the list
      throws, which is caught; either way nothing changes. */
  function RemoveLayer(sc: Scene, idx: int): (r: Scene)
    requires WellFormed(sc)
    ensures WellFormed(r)
    ensures idx <= 0 || idx >= |sc.layers| ==> r == sc
    ensures 0 < idx < |sc.layers| ==> r == sc.(layers := sc.layers[..idx] + sc.layers[idx + 1..])
    ensures r.layers[0] == sc.layers[0]
  {
    if idx <= 0 || idx >= |sc.layers| then sc
    else sc.(layers := sc.layers[..idx] + sc.layers[idx + 1..])
  }

  // --- the shape list of a layer ------------------------------------------

  /** The constructor of a shape: a fresh object, added to `layer` when
      one is given. */
  function NewShapeIn(sc: Scene, x: real, y: real, w: real, h: real, layer: Option<LayerId>): (r: (Scene, ShapeId))
    requires WellFormed(sc)
    requires layer.Some? ==> layer.value in sc.layerRecs
    ensures WellFormed(r.0)
    ensures r.1 !in sc.shapes && r.1 in r.0.shapes
    ensures r.0.shapes[r.1] == Shape.NewShape(x, y, w, h).(layer := layer)
    ensures forall s :: s in sc.shapes ==> s in r.0.shapes && r.0.shapes[s] == sc.shapes[s]
    ensures layer.None? ==> r.0.layerRecs == sc.layerRecs
    ensures layer.Some? ==> r.0.layerRecs[layer.value].shapes == sc.layerRecs[layer.value].shapes + [r.1]
  {
    var id := sc.nextShape;
    var sc' := sc.(shapes := sc.shapes[id := Shape.NewShape(x, y, w, h)], nextShape := id + 1);
    if layer.Some? then (AddShape(sc', layer.value, id), id) else (sc', id)
  }

  /** The scene with layer `l` listing `ids` instead. */
  function SetList(sc: Scene, l: LayerId, ids: seq<ShapeId>): (r: Scene)
    requires WellFormed(sc) && l in sc.layerRecs
    requires forall x :: x in ids ==> x in sc.shapes
    ensures WellFormed(r)
    ensures r.layers == sc.layers && r.shapes == sc.shapes && r.layerRecs.Keys == sc.layerRecs.Keys
    ensures r.layerRecs[l] == LayerRec(ids, sc.layerRecs[l].transform)
    ensures forall k :: k in sc.layerRecs && k != l ==> r.layerRecs[k] == sc.layerRecs[k]
  {
    sc.(layerRecs := sc.layerRecs[l := sc.layerRecs[l].(shapes := ids)])
  }

  /** The scene with shape `s` replaced by `rec`. */
  function SetShape(sc: Scene, s: ShapeId, rec: Shape.ShapeRec): (r: Scene)
    requires WellFormed(sc) && s in sc.shapes
    requires rec.layer.Some? ==> rec.layer.value in sc.layerRecs
    ensures WellFormed(r)
    ensures r.layers == sc.layers && r.layerRecs == sc.layerRecs && r.shapes.Keys == sc.shapes.Keys
    ensures r.shapes[s] == rec
    ensures forall t :: t in sc.shapes && t != s ==> r.shapes[t] == sc.shapes[t]
  {
    sc.(shapes := sc.shapes[s := rec])
  }

  /** `addShape(s)`: the shape goes last and its back-reference is set to
      this layer. */
  function AddShape(sc: Scene, l: LayerId, s: ShapeId): (r: Scene)
    requires WellFormed(sc) && l in sc.layerRecs && s in sc.shapes
    ensures WellFormed(r)
    ensures r.layers == sc.layers && r.layerRecs.Keys == sc.layerRecs.Keys && r.shapes.Keys == sc.shapes.Keys
    ensures r.layerRecs[l].shapes == sc.layerRecs[l].shapes + [s]
    ensures r.shapes[s] == sc.shapes[s].(layer := Some(l))
    ensures forall k :: k in sc.layerRecs && k != l ==> r.layerRecs[k] == sc.layerRecs[k]
    ensures forall t :: t in sc.shapes && t != s ==> r.shapes[t] == sc.shapes[t]
  {
    SetShape(SetList(sc, l, sc.layerRecs[l].shapes + [s]), s, sc.shapes[s].(layer := Some(l)))
  }

  /** `removeShape(s)`: the back-reference is cleared whether or not the
      shape is in this layer, and only the first occurrence is removed. */
  function RemoveShape(sc: Scene, l: LayerId, s: ShapeId): (r: Scene)
    requires WellFormed(sc) && l in sc.layerRecs && s in sc.shapes
    ensures WellFormed(r)
    ensures r.layers == sc.layers && r.layerRecs.Keys == sc.layerRecs.Keys && r.shapes.Keys == sc.shapes.Keys
    ensures r.shapes[s] == sc.shapes[s].(layer := None)
    ensures r.layerRecs[l].shapes == Lists.RemoveFirst(sc.layerRecs[l].shapes, s)
    ensures forall k :: k in sc.layerRecs && k != l ==> r.layerRecs[k] == sc.layerRecs[k]
    ensures forall t :: t in sc.shapes && t != s ==> r.shapes[t] == sc.shapes[t]
  {
    var ids := Lists.RemoveFirst(sc.layerRecs[l].shapes, s);
    assert forall x :: x in ids ==> x in multiset(sc.layerRecs[l].shapes);
    SetShape(SetList(sc, l, ids), s, sc.shapes[s].(layer := None))
  }

  /** `clear()`: the list is emptied, but the removed shapes keep their
      back-reference to this layer. */
  function Clear(sc: Scene, l: LayerId): (r: Scene)
    requires WellFormed(sc) && l in sc.layerRecs
    ensures WellFormed(r)
    ensures r.layers == sc.layers && r.layerRecs.Keys == sc.layerRecs.Keys && r.shapes == sc.shapes
    ensures r.layerRecs[l].shapes == [] && r.layerRecs[l].transform == sc.layerRecs[l].transform
    ensures forall k :: k in sc.layerRecs && k != l ==> r.layerRecs[k] == sc.layerRecs[k]
  {
    SetList(sc, l, [])
  }

  /** The list without any occurrence of `s`. */
  function Others(ids: seq<ShapeId>, s: ShapeId): (r: seq<ShapeId>)
    ensures |r| <= |ids|
    ensures forall x :: x in r <==> x in ids && x != s
  {
    if ids == [] then []
    else Others(ids[..|ids| - 1], s) + (if ids[|ids| - 1] != s then [ids[|ids| - 1]] else [])
  }

  lemma {:induction false} OthersAppend(a: seq<ShapeId>, b: seq<ShapeId>, s: ShapeId)
    ensures Others(a + b, s) == Others(a, s) + Others(b, s)
    decreases |b|
  {
    if b == [] {
      assert a + b == a;
    } else {
      var n := |b| - 1;
      assert (a + b)[..|a + b| - 1] == a + b[..n];
      OthersAppend(a, b[..n], s);
    }
  }

  lemma OthersSingle(s: ShapeId)
    ensures Others([s], s) == []
  {
    assert [s][..0] == [];
  }

  /** Removing one occurrence of `s` leaves the other shapes as they were. */
  lemma OthersRemoveFirst(ids: seq<ShapeId>, s: ShapeId)
    ensures Others(Lists.RemoveFirst(ids, s), s) == Others(ids, s)
  {
    if s in ids {
      var i := Lists.IndexOf(ids, s);
      var a, b := ids[..i], ids[i + 1..];
      assert ids == a + [s] + b;
      assert Lists.RemoveFirst(ids, s) == a + b;
      calc {
        Others(ids, s);
        Others(a + [s] + b, s);
        { OthersAppend(a + [s], b, s); }
        Others(a + [s], s) + Others(b, s);
        { OthersAppend(a, [s], s); OthersSingle(s); }
        Others(a, s) + Others(b, s);
        { OthersAppend(a, b, s); }
        Others(a + b, s);
      }
    }
  }

  lemma MultisetAfterRemove(ids: seq<ShapeId>, s: ShapeId)
    ensures multiset(Lists.RemoveFirst(ids, s)) + multiset{s}
      == multiset(ids) + (if s in ids then multiset{} else multiset{s})
  {
    if s in ids {
      assert s in multiset(ids);
    } else {
      assert s !in multiset(ids);
    }
  }

  /** `toFront(s)`: remove the first occurrence, append. */
  function ToFront(sc: Scene, l: LayerId, s: ShapeId): (r: Scene)
    requires WellFormed(sc) && l in sc.layerRecs && s in sc.shapes
    ensures WellFormed(r)
    ensures r.shapes == sc.shapes && r.layers == sc.layers && r.layerRecs.Keys == sc.layerRecs.Keys
    ensures forall k :: k in sc.layerRecs && k != l ==> r.layerRecs[k] == sc.layerRecs[k]
    ensures r.layerRecs[l].shapes == Lists.RemoveFirst(sc.layerRecs[l].shapes, s) + [s]
  {
    var ids := Lists.RemoveFirst(sc.layerRecs[l].shapes, s) + [s];
    Lists.RemoveFirstWithin(sc.layerRecs[l].shapes, s);
    SetList(sc, l, ids)
  }

  /** `toBack(s)`: remove the first occurrence, insert at index 0. */
  function ToBack(sc: Scene, l: LayerId, s: ShapeId): (r: Scene)
    requires WellFormed(sc) && l in sc.layerRecs && s in sc.shapes
    ensures WellFormed(r)
    ensures r.shapes == sc.shapes && r.layers == sc.layers && r.layerRecs.Keys == sc.layerRecs.Keys
    ensures forall k :: k in sc.layerRecs && k != l ==> r.layerRecs[k] == sc.layerRecs[k]
    ensures r.layerRecs[l].shapes == [s] + Lists.RemoveFirst(sc.layerRecs[l].shapes, s)
  {
    var ids := [s] + Lists.RemoveFirst(sc.layerRecs[l].shapes, s);
    Lists.RemoveFirstWithin(sc.layerRecs[l].shapes, s);
    SetList(sc, l, ids)
  }

  /** After `toFront` the shape is drawn last and every other shape keeps
      its relative order; a shape that was not in the list is added. The
      list loses no entry and gains `s` only when it was absent. */
  lemma ToFrontOrder(sc: Scene, l: LayerId, s: ShapeId)
    requires WellFormed(sc) && l in sc.layerRecs && s in sc.shapes
    ensures var after := ToFront(sc, l, s).layerRecs[l].shapes;
      var before := sc.layerRecs[l].shapes;
      after[|after| - 1] == s && Others(after, s) == Others(before, s)
      && multiset(after) == multiset(before) + (if s in before then multiset{} else multiset{s})
  {
    var before := sc.layerRecs[l].shapes;
    OthersRemoveFirst(before, s);
    OthersAppend(Lists.RemoveFirst(before, s), [s], s);
    OthersSingle(s);
    MultisetAfterRemove(before, s);
  }

  /** After `toBack` the shape is drawn first and every other shape keeps
      its relative order. */
  lemma ToBackOrder(sc: Scene, l: LayerId, s: ShapeId)
    requires WellFormed(sc) && l in sc.layerRecs && s in sc.shapes
    ensures var after := ToBack(sc, l, s).layerRecs[l].shapes;
      var before := sc.layerRecs[l].shapes;
      after[0] == s && Others(after, s) == Others(before, s)
      && multiset(after) == multiset(before) + (if s in before then multiset{} else multiset{s})
  {
    var before := sc.layerRecs[l].shapes;
    OthersRemoveFirst(before, s);
    OthersAppend([s], Lists.RemoveFirst(before, s), s);
    OthersSingle(s);
    MultisetAfterRemove(before, s);
  }

  // --- selection --------------------------------------------------------------

  /** The selected shapes of a list, in list order. */
  function SelectedIn(ids: seq<ShapeId>, shapes: map<ShapeId, Shape.ShapeRec>): (r: seq<ShapeId>)
    ensures |r| <= |ids|
    ensures forall x :: x in r <==> x in ids && x in shapes && shapes[x].selected
  {
    if ids == [] then []
    else
      var last := ids[|ids| - 1];
      SelectedIn(ids[..|ids| - 1], shapes) + (if last in shapes && shapes[last].selected then [last] else [])
  }

  /** `getSelectedShapes()`: one pass over the layer's list collecting
      the selected shapes. */
  method GetSelectedShapes(sc: Scene, l: LayerId) returns (sel: seq<ShapeId>)
    requires WellFormed(sc) && l in sc.layerRecs
    ensures sel == SelectedIn(sc.layerRecs[l].shapes, sc.shapes)
    ensures forall x :: x in sel <==> x in sc.layerRecs[l].shapes && sc.shapes[x].selected
  {
    sel := CollectSelected(sc.layerRecs[l].shapes, sc.shapes);
  }

  /** The loop of `getSelectedShapes`, over a list whose shapes all exist. */
  method CollectSelected(ids: seq<ShapeId>, shapes: map<ShapeId, Shape.ShapeRec>) returns (sel: seq<ShapeId>)
    requires forall i :: 0 <= i < |ids| ==> ids[i] in shapes
    ensures sel == SelectedIn(ids, shapes)
  {
    sel := [];
    var i := 0;
    while i < |ids|
      invariant 0 <= i <= |ids|
      invariant sel == SelectedIn(ids[..i], shapes)
    {
      SelectedInStep(ids, shapes, i);
      if shapes[ids[i]].selected {
        sel := sel + [ids[i]];
      }
      i := i + 1;
    }
    assert ids[..i] == ids;
  }

  lemma SelectedInStep(ids: seq<ShapeId>, shapes: map<ShapeId, Shape.ShapeRec>, i: nat)
    requires i < |ids| && ids[i] in shapes
    ensures SelectedIn(ids[..i + 1], shapes)
      == SelectedIn(ids[..i], shapes) + (if shapes[ids[i]].selected then [ids[i]] else [])
  {
    assert ids[..i + 1][..i] == ids[..i];
  }

  /** `setSelected(false)` on each listed shape in turn, collecting the
      selection-changed callbacks. */
  function DeselectList(shapes: map<ShapeId, Shape.ShapeRec>, ids: seq<ShapeId>): (r: (map<ShapeId, Shape.ShapeRec>, seq<Call>))
    ensures r.0.Keys == shapes.Keys
    ensures forall x :: x in shapes && x !in ids ==> r.0[x] == shapes[x]
    ensures forall x :: x in shapes && x in ids ==>
      r.0[x] == shapes[x].(selected := shapes[x].selected && !shapes[x].selectable)
    ensures forall i :: 0 <= i < |r.1| ==> r.1[i].SelectionChanged? && !r.1[i].sel
  {
    if ids == [] then (shapes, [])
    else
      var x := ids[|ids| - 1];
      var prev := DeselectList(shapes, ids[..|ids| - 1]);
      if x in prev.0 then
        var f := Shape.SetSelected(prev.0[x], false);
        (prev.0[x := f.shape], prev.1 + (if f.changed.Some? then [SelectionChanged(x, false)] else []))
      else prev
  }

  /** Each shape of the list that was selected (and selectable) is told
      exactly once that it was deselected, however often it is listed;
      no other shape is told anything. */
  lemma {:induction false} DeselectListCalls(shapes: map<ShapeId, Shape.ShapeRec>, ids: seq<ShapeId>, x: ShapeId)
    ensures CountCalls(DeselectList(shapes, ids).1, DeselectionOf(x))
      == if x in ids && x in shapes && shapes[x].selected && shapes[x].selectable then 1 else 0
    decreases |ids|
  {
    if ids != [] {
      var y := ids[|ids| - 1];
      var init := ids[..|ids| - 1];
      var prev := DeselectList(shapes, init);
      DeselectListCalls(shapes, init, x);
      if y in prev.0 {
        var f := Shape.SetSelected(prev.0[y], false);
        var extra := if f.changed.Some? then [SelectionChanged(y, false)] else [];
        CountCallsAppend(prev.1, extra, DeselectionOf(x));
        if extra != [] {
          assert extra[..0] == [];
          assert CountCalls(extra, DeselectionOf(x)) == if x == y then 1 else 0;
        }
        assert x in ids <==> x in init || x == y;
      }
    }
  }

  /** Every shape listed in any layer of the Pad, layer by layer, each
      layer back to front. */
  function Flatten(layers: seq<LayerId>, layerRecs: map<LayerId, LayerRec>): (r: seq<ShapeId>)
    ensures forall x :: x in r <==> exists i :: 0 <= i < |layers| && layers[i] in layerRecs && x in layerRecs[layers[i]].shapes
  {
    if layers == [] then []
    else
      var l := layers[|layers| - 1];
      var init := layers[..|layers| - 1];
      var r0 := Flatten(init, layerRecs);
      assert forall i :: 0 <= i < |init| ==> init[i] == layers[i];
      r0 + (if l in layerRecs then layerRecs[l].shapes else [])
  }

  function Listed(sc: Scene): seq<ShapeId> {
    Flatten(sc.layers, sc.layerRecs)
  }

  /** `deselectAll()` of one layer. */
  function LayerDeselectAll(sc: Scene, l: LayerId): (r: (Scene, seq<Call>))
    requires l in sc.layerRecs
    ensures r.0 == sc.(shapes := DeselectList(sc.shapes, sc.layerRecs[l].shapes).0)
    ensures SelectionConsistent(sc.shapes) ==>
      forall x :: x in sc.layerRecs[l].shapes && x in sc.shapes ==> !r.0.shapes[x].selected
  {
    var d := DeselectList(sc.shapes, sc.layerRecs[l].shapes);
    (sc.(shapes := d.0), d.1)
  }

  /** The Pad's `deselectAll()`: every layer's in turn. Afterwards no
      listed shape is selected, and each one that was is told once. */
  function DeselectAll(sc: Scene): (r: (Scene, seq<Call>))
    ensures r.0 == sc.(shapes := DeselectList(sc.shapes, Listed(sc)).0)
    ensures SelectionConsistent(sc.shapes) ==>
      forall x :: x in Listed(sc) && x in sc.shapes ==> !r.0.shapes[x].selected
    ensures SelectionConsistent(sc.shapes) ==> SelectionConsistent(r.0.shapes)
    ensures WellFormed(sc) ==> WellFormed(r.0)
    ensures forall x :: x in sc.shapes ==> r.0.shapes[x].(selected := sc.shapes[x].selected) == sc.shapes[x]
  {
    var d := DeselectList(sc.shapes, Listed(sc));
    DeselectListSelectsOnly(sc.shapes, Listed(sc));
    (sc.(shapes := d.0), d.1)
  }

  /** Deselecting changes nothing but the selection flags. */
  lemma DeselectListSelectsOnly(shapes: map<ShapeId, Shape.ShapeRec>, ids: seq<ShapeId>)
    ensures forall x :: x in shapes ==> DeselectList(shapes, ids).0[x].(selected := shapes[x].selected) == shapes[x]
  {
    forall x | x in shapes
      ensures DeselectList(shapes, ids).0[x].(selected := shapes[x].selected) == shapes[x]
    {
      if x in ids {
        assert DeselectList(shapes, ids).0[x] == shapes[x].(selected := shapes[x].selected && !shapes[x].selectable);
      }
    }
  }

  // --- transforms ------------------------------------------------------------

  /** A layer's `translate`, `scale`, `rotate` and `reset`. */
  datatype TransformOp = Translate(tx: real, ty: real) | Scale(sx: real, sy: real) | Rotate(c: real, s: real) | Reset

  function ApplyOp(t: Affine.Affine, op: TransformOp): Affine.Affine {
    match op
    case Translate(tx, ty) => Affine.Translate(t, tx, ty)
    case Scale(sx, sy) => Affine.Scale(t, sx, sy)
    case Rotate(c, s) => Affine.Rotate(t, c, s)
    case Reset => Affine.Identity
  }

  /** What an operation by itself does to a point. */
  function OpPoint(op: TransformOp, p: Point): Point {
    match op
    case Translate(tx, ty) => Point(p.x + tx, p.y + ty)
    case Scale(sx, sy) => Point(sx * p.x, sy * p.y)
    case Rotate(c, s) => Point(c * p.x - s * p.y, s * p.x + c * p.y)
    case Reset => p
  }

  /** `translate`, `scale` and `rotate` add to the transform in place: the
      new operation acts on a point before the old transform does, while
      `reset` forgets the old transform. */
  lemma OpActsFirst(t: Affine.Affine, op: TransformOp, p: Point)
    ensures !op.Reset? ==> Affine.Apply(ApplyOp(t, op), p) == Affine.Apply(t, OpPoint(op, p))
    ensures op.Reset? ==> Affine.Apply(ApplyOp(t, op), p) == p
  {
    match op
    case Translate(tx, ty) =>
      assert ApplyOp(t, op) == Affine.Translate(t, tx, ty);
      assert OpPoint(op, p) == Point(p.x + tx, p.y + ty);
      Affine.TranslateActsFirst(t, p, tx, ty);
    case Scale(sx, sy) =>
      assert ApplyOp(t, op) == Affine.Scale(t, sx, sy);
      assert OpPoint(op, p) == Point(sx * p.x, sy * p.y);
      Affine.ScaleActsFirst(t, p, sx, sy);
    case Rotate(c, s) =>
      assert ApplyOp(t, op) == Affine.Rotate(t, c, s);
      assert OpPoint(op, p) == Point(c * p.x - s * p.y, s * p.x + c * p.y);
      Affine.RotateActsFirst(t, p, c, s);
    case Reset =>
  }

  /** The layer's transform after one of its operations. */
  function TransformLayer(sc: Scene, l: LayerId, op: TransformOp): (r: Scene)
    requires WellFormed(sc) && l in sc.layerRecs
    ensures WellFormed(r)
    ensures r.layers == sc.layers && r.shapes == sc.shapes && r.layerRecs.Keys == sc.layerRecs.Keys
    ensures r.layerRecs[l] == LayerRec(sc.layerRecs[l].shapes, ApplyOp(sc.layerRecs[l].transform, op))
    ensures forall k :: k in sc.layerRecs && k != l ==> r.layerRecs[k] == sc.layerRecs[k]
  {
    SetTransform(sc, l, ApplyOp(sc.layerRecs[l].transform, op))
  }

  /** `setTransform(t)` of a layer. The transform is held by value: the
      library keeps the caller's object, so sharing it is not modelled. */
  function SetTransform(sc: Scene, l: LayerId, t: Affine.Affine): (r: Scene)
    requires WellFormed(sc) && l in sc.layerRecs
    ensures WellFormed(r)
    ensures r.layers == sc.layers && r.shapes == sc.shapes && r.layerRecs.Keys == sc.layerRecs.Keys
    ensures r.layerRecs[l] == LayerRec(sc.layerRecs[l].shapes, t)
    ensures forall k :: k in sc.layerRecs && k != l ==> r.layerRecs[k] == sc.layerRecs[k]
  {
    sc.(layerRecs := sc.layerRecs[l := sc.layerRecs[l].(transform := t)])
  }

  /** The three steps of the Pad's `scale(f, cx, cy)` and
      `rotate(angle, cx, cy)`, as written: translate by `(-cx, -cy)`, the
      operation, translate by `(cx, cy)`. */
  function AboutAsWritten(t: Affine.Affine, op: TransformOp, cx: real, cy: real): Affine.Affine {
    ApplyOp(ApplyOp(ApplyOp(t, Translate(-cx, -cy)), op), Translate(cx, cy))
  }

  /** The order that makes `(cx, cy)` the fixed point of the added
      operation: translate by `(cx, cy)`, the operation, translate back. */
  function About(t: Affine.Affine, op: TransformOp, cx: real, cy: real): Affine.Affine {
    ApplyOp(ApplyOp(ApplyOp(t, Translate(cx, cy)), op), Translate(-cx, -cy))
  }

  /** A point under `About`: moved to be relative to the centre, the
      operation, moved back, then the old transform. */
  lemma AboutActs(t: Affine.Affine, op: TransformOp, cx: real, cy: real, p: Point)
    requires !op.Reset?
    ensures var q := OpPoint(op, Point(p.x - cx, p.y - cy));
      Affine.Apply(About(t, op, cx, cy), p) == Affine.Apply(t, Point(q.x + cx, q.y + cy))
  {
    var t1 := ApplyOp(t, Translate(cx, cy));
    var t2 := ApplyOp(t1, op);
    var p1 := Point(p.x - cx, p.y - cy);
    OpActsFirst(t2, Translate(-cx, -cy), p);
    assert OpPoint(Translate(-cx, -cy), p) == p1;
    OpActsFirst(t1, op, p1);
    OpActsFirst(t, Translate(cx, cy), OpPoint(op, p1));
  }

  /** A point under `AboutAsWritten`. */
  lemma AboutAsWrittenActs(t: Affine.Affine, op: TransformOp, cx: real, cy: real, p: Point)
    requires !op.Reset?
    ensures var q := OpPoint(op, Point(p.x + cx, p.y + cy));
      Affine.Apply(AboutAsWritten(t, op, cx, cy), p) == Affine.Apply(t, Point(q.x - cx, q.y - cy))
  {
    var t1 := ApplyOp(t, Translate(-cx, -cy));
    var t2 := ApplyOp(t1, op);
    var p1 := Point(p.x + cx, p.y + cy);
    OpActsFirst(t2, Translate(cx, cy), p);
    assert OpPoint(Translate(cx, cy), p) == p1;
    OpActsFirst(t1, op, p1);
    OpActsFirst(t, Translate(-cx, -cy), OpPoint(op, p1));
  }

  /** The Pad's `scale(f, cx, cy)` and `rotate(angle, cx, cy)` on the
      default layer, in the corrected order. */
  function PadAboutPoint(sc: Scene, op: TransformOp, cx: real, cy: real): (r: Scene)
    requires WellFormed(sc)
    ensures WellFormed(r) && r.layers == sc.layers && r.shapes == sc.shapes
    ensures r.layerRecs[sc.layers[0]].transform == About(sc.layerRecs[sc.layers[0]].transform, op, cx, cy)
  {
    SetTransform(sc, sc.layers[0], About(sc.layerRecs[sc.layers[0]].transform, op, cx, cy))
  }

  /** The same, in the order the source uses. */
  function PadAboutPointAsWritten(sc: Scene, op: TransformOp, cx: real, cy: real): (r: Scene)
    requires WellFormed(sc)
    ensures WellFormed(r) && r.layers == sc.layers && r.shapes == sc.shapes
    ensures r.layerRecs[sc.layers[0]].transform == AboutAsWritten(sc.layerRecs[sc.layers[0]].transform, op, cx, cy)
  {
    SetTransform(sc, sc.layers[0], AboutAsWritten(sc.layerRecs[sc.layers[0]].transform, op, cx, cy))
  }

  /** Scaling or rotating about `(cx, cy)` leaves the centre where the old
      transform put it; scaling moves every other point away from the
      centre by the factor first. */
  lemma PadAboutPointFixesCentre(sc: Scene, op: TransformOp, cx: real, cy: real, p: Point)
    requires WellFormed(sc) && (op.Scale? || op.Rotate?)
    ensures var l := sc.layers[0];
      var t, t' := sc.layerRecs[l].transform, PadAboutPoint(sc, op, cx, cy).layerRecs[l].transform;
      Affine.Apply(t', Point(cx, cy)) == Affine.Apply(t, Point(cx, cy))
      && (op.Scale? ==> Affine.Apply(t', p) == Affine.Apply(t, Point(cx + op.sx * (p.x - cx), cy + op.sy * (p.y - cy))))
  {
    var t := sc.layerRecs[sc.layers[0]].transform;
    var t' := PadAboutPoint(sc, op, cx, cy).layerRecs[sc.layers[0]].transform;
    assert t' == About(t, op, cx, cy);
    AboutFixes(t, op, cx, cy);
    if op.Scale? {
      AboutScales(t, op, cx, cy, p);
    }
  }

  lemma AboutFixes(t: Affine.Affine, op: TransformOp, cx: real, cy: real)
    requires op.Scale? || op.Rotate?
    ensures Affine.Apply(About(t, op, cx, cy), Point(cx, cy)) == Affine.Apply(t, Point(cx, cy))
  {
    AboutActs(t, op, cx, cy, Point(cx, cy));
    var q := OpPoint(op, Point(cx - cx, cy - cy));
    OpFixesOrigin(op);
    assert q == Point(0.0, 0.0);
    assert Point(q.x + cx, q.y + cy) == Point(cx, cy);
  }

  lemma AboutScales(t: Affine.Affine, op: TransformOp, cx: real, cy: real, p: Point)
    requires op.Scale?
    ensures Affine.Apply(About(t, op, cx, cy), p)
      == Affine.Apply(t, Point(cx + op.sx * (p.x - cx), cy + op.sy * (p.y - cy)))
  {
    AboutActs(t, op, cx, cy, p);
    var d := Point(p.x - cx, p.y - cy);
    var q := OpPoint(op, d);
    assert q.x == op.sx * (p.x - cx) && q.y == op.sy * (p.y - cy);
    var a, b := Point(q.x + cx, q.y + cy), Point(cx + op.sx * (p.x - cx), cy + op.sy * (p.y - cy));
    assert a == b;
  }

  /** Scaling and rotating keep the origin in place. */
  lemma OpFixesOrigin(op: TransformOp)
    requires !op.Translate?
    ensures OpPoint(op, Point(0.0, 0.0)) == Point(0.0, 0.0)
  {
  }

  /** As written, the point kept in place is `(-cx, -cy)`, not the centre:
      on a new Pad, scaling by any factor but 1 about any centre but the
      origin moves the centre (by 2 about `(1, 0)`, to `(3, 0)`). */
  lemma ScaleAboutPointAsWritten(f: real, cx: real, cy: real)
    requires f != 1.0 && (cx != 0.0 || cy != 0.0)
    ensures var t := NewPad().layerRecs[0].transform;
      Affine.Apply(AboutAsWritten(t, Scale(f, f), cx, cy), Point(-cx, -cy)) == Point(-cx, -cy)
      && Affine.Apply(AboutAsWritten(t, Scale(f, f), cx, cy), Point(cx, cy))
         == Point((2.0 * f - 1.0) * cx, (2.0 * f - 1.0) * cy) != Point(cx, cy)
  {
    assert NewPad().layerRecs[0].transform == Affine.Identity;
    AsWrittenScaleFixes(f, cx, cy);
    AsWrittenScaleMoves(f, cx, cy);
    if cx != 0.0 {
      ScaledMoves(f, cx);
    } else {
      ScaledMoves(f, cy);
    }
  }

  lemma ScaledMoves(f: real, v: real)
    requires f != 1.0 && v != 0.0
    ensures (2.0 * f - 1.0) * v != v
  {
    assert (2.0 * f - 1.0) * v - v == 2.0 * (f - 1.0) * v;
  }

  lemma AsWrittenScaleFixes(f: real, cx: real, cy: real)
    ensures Affine.Apply(AboutAsWritten(Affine.Identity, Scale(f, f), cx, cy), Point(-cx, -cy)) == Point(-cx, -cy)
  {
    AboutAsWrittenActs(Affine.Identity, Scale(f, f), cx, cy, Point(-cx, -cy));
    var q := OpPoint(Scale(f, f), Point(-cx + cx, -cy + cy));
    OpFixesOrigin(Scale(f, f));
    assert q == Point(0.0, 0.0);
    Affine.ApplyIdentity(Point(q.x - cx, q.y - cy));
  }

  lemma AsWrittenScaleMoves(f: real, cx: real, cy: real)
    ensures Affine.Apply(AboutAsWritten(Affine.Identity, Scale(f, f), cx, cy), Point(cx, cy))
      == Point((2.0 * f - 1.0) * cx, (2.0 * f - 1.0) * cy)
  {
    AboutAsWrittenActs(Affine.Identity, Scale(f, f), cx, cy, Point(cx, cy));
    var q := OpPoint(Scale(f, f), Point(cx + cx, cy + cy));
    assert q == Point(f * (cx + cx), f * (cy + cy));
    Affine.ApplyIdentity(Point(q.x - cx, q.y - cy));
    assert f * (cx + cx) - cx == (2.0 * f - 1.0) * cx;
    assert f * (cy + cy) - cy == (2.0 * f - 1.0) * cy;
  }

  /** The two-factor `scale(xFactor, yFactor, cx, cy)` has the same order:
      on a new Pad the centre goes to `((2 xFactor - 1) cx, (2 yFactor - 1) cy)`,
      which moves it whenever a factor other than 1 applies to a non-zero
      coordinate of the centre. */
  lemma ScaleXYAboutPointAsWritten(sx: real, sy: real, cx: real, cy: real)
    requires (sx != 1.0 && cx != 0.0) || (sy != 1.0 && cy != 0.0)
    ensures var t := NewPad().layerRecs[0].transform;
      Affine.Apply(AboutAsWritten(t, Scale(sx, sy), cx, cy), Point(cx, cy))
         == Point((2.0 * sx - 1.0) * cx, (2.0 * sy - 1.0) * cy) != Point(cx, cy)
  {
    assert NewPad().layerRecs[0].transform == Affine.Identity;
    AboutAsWrittenActs(Affine.Identity, Scale(sx, sy), cx, cy, Point(cx, cy));
    var q := OpPoint(Scale(sx, sy), Point(cx + cx, cy + cy));
    assert q == Point(sx * (cx + cx), sy * (cy + cy));
    Affine.ApplyIdentity(Point(q.x - cx, q.y - cy));
    assert sx * (cx + cx) - cx == (2.0 * sx - 1.0) * cx;
    assert sy * (cy + cy) - cy == (2.0 * sy - 1.0) * cy;
    if sx != 1.0 && cx != 0.0 {
      ScaledMoves(sx, cx);
    } else {
      ScaledMoves(sy, cy);
    }
  }

  /** Likewise a quarter turn on a new Pad moves every centre but the
      origin: `(1, 0)` goes to `(-1, 2)`. */
  lemma RotateAboutPointAsWritten(cx: real, cy: real)
    requires cx != 0.0 || cy != 0.0
    ensures var t := NewPad().layerRecs[0].transform;
      Affine.Apply(AboutAsWritten(t, Rotate(0.0, 1.0), cx, cy), Point(cx, cy))
         == Point(-2.0 * cy - cx, 2.0 * cx - cy) != Point(cx, cy)
  {
    var t := NewPad().layerRecs[0].transform;
    assert t == Affine.Identity;
    AboutAsWrittenActs(t, Rotate(0.0, 1.0), cx, cy, Point(cx, cy));
    var q := OpPoint(Rotate(0.0, 1.0), Point(cx + cx, cy + cy));
    assert q == Point(-(cy + cy), cx + cx);
    Affine.ApplyIdentity(Point(q.x - cx, q.y - cy));
  }
}

=== FILE: shape.dfy ===
/** The part of `Shape` every drawable shares: bounding box, flags,
    selection, dragging, and the conversion of window coordinates into the
    shape's own through the layer's and the shape's transforms. The
    geometry setters here are the base class's; `Polygon`, `Path` and
    `Line` refine them in their own modules. */
module Shape {
  import opened Common
  import opened Events
  import Affine

  /** One shape object. `layer` is the back-reference (`null` is `None`),
      `dragDelta` the offset recorded by `startDrag`, `fill` and `stroke`
      the two colours as RGB values. */
  datatype ShapeRec = ShapeRec(
    layer: Option<LayerId>,
    x: real, y: real, width: real, height: real,
    transform: Affine.Affine,
    fill: int, stroke: int,
    visible: bool, eventsEnabled: bool,
    selected: bool, selectable: bool, draggable: bool,
    dragDelta: Point)

  const White: int := 0xFFFFFF
  const Black: int := 0

  /** The constructor, before the shape is added to a layer: identity
      transform, white fill, black stroke, visible, receiving events, and
      neither selectable, draggable nor selected. */
  function NewShape(x: real, y: real, width: real, height: real): (r: ShapeRec)
    ensures r.layer.None? && r.visible && r.eventsEnabled
    ensures !r.selected && !r.selectable && !r.draggable
    ensures r.transform == Affine.Identity
    ensures SelectionConsistent(r)
  {
    ShapeRec(None, x, y, width, height, Affine.Identity, White, Black,
             true, true, false, false, false, Point(0.0, 0.0))
  }

  /** Only a selectable shape can be selected. */
  predicate SelectionConsistent(r: ShapeRec) {
    r.selected ==> r.selectable
  }

  // --- selection flags ---------------------------------------------------

  /** A shape after a flag setter, and the `onSelectionChanged` argument if
      the setter fired it. */
  datatype Flagged = Flagged(shape: ShapeRec, changed: Option<bool>)

  /** `setSelected(sel)`: nothing happens unless the shape is selectable
      and not already in the requested state; then the state changes and
      `onSelectionChanged(sel)` fires once. */
  function SetSelected(r: ShapeRec, sel: bool): (o: Flagged)
    ensures o.changed.Some? <==> r.selectable && r.selected != sel
    ensures o.shape.selected == (if r.selectable then sel else r.selected)
    ensures o.changed.Some? ==> o.changed.value == sel
    ensures o.shape.(selected := r.selected) == r
  {
    if !r.selectable || r.selected == sel then Flagged(r, None)
    else Flagged(r.(selected := sel), Some(sel))
  }

  /** `setSelectable(select)`: clearing the flag deselects the shape first
      (firing the change if it was selected); the draggable flag is left
      alone. */
  function SetSelectable(r: ShapeRec, select: bool): (o: Flagged)
    ensures o.shape.selectable == select && o.shape.draggable == r.draggable
    ensures o.changed.Some? <==> !select && r.selectable && r.selected
    ensures o.changed.Some? ==> o.changed.value == false
    ensures o.shape.selected == (r.selected && (select || !r.selectable))
    ensures o.shape.(selected := r.selected, selectable := r.selectable) == r
  {
    var d := if !select then SetSelected(r, false) else Flagged(r, None);
    Flagged(d.shape.(selectable := select), d.changed)
  }

  /** `setDraggable(drag)`: making a shape draggable makes it selectable;
      clearing the flag leaves selectability alone. */
  function SetDraggable(r: ShapeRec, drag: bool): (o: Flagged)
    ensures o.shape.draggable == drag
    ensures o.shape.selectable == (drag || r.selectable)
    ensures o.shape.selected == r.selected && o.changed.None?
    ensures o.shape.(draggable := r.draggable, selectable := r.selectable) == r
  {
    var d := r.(draggable := drag);
    if drag then SetSelectable(d, true) else Flagged(d, None)
  }

  /** The three setters keep "selected implies selectable". */
  lemma SettersKeepConsistency(r: ShapeRec, b: bool)
    requires SelectionConsistent(r)
    ensures SelectionConsistent(SetSelected(r, b).shape)
    ensures SelectionConsistent(SetSelectable(r, b).shape)
    ensures SelectionConsistent(SetDraggable(r, b).shape)
  {
  }

  /** Draggable but not selectable is reachable: make a new shape
      draggable, then clear its selectable flag. Such a shape can never be
      selected and therefore is never dragged. */
  lemma DraggableWithoutSelectable(x: real, y: real, w: real, h: real)
    ensures var r := SetSelectable(SetDraggable(NewShape(x, y, w, h), true).shape, false).shape;
      r.draggable && !r.selectable && !SetSelected(r, true).shape.selected
  {
  }

  // --- location and size ---------------------------------------------------

  /** `setLocation(x, y)` of the base class. */
  function SetLocation(r: ShapeRec, x: real, y: real): (o: ShapeRec)
    ensures o.x == x && o.y == y
    ensures o.(x := r.x, y := r.y) == r
  {
    r.(x := x, y := y)
  }

  /** `move(dx, dy)`. */
  function Move(r: ShapeRec, dx: real, dy: real): (o: ShapeRec)
    ensures o.x - r.x == dx && o.y - r.y == dy
    ensures o.width == r.width && o.height == r.height
    ensures o.(x := r.x, y := r.y) == r
  {
    SetLocation(r, r.x + dx, r.y + dy)
  }

  /** Two moves add up. */
  lemma MoveTwice(r: ShapeRec, a: real, b: real, c: real, d: real)
    ensures Move(Move(r, a, b), c, d) == Move(r, a + c, b + d)
  {
  }

  /** `getCenter()`. */
  function GetCenter(r: ShapeRec): Point {
    Point(r.x + 0.5 * r.width, r.y + 0.5 * r.height)
  }

  /** `setCenter(cx, cy)`: the location that puts the centre at `(cx, cy)`
      for the current size. */
  function SetCenter(r: ShapeRec, cx: real, cy: real): (o: ShapeRec)
    ensures o.width == r.width && o.height == r.height
    ensures GetCenter(o) == Point(cx, cy)
  {
    SetLocation(r, cx - 0.5 * r.width, cy - 0.5 * r.height)
  }

  /** Setting the centre to where it is changes nothing. */
  lemma CenterRoundTrip(r: ShapeRec)
    ensures SetCenter(r, GetCenter(r).x, GetCenter(r).y) == r
  {
  }

  /** `setSize(w, h)` of the base class, which `setWidth` and `setHeight`
      call with the other dimension unchanged. */
  function SetSize(r: ShapeRec, w: real, h: real): (o: ShapeRec)
    ensures o.width == w && o.height == h && o.x == r.x && o.y == r.y
    ensures o.(width := r.width, height := r.height) == r
  {
    r.(width := w, height := h)
  }

  // --- the hit-test drawing ----------------------------------------------

  /** `draw(g, clr)`: the shape is drawn with both colours set to `clr`,
      and the colours it had are put back. The result is the colour pair
      the drawing used and the shape afterwards. */
  function DrawInColour(r: ShapeRec, clr: int): (o: (int, int, ShapeRec))
    ensures o.0 == clr && o.1 == clr
    ensures o.2 == r
  {
    var during := r.(fill := clr, stroke := clr);
    (during.fill, during.stroke, during.(fill := r.fill, stroke := r.stroke))
  }

  // --- coordinates ---------------------------------------------------------

  /** The conversion every event handler of a shape performs: invert the
      layer's transform, then the shape's. A singular transform throws,
      which is caught and printed: the point keeps whatever conversion was
      done before the throw. */
  function ToShapeCoords(layerT: Affine.Affine, shapeT: Affine.Affine, p: Point): (q: Point)
    ensures Affine.Det(layerT) == 0.0 ==> q == p
  {
    match Affine.InverseApply(layerT, p)
    case None => p
    case Some(p1) =>
      match Affine.InverseApply(shapeT, p1)
      case None => p1
      case Some(p2) => p2
  }

  /** What the conversion gives: a point the transforms take back to `p`,
      or, when only the shape's transform is singular, a point the layer's
      takes back to `p`. */
  lemma ToShapeCoordsInverts(layerT: Affine.Affine, shapeT: Affine.Affine, p: Point)
    ensures var q := ToShapeCoords(layerT, shapeT, p);
      (Affine.Det(layerT) != 0.0 && Affine.Det(shapeT) == 0.0 ==> Affine.Apply(layerT, q) == p)
      && (Affine.Det(layerT) != 0.0 && Affine.Det(shapeT) != 0.0 ==> Affine.Apply(layerT, Affine.Apply(shapeT, q)) == p)
  {
    if Affine.Det(layerT) != 0.0 {
      Affine.InverseApplies(layerT, p);
      var p1 := Affine.InverseApply(layerT, p).value;
      if Affine.Det(shapeT) != 0.0 {
        Affine.InverseApplies(shapeT, p1);
      }
    }
  }

  /** `toWindowCoords(p)`: the shape's transform, then its layer's when it
      has one. `layerT` is the transform of the back-referenced layer. */
  function ToWindowCoords(shapeT: Affine.Affine, layerT: Option<Affine.Affine>, p: Point): (q: Point)
    ensures layerT.None? ==> q == Affine.Apply(shapeT, p)
    ensures layerT.Some? ==> q == Affine.Apply(layerT.value, Affine.Apply(shapeT, p))
  {
    var p1 := Affine.Apply(shapeT, p);
    if layerT.Some? then Affine.Apply(layerT.value, p1) else p1
  }

  /** The event path inverts what `toWindowCoords` does: with invertible
      transforms a point taken to the window and back is the point. */
  lemma WindowRoundTrip(shapeT: Affine.Affine, layerT: Affine.Affine, p: Point)
    requires Affine.Det(shapeT) != 0.0 && Affine.Det(layerT) != 0.0
    ensures ToShapeCoords(layerT, shapeT, ToWindowCoords(shapeT, Some(layerT), p)) == p
  {
    var w := ToWindowCoords(shapeT, Some(layerT), p);
    Affine.InverseRoundTrip(layerT, Affine.Apply(shapeT, p));
    Affine.InverseRoundTrip(shapeT, p);
  }

  // --- dragging --------------------------------------------------------------

  /** `startDrag(x, y)`: records the offset from the pointer, in shape
      coordinates, to the location. `layerT` is the transform of the
      back-referenced layer; a `null` back-reference throws. */
  function StartDrag(r: ShapeRec, layerT: Option<Affine.Affine>, p: Point): (o: Result<ShapeRec>)
    ensures o.Err? <==> layerT.None?
    ensures o.Err? ==> o.failure == NullReference
    ensures o.Ok? ==> var q := ToShapeCoords(layerT.value, r.transform, p);
      o.value == r.(dragDelta := Point(r.x - q.x, r.y - q.y))
  {
    if layerT.None? then Err(NullReference)
    else
      var q := ToShapeCoords(layerT.value, r.transform, p);
      Ok(r.(dragDelta := Point(r.x - q.x, r.y - q.y)))
  }

  /** `doDrag(x, y)`: only a shape that is both selected and draggable
      moves, to the pointer in shape coordinates plus the recorded offset. */
  function DoDrag(r: ShapeRec, layerT: Option<Affine.Affine>, p: Point): (o: Result<ShapeRec>)
    ensures !(r.selected && r.draggable) ==> o == Ok(r)
    ensures o.Err? <==> r.selected && r.draggable && layerT.None?
    ensures o.Ok? ==> o.value.(x := r.x, y := r.y) == r
    ensures o.Ok? && r.selected && r.draggable ==>
      var q := ToShapeCoords(layerT.value, r.transform, p);
      o.value.x == q.x + r.dragDelta.x && o.value.y == q.y + r.dragDelta.y
  {
    if !(r.selected && r.draggable) then Ok(r)
    else if layerT.None? then Err(NullReference)
    else
      var q := ToShapeCoords(layerT.value, r.transform, p);
      Ok(SetLocation(r, q.x + r.dragDelta.x, q.y + r.dragDelta.y))
  }

  /** `doDrag` places the shape from the pointer alone: dragging the
      dragged shape to the same point again changes nothing. */
  lemma DoDragIdempotent(r: ShapeRec, layerT: Option<Affine.Affine>, p: Point)
    requires DoDrag(r, layerT, p).Ok?
    ensures DoDrag(DoDrag(r, layerT, p).value, layerT, p) == DoDrag(r, layerT, p)
  {
  }

  /** A drag that ends where it started leaves the shape where it was, and
      in general the shape follows the pointer: it moves by the pointer's
      displacement in shape coordinates. */
  lemma DragFollowsPointer(r: ShapeRec, layerT: Affine.Affine, p0: Point, p1: Point)
    requires r.selected && r.draggable
    ensures var s := StartDrag(r, Some(layerT), p0).value;
      var q0, q1 := ToShapeCoords(layerT, r.transform, p0), ToShapeCoords(layerT, r.transform, p1);
      var o := DoDrag(s, Some(layerT), p1).value;
      o.x == r.x + (q1.x - q0.x) && o.y == r.y + (q1.y - q0.y)
    ensures DoDrag(StartDrag(r, Some(layerT), p0).value, Some(layerT), p0)
      == Ok(StartDrag(r, Some(layerT), p0).value)
  {
  }
}

=== FILE: sprite.dfy ===
/** `Sprite`: an image shape that shows one frame of a horizontal sprite
    sheet at a time. The model keeps the fields that the frame counter, the
    drawn slice and the hit region depend on; loading the image file is
    not modelled (its height is a field). */
module Sprite {
  import opened Common

  datatype Sprite = Sprite(
    x: real, y: real,
    height: real,            // height of the sheet image
    frameWidth: real,        // width of one frame in the sheet
    nFrames: int,            // number of frames in the sheet
    frameNum: int,           // frame currently shown
    targetWidth: real,       // width the frame is drawn with
    targetHeight: real,      // height the frame is drawn with
    filled: bool)            // `setFilled`: a plain rectangle instead of the image

  predicate InRect(r: Rect, p: Point) {
    r.x <= p.x < r.x + r.w && r.y <= p.y < r.y + r.h
  }

  /** A sprite as the constructors leave it: showing frame 0 and not
      filled, so that the image is drawn. The simpler constructor draws at
      the frame size, so it passes the frame width and the image height as
      the target size. */
  function NewSprite(x: real, y: real, height: real, frameWidth: real, nFrames: int,
                     targetWidth: real, targetHeight: real): (s: Sprite)
    ensures s.frameNum == 0 && s.nFrames == nFrames && !s.filled
    ensures s.x == x && s.y == y && s.frameWidth == frameWidth
  {
    Sprite(x, y, height, frameWidth, nFrames, 0, targetWidth, targetHeight, false)
  }

  /** `advance()`: the next frame, wrapping round after the last one. The
      `int` increment and Java's `%` are written out; `nFrames = 0`
      throws. */
  function Advance(s: Sprite): (r: Result<Sprite>)
    requires IntMin <= s.frameNum <= IntMax
    ensures s.nFrames == 0 <==> r == Err(DivideByZero)
    ensures r.Ok? ==> r.value == s.(frameNum := r.value.frameNum)
    ensures r.Ok? && 0 <= s.frameNum < IntMax ==> 0 <= r.value.frameNum < Abs(s.nFrames)
  {
    if s.nFrames == 0 then Err(DivideByZero)
    else Ok(s.(frameNum := JavaRem(Wrap32(s.frameNum + 1), s.nFrames)))
  }

  /** On a sheet with frames, `advance` moves to the next frame, and from
      the last frame back to the first. */
  lemma AdvanceStep(s: Sprite)
    requires 0 <= s.frameNum < s.nFrames <= IntMax
    ensures Advance(s).value.frameNum == if s.frameNum + 1 < s.nFrames then s.frameNum + 1 else 0
  {
    var n := s.nFrames;
    if s.frameNum + 1 == n {
      ModUnique(n, 1, 0, n);
      assert JavaDiv(n, n) == 1;
    }
  }

  /** `k` calls of `advance()` on a sheet with frames. */
  function AdvanceN(s: Sprite, k: nat): (r: Sprite)
    requires 0 <= s.frameNum < s.nFrames <= IntMax
    ensures r.nFrames == s.nFrames && 0 <= r.frameNum < r.nFrames
    decreases k
  {
    if k == 0 then s else AdvanceN(Advance(s).value, k - 1)
  }

  /** The frame counter is a clock modulo `nFrames`: after `k` advances the
      frame shown is the starting frame plus `k`, wrapped. */
  lemma {:induction false} AdvanceCounts(s: Sprite, k: nat)
    requires 0 <= s.frameNum < s.nFrames <= IntMax
    ensures AdvanceN(s, k).frameNum == (s.frameNum + k) % s.nFrames
    decreases k
  {
    if k > 0 {
      var next := Advance(s).value;
      AdvanceStep(s);
      AdvanceCounts(next, k - 1);
      assert next.frameNum == (s.frameNum + 1) % s.nFrames;
      ModAddOne(s.frameNum, k - 1, s.nFrames);
    }
  }

  lemma ModAddOne(a: int, k: nat, n: int)
    requires n > 0 && 0 <= a < n
    ensures ((a + 1) % n + k) % n == (a + 1 + k) % n
  {
    if a + 1 == n {
      assert (a + 1) % n == 0;
      ModUnique(a + 1 + k, 1 + k / n, k % n, n);
    } else {
      assert (a + 1) % n == a + 1;
    }
  }

  /** After `nFrames` advances the sprite shows the frame it started on. */
  lemma AdvancePeriod(s: Sprite)
    requires 0 <= s.frameNum < s.nFrames <= IntMax
    ensures AdvanceN(s, s.nFrames as nat).frameNum == s.frameNum
  {
    AdvanceCounts(s, s.nFrames as nat);
    ModUnique(s.frameNum + s.nFrames, 1, s.frameNum, s.nFrames);
  }

  /** `(int) Math.round(v)`: round half up to a `long` (saturating), then
      narrow to `int`. */
  function RoundToIntViaLong(v: real): (i: int)
    ensures IntMin <= i <= IntMax
    ensures IntMin as real <= v < IntMax as real ==> i as real - 0.5 <= v < i as real + 0.5
  {
    var l := (v + 0.5).Floor;
    Wrap32(if l < LongMin then LongMin else if l > LongMax then LongMax else l)
  }

  /** The columns `[start, end)` of the sheet that `draw` copies: frame
      `frameNum` of width `round(frameWidth)`, with `int` arithmetic. */
  function SourceColumns(s: Sprite): (cols: (int, int))
    ensures var fw := RoundToIntViaLong(s.frameWidth);
      InInt(s.frameNum * fw) && InInt((s.frameNum + 1) * fw) ==>
        cols.0 == s.frameNum * fw && cols.1 - cols.0 == fw
  {
    var fw := RoundToIntViaLong(s.frameWidth);
    assert (s.frameNum + 1) * fw == s.frameNum * fw + fw;
    (Wrap32(s.frameNum * fw), Wrap32((s.frameNum + 1) * fw))
  }

  /** Consecutive frames occupy adjacent slices of the sheet. */
  lemma SlicesTile(s: Sprite)
    requires var fw := RoundToIntViaLong(s.frameWidth);
      fw >= 0 && 0 <= s.frameNum && (s.frameNum + 2) * fw <= IntMax
    ensures SourceColumns(s).1 == SourceColumns(s.(frameNum := s.frameNum + 1)).0
  {
    var fw := RoundToIntViaLong(s.frameWidth);
    var t := s.(frameNum := s.frameNum + 1);
    ProductsInRange(s.frameNum, fw);
    assert SourceColumns(s).1 == Wrap32((s.frameNum + 1) * fw);
    assert SourceColumns(t).0 == Wrap32(t.frameNum * fw);
  }

  lemma ProductsInRange(n: int, fw: int)
    requires 0 <= n && 0 <= fw && (n + 2) * fw <= IntMax
    ensures 0 <= n * fw <= (n + 1) * fw <= IntMax
  {
    assert (n + 2) * fw == (n + 1) * fw + fw;
    assert (n + 1) * fw == n * fw + fw;
  }

  /** A coordinate `draw` rounds before handing it to `drawImage`. */
  predicate Drawable(v: real) {
    IntMin as real <= v < IntMax as real
  }

  /** Where the sprite appears on the pad. A filled sprite is a rectangle
      of exactly the target size at the location. Otherwise the frame is
      drawn from the corner `(ix, iy)` to `(ix + tw, iy + th)`, all four
      rounded to `int` and added in `int` arithmetic. */
  function DrawnRect(s: Sprite): (r: Rect)
    ensures s.filled ==> r.x == s.x && r.y == s.y && r.w == s.targetWidth && r.h == s.targetHeight
    ensures !s.filled && Drawable(s.x) && Drawable(s.y) ==> -0.5 <= r.x - s.x <= 0.5 && -0.5 <= r.y - s.y <= 0.5
  {
    if s.filled then Rect(s.x, s.y, s.targetWidth, s.targetHeight)
    else
      var ix, iy := RoundToIntViaLong(s.x), RoundToIntViaLong(s.y);
      var tw, th := RoundToIntViaLong(s.targetWidth), RoundToIntViaLong(s.targetHeight);
      Rect(ix as real, iy as real, (Wrap32(ix + tw) - ix) as real, (Wrap32(iy + th) - iy) as real)
  }

  /** Without `int` overflow, the picture is the target rectangle with
      each edge moved to a whole pixel: the near edges by at most half a
      unit, the far edges by at most one. */
  lemma DrawnRectRounds(s: Sprite)
    requires !s.filled
    requires Drawable(s.x) && Drawable(s.y) && Drawable(s.targetWidth) && Drawable(s.targetHeight)
    requires InInt(RoundToIntViaLong(s.x) + RoundToIntViaLong(s.targetWidth))
    requires InInt(RoundToIntViaLong(s.y) + RoundToIntViaLong(s.targetHeight))
    ensures var r := DrawnRect(s);
      -0.5 <= r.x - s.x <= 0.5 && -0.5 <= r.y - s.y <= 0.5
      && -1.0 <= (r.x + r.w) - (s.x + s.targetWidth) <= 1.0
      && -1.0 <= (r.y + r.h) - (s.y + s.targetHeight) <= 1.0
  {
    var ix, tw := RoundToIntViaLong(s.x), RoundToIntViaLong(s.targetWidth);
    var iy, th := RoundToIntViaLong(s.y), RoundToIntViaLong(s.targetHeight);
    assert Wrap32(ix + tw) == ix + tw;
    assert Wrap32(iy + th) == iy + th;
  }

  /** The region `draw(g, clr)` fills for hit detection, as written:
      `frameWidth` by the sheet height. */
  function HitRectAsWritten(s: Sprite): (r: Rect)
    ensures r.x == s.x && r.y == s.y
    ensures s.filled && s.targetWidth == s.frameWidth && s.targetHeight == s.height ==> r == DrawnRect(s)
  {
    Rect(s.x, s.y, s.frameWidth, s.height)
  }

  /** A sprite drawn at twice its frame size: a click on the right half of
      the picture lands outside the hit region, so the click is missed. */
  lemma HitRegionMissesDrawnSprite()
    ensures var s := NewSprite(0.0, 0.0, 10.0, 10.0, 4, 20.0, 20.0);
      InRect(DrawnRect(s), Point(15.0, 15.0)) && !InRect(HitRectAsWritten(s), Point(15.0, 15.0))
  {
    var s := NewSprite(0.0, 0.0, 10.0, 10.0, 4, 20.0, 20.0);
    assert RoundToIntViaLong(0.0) == 0;
    assert RoundToIntViaLong(20.0) == 20;
  }

  /** The hit region matching what is drawn: the target size at the
      location. It is the region as written exactly when the sprite is
      drawn at its frame size, and it contains that region whenever the
      target size is at least the frame size. */
  function HitRect(s: Sprite): (r: Rect)
    ensures r == HitRectAsWritten(s) <==> s.targetWidth == s.frameWidth && s.targetHeight == s.height
    ensures s.frameWidth <= s.targetWidth && s.height <= s.targetHeight ==>
      forall p :: InRect(HitRectAsWritten(s), p) ==> InRect(r, p)
    ensures s.filled ==> r == DrawnRect(s)
  {
    Rect(s.x, s.y, s.targetWidth, s.targetHeight)
  }

  /** The corrected hit region follows the picture: when the image is
      drawn, every edge of the hit region is within one unit of the same
      edge of the picture (half a unit for the near edges), whatever the
      frame width and sheet height; the region as written is off by the
      difference between the target size and the frame size. */
  lemma HitRectFollowsPicture(s: Sprite)
    requires !s.filled
    requires Drawable(s.x) && Drawable(s.y) && Drawable(s.targetWidth) && Drawable(s.targetHeight)
    requires InInt(RoundToIntViaLong(s.x) + RoundToIntViaLong(s.targetWidth))
    requires InInt(RoundToIntViaLong(s.y) + RoundToIntViaLong(s.targetHeight))
    ensures var d, h, w := DrawnRect(s), HitRect(s), HitRectAsWritten(s);
      -0.5 <= h.x - d.x <= 0.5 && -0.5 <= h.y - d.y <= 0.5
      && -1.0 <= (h.x + h.w) - (d.x + d.w) <= 1.0
      && -1.0 <= (h.y + h.h) - (d.y + d.h) <= 1.0
      && (w.x + w.w) - (h.x + h.w) == s.frameWidth - s.targetWidth
      && (w.y + w.h) - (h.y + h.h) == s.height - s.targetHeight
  {
    DrawnRectRounds(s);
  }
}

=== FILE: throttle.dfy ===
/** `Throttle`: a frame pacer that remembers when the current frame
    started and, at the end of a frame, asks to sleep for whatever is left
    of the frame duration. All arithmetic is on 64-bit `long`s, so it is
    written with explicit wrap-around. The clock reading `System.nanoTime()`
    is passed in as `now`, and the call to `Thread.sleep` is returned as a
    request instead of being performed. */
module Throttle {
  import opened Common

  /** Start of the current frame and the length of a frame, in nanoseconds. */
  datatype Throttle = Throttle(start: int, frameDuration: int)

  /** The arguments of `Thread.sleep(millis, nanos)`. */
  datatype Sleep = Sleep(millis: int, nanos: int)

  const NanosPerSecond: int := 1_000_000_000
  const NanosPerMilli: int := 1_000_000

  /** `new Throttle(fps)`: a frame lasts a whole number of nanoseconds,
      `10^9 / fps` rounded toward zero; `fps = 0` throws. */
  function NewThrottle(fps: int, now: int): (r: Result<Throttle>)
    requires LongMin <= fps <= LongMax
    ensures fps == 0 <==> r == Err(DivideByZero)
    ensures fps > 0 ==> r.Ok? && r.value.frameDuration * fps <= NanosPerSecond < (r.value.frameDuration + 1) * fps
    ensures r.Ok? ==> r.value.start == now
  {
    if fps == 0 then Err(DivideByZero)
    else Ok(Throttle(now, JavaDiv(NanosPerSecond, fps)))
  }

  /** `new Throttle()`: sixty frames per second. */
  function DefaultThrottle(now: int): (th: Throttle)
    ensures th.frameDuration == 16_666_666
    ensures th.start == now
  {
    NewThrottle(60, now).value
  }

  /** `start()`: the current frame begins now. */
  function Start(th: Throttle, now: int): (r: Throttle)
    ensures r.start == now && r.frameDuration == th.frameDuration
  {
    th.(start := now)
  }

  /** `delay()`: the time still owed to this frame is the frame duration
      minus the time elapsed since `start`; sleep for it only when it is
      positive. Whatever was measured, the next frame is scheduled exactly
      one frame duration after this one. */
  function Delay(th: Throttle, now: int): (r: (Throttle, Option<Sleep>))
    ensures r.0.frameDuration == th.frameDuration
    ensures r.0.start == Wrap64(th.start + th.frameDuration)
    ensures var remaining := Wrap64(th.frameDuration - Wrap64(now - th.start));
      match r.1
      case None => remaining <= 0
      case Some(sl) =>
        && remaining > 0
        && sl.millis * NanosPerMilli + sl.nanos == remaining
        && 0 <= sl.nanos < NanosPerMilli
        && 0 <= sl.millis
  {
    var diff := Wrap64(now - th.start);
    var remaining := Wrap64(th.frameDuration - diff);
    var sleep :=
      if remaining > 0 then
        Some(Sleep(JavaDiv(remaining, NanosPerMilli), Wrap32(JavaRem(remaining, NanosPerMilli))))
      else None;
    (Throttle(Wrap64(th.start + th.frameDuration), th.frameDuration), sleep)
  }

  /** The schedule of frame starts after a run of frames ended at the
      clock readings `nows`. */
  function DelayAll(th: Throttle, nows: seq<int>): Throttle
    decreases |nows|
  {
    if nows == [] then th else DelayAll(Delay(th, nows[0]).0, nows[1..])
  }

  /** The frame schedule never drifts: after `n` frames the start has moved
      by exactly `n` frame durations (modulo 2^64), whatever the clock said. */
  lemma {:induction false} ScheduleIsFixed(th: Throttle, nows: seq<int>)
    requires LongMin <= th.start <= LongMax
    ensures DelayAll(th, nows).start == Wrap64(th.start + |nows| * th.frameDuration)
    ensures DelayAll(th, nows).frameDuration == th.frameDuration
    decreases |nows|
  {
    if nows != [] {
      var next := Delay(th, nows[0]).0;
      assert next.start == Wrap64(th.start + th.frameDuration);
      ScheduleIsFixed(next, nows[1..]);
      assert DelayAll(th, nows) == DelayAll(next, nows[1..]);
      Wrap64Add(th.start + th.frameDuration, (|nows| - 1) * th.frameDuration);
      assert th.start + th.frameDuration + (|nows| - 1) * th.frameDuration
          == th.start + |nows| * th.frameDuration;
    }
  }
}

=== FILE: timers.dfy ===
/** The two tick timers: `Timer`, a free-standing timer object, and the
    timer built into `Pad`. Both wrap a `javax.swing.Timer` that fires at a
    fixed period while running; they differ only in which tick rates they
    accept. The Swing timer is represented by its period and its running
    flag; one firing of it is the `Tick` function. Handlers and listeners
    are identified by number. */
module Timers {
  import opened Common
  import Lists

  /** The tick rate (ticks per second), the period of the Swing timer in
      milliseconds, and whether it is running. After construction the Swing
      timer always exists, so `isRunning()` is the running flag. */
  datatype Clock = Clock(tickRate: real, period: int, running: bool)

  type ListenerId = nat

  /** What one tick invokes: the tick handler (through `onTick`), then a
      registered tick listener. */
  datatype TickCall = TickHandler(when: int) | TickListener(id: ListenerId, when: int)

  /** The tick side shared by both timers. */
  datatype Ticker = Ticker(clock: Clock, hasTickHandler: bool, tickListeners: seq<ListenerId>)

  /** `Timer`: additionally keeps start and stop handlers and listeners,
      which nothing in the class ever invokes. */
  datatype Timer = Timer(
    ticker: Ticker,
    hasStartHandler: bool, hasStopHandler: bool,
    startListeners: seq<ListenerId>, stopListeners: seq<ListenerId>)

  const DefaultTickRate: real := 60.0

  /** `(int)(1000.0 / tps)`: the period in whole milliseconds. */
  function PeriodFor(tps: real): (ms: int)
    requires tps > 0.0
    ensures ms >= 0
    ensures tps >= 1000.0 / IntMax as real ==> ms as real <= 1000.0 / tps < ms as real + 1.0
  {
    DoubleToInt(1000.0 / tps)
  }

  /** `Timer.setTickRate`: a rate that is not positive throws before
      anything changes; otherwise the rate is stored and a fresh, stopped
      Swing timer replaces the old one. */
  function TimerSetTickRate(c: Clock, tps: real): (r: Result<Clock>)
    ensures tps <= 0.0 <==> r == Err(IllegalArgument)
    ensures r.Ok? ==> r.value.tickRate == tps && !r.value.running
    ensures r.Ok? ==> r.value.period as real <= 1000.0 / tps
  {
    if tps <= 0.0 then Err(IllegalArgument)
    else Ok(Clock(tps, PeriodFor(tps), false))
  }

  /** `Pad.setTickRate`: only a negative rate throws. A rate of 0 is
      stored; `1000.0 / 0.0` is infinite and its `int` cast saturates, so
      the period is the largest `int`. */
  function PadSetTickRate(c: Clock, tps: real): (r: Result<Clock>)
    ensures tps < 0.0 <==> r == Err(IllegalArgument)
    ensures r.Ok? ==> r.value.tickRate == tps && !r.value.running
    ensures tps == 0.0 ==> r == Ok(Clock(0.0, IntMax, false))
    ensures tps > 0.0 ==> r == TimerSetTickRate(c, tps)
  {
    if tps < 0.0 then Err(IllegalArgument)
    else if tps == 0.0 then Ok(Clock(0.0, IntMax, false))
    else Ok(Clock(tps, PeriodFor(tps), false))
  }

  /** The clock both constructors set up through `setTickRate(60)`. */
  function DefaultClock(): (c: Clock)
    ensures c.tickRate == 60.0 && c.period == 16 && !c.running
  {
    TimerSetTickRate(Clock(DefaultTickRate, 0, false), DefaultTickRate).value
  }

  /** `new Timer(tps)`: no handlers or listeners. */
  function NewTimer(tps: real): (r: Result<Timer>)
    ensures tps <= 0.0 <==> r.Err?
    ensures r.Ok? ==> !IsRunning(r.value.ticker.clock) && r.value.ticker.clock.tickRate == tps
    ensures r.Ok? ==> r.value.ticker.tickListeners == [] && !r.value.ticker.hasTickHandler
  {
    match TimerSetTickRate(Clock(DefaultTickRate, 0, false), tps)
    case Err(e) => Err(e)
    case Ok(c) => Ok(Timer(Ticker(c, false, []), false, false, [], []))
  }

  /** `startTimer`: a rate below 1 is raised to 1, but the Swing timer is
      not rebuilt, so the period stays what it was. */
  function Start(c: Clock): (r: Clock)
    ensures r.running && r.period == c.period
    ensures r.tickRate == if c.tickRate < 1.0 then 1.0 else c.tickRate
  {
    Clock(if c.tickRate < 1.0 then 1.0 else c.tickRate, c.period, true)
  }

  /** `stopTimer`. */
  function Stop(c: Clock): (r: Clock)
    ensures !r.running && r.period == c.period && r.tickRate == c.tickRate
  {
    c.(running := false)
  }

  function IsRunning(c: Clock): bool {
    c.running
  }

  /** `toggleTimer`. */
  function Toggle(c: Clock): (r: Clock)
    ensures IsRunning(r) == !IsRunning(c)
    ensures r.period == c.period
  {
    if IsRunning(c) then Stop(c) else Start(c)
  }

  /** Stopping twice is stopping once. */
  lemma StopIdempotent(c: Clock)
    ensures Stop(Stop(c)) == Stop(c)
  {
  }

  /** Toggling twice restores the running state; the rate may have been
      raised to 1 on the way. */
  lemma ToggleTwice(c: Clock)
    ensures IsRunning(Toggle(Toggle(c))) == IsRunning(c)
    ensures Toggle(Toggle(c)).period == c.period
    ensures c.tickRate >= 1.0 ==> Toggle(Toggle(c)) == c
  {
  }

  /** One firing of the Swing timer: `onTick` calls the tick handler if one
      is set, then every tick listener is called in registration order. A
      stopped timer does not fire. */
  function Tick(t: Ticker, when: int): (calls: seq<TickCall>)
    ensures !t.clock.running ==> calls == []
    ensures t.clock.running ==>
      var skip := if t.hasTickHandler then 1 else 0;
      && |calls| == skip + |t.tickListeners|
      && (t.hasTickHandler ==> calls[0] == TickHandler(when))
      && forall i :: 0 <= i < |t.tickListeners| ==> calls[skip + i] == TickListener(t.tickListeners[i], when)
  {
    if !t.clock.running then []
    else (if t.hasTickHandler then [TickHandler(when)] else []) + ListenerCalls(t.tickListeners, when)
  }

  /** The listener loop of a tick. */
  function ListenerCalls(ids: seq<ListenerId>, when: int): (calls: seq<TickCall>)
    ensures |calls| == |ids|
    ensures forall i :: 0 <= i < |ids| ==> calls[i] == TickListener(ids[i], when)
  {
    if ids == [] then [] else [TickListener(ids[0], when)] + ListenerCalls(ids[1..], when)
  }

  /** `addTickListener`: appended, duplicates allowed. */
  function AddTickListener(t: Ticker, id: ListenerId): (r: Ticker)
    ensures r.tickListeners == t.tickListeners + [id]
    ensures r.clock == t.clock && r.hasTickHandler == t.hasTickHandler
  {
    t.(tickListeners := t.tickListeners + [id])
  }

  /** `removeTickListener`: removes the first registration only, keeping
      the order of the others; an unregistered listener changes nothing. */
  function RemoveTickListener(t: Ticker, id: ListenerId): (r: Ticker)
    ensures id !in t.tickListeners ==> r == t
    ensures id in t.tickListeners ==> var i := Lists.IndexOf(t.tickListeners, id);
      id !in t.tickListeners[..i] && r.tickListeners == t.tickListeners[..i] + t.tickListeners[i + 1..]
    ensures multiset(r.tickListeners) == multiset(t.tickListeners) - multiset{id}
    ensures Lists.Count(r.tickListeners, id) == if id in t.tickListeners then Lists.Count(t.tickListeners, id) - 1 else 0
    ensures r.clock == t.clock && r.hasTickHandler == t.hasTickHandler
  {
    t.(tickListeners := Lists.RemoveFirst(t.tickListeners, id))
  }

  /** How many of `calls` go to listener `id`. */
  function Notifications(calls: seq<TickCall>, id: ListenerId): nat {
    if calls == [] then 0
    else (if calls[0].TickListener? && calls[0].id == id then 1 else 0) + Notifications(calls[1..], id)
  }

  lemma {:induction false} NotificationsAppend(a: seq<TickCall>, b: seq<TickCall>, id: ListenerId)
    ensures Notifications(a + b, id) == Notifications(a, id) + Notifications(b, id)
  {
    if a == [] {
      assert a + b == b;
    } else {
      assert (a + b)[0] == a[0];
      assert (a + b)[1..] == a[1..] + b;
      NotificationsAppend(a[1..], b, id);
    }
  }

  lemma {:induction false} ListenerCallsCount(ids: seq<ListenerId>, id: ListenerId, when: int)
    ensures Notifications(ListenerCalls(ids, when), id) == Lists.Count(ids, id)
  {
    if ids != [] {
      ListenerCallsCount(ids[1..], id, when);
      assert ids == [ids[0]] + ids[1..];
      assert multiset(ids) == multiset{ids[0]} + multiset(ids[1..]);
      var calls := ListenerCalls(ids, when);
      assert calls[1..] == ListenerCalls(ids[1..], when);
    }
  }

  /** Each registration of a listener is one call per tick. */
  lemma NotifiedOncePerRegistration(t: Ticker, id: ListenerId, when: int)
    requires t.clock.running
    ensures Notifications(Tick(t, when), id) == Lists.Count(t.tickListeners, id)
  {
    var pre: seq<TickCall> := if t.hasTickHandler then [TickHandler(when)] else [];
    NotificationsAppend(pre, ListenerCalls(t.tickListeners, when), id);
    ListenerCallsCount(t.tickListeners, id, when);
    if t.hasTickHandler {
      assert Notifications(pre, id) == Notifications(pre[1..], id);
    }
  }

  /** A listener added twice and removed once is still called on every
      tick. */
  lemma DoubleRegistration(t: Ticker, id: ListenerId, when: int)
    requires t.clock.running
    ensures var t' := RemoveTickListener(AddTickListener(AddTickListener(t, id), id), id);
      Notifications(Tick(t', when), id) == Lists.Count(t.tickListeners, id) + 1
  {
    var t' := RemoveTickListener(AddTickListener(AddTickListener(t, id), id), id);
    NotifiedOncePerRegistration(t', id, when);
    assert Lists.Count(t.tickListeners + [id] + [id], id) == Lists.Count(t.tickListeners, id) + 2 by {
      assert multiset(t.tickListeners + [id] + [id]) == multiset(t.tickListeners) + multiset{id, id};
    }
  }
}

=== FILE: util.dfy ===
/** `Util.constrain`, the clamp used by the library: one version for `int`
    and one for `double`. The two differ when the bounds are crossed
    (`min > max`): the integer version yields `max`, the real one `min`. */
module Util {

  /** `constrain(int, int, int)`: raise to `min`, then lower to `max`. */
  function ConstrainInt(v: int, min: int, max: int): (r: int)
    ensures min <= max ==> min <= r <= max
    ensures min <= max ==> (r == v <==> min <= v <= max)
    ensures v < min && min <= max ==> r == min
    ensures v > max ==> r == max
    ensures min > max ==> r == max
  {
    var raised := if v < min then min else v;
    if raised > max then max else raised
  }

  /** `constrain(double, double, double)`: `Math.max(Math.min(v, max), min)`. */
  function ConstrainReal(v: real, min: real, max: real): (r: real)
    ensures min <= max ==> min <= r <= max
    ensures min <= max ==> (r == v <==> min <= v <= max)
    ensures v > max && min <= max ==> r == max
    ensures v < min ==> r == min
    ensures min > max ==> r == min
  {
    var lowered := if v < max then v else max;
    if lowered > min then lowered else min
  }

  /** Clamping twice is clamping once. */
  lemma ConstrainIntIdempotent(v: int, min: int, max: int)
    ensures ConstrainInt(ConstrainInt(v, min, max), min, max) == ConstrainInt(v, min, max)
  {
  }

  lemma ConstrainRealIdempotent(v: real, min: real, max: real)
    ensures ConstrainReal(ConstrainReal(v, min, max), min, max) == ConstrainReal(v, min, max)
  {
  }

  /** Both clamps are monotone in the value. */
  lemma ConstrainMonotone(a: int, b: int, min: int, max: int, x: real, y: real, lo: real, hi: real)
    requires a <= b && x <= y
    ensures ConstrainInt(a, min, max) <= ConstrainInt(b, min, max)
    ensures ConstrainReal(x, lo, hi) <= ConstrainReal(y, lo, hi)
  {
  }

  /** For consistent bounds the two versions agree on integral values. */
  lemma ConstrainAgree(v: int, min: int, max: int)
    requires min <= max
    ensures ConstrainReal(v as real, min as real, max as real) == ConstrainInt(v, min, max) as real
  {
  }
}
